=== FILE: README.md ===
# x_candidates: engagement metrics, comparison and categories, in Dafny

This project models the server side of x_candidates. The application pulls a social-media
account's profile and latest posts from a third-party provider API. It stores them, derives
per-post engagement rates and a virality score normalised against the account's cohort, and
compares accounts by those metrics. Four parts of the code are modelled:

- `POST /api/profile/analyze` (`Analyze`). It reads a handle out of what the user typed
  (`Handles`), fetches the profile and the posts through the API client, and maps each post
  to a stored row. Rows are written in chunks of 100, stopping at the first failed chunk.
  The route then reads the saved posts back and derives one analysis row and one
  virality-score row per post (`Metrics`). A score is normalised against the mean raw score
  of the cohort.
- `GET /api/compare` (`Compare`). It parses the `users`, `n` and `autofill` query
  parameters (`Text`, `Params`, `Seqs.Dedupe`). For each handle it looks the profile up,
  optionally runs the analyzer, and reports:
  - the totals;
  - the averaged rates;
  - the mean normalised score;
  - the top three posts by score, through a stable descending sort (`Ranking`).
- The provider API client (`TwitterClient`).
  - It is a class with a log buffer.
  - Each call tries candidate requests in the nested order of its loops: base URL, header
    record, then path and parameter set.
  - It logs every response and returns the first successful body. Otherwise it fails with
    the list of errors.
  - Query strings are built with `encodeURIComponent` (`UriEncoding`), which is proved to
    round-trip.
- `GET`/`POST /api/profile/categories` (`Categories`). These list a profile's political
  categories, or store new ones proposed by the categoriser. The POST never overwrites a
  category the user edited.

The database, the provider API (`fetch`), `JSON.parse`, the categoriser and the clock are
oracles: function-typed fields of `Services`, `Store`, `CatStore` and `Net`. Numbers are
exact reals and unbounded integers. `Math.round(x)` is `Floor(x + 1/2)`.

Three details of the analysis route's arithmetic matter for what is proved:

- `engagement_rate` is `round2` of the sum of the three unrounded rates
  (app/api/profile/analyze/route.ts:106,119). It is not the sum of the rounded rates.
  `Metrics.EngagementIsNotSumOfRoundedRates` shows that the two can differ, and
  `Metrics.EngagementNearSumOfRoundedRates` that they differ by less than two hundredths.
- `normalized_score` divides the stored, already rounded `raw_score` by `avgRaw`, the mean
  of the unrounded raw scores (app/api/profile/analyze/route.ts:137,142-144).
- `round2` is `Math.round(n * 100) / 100` (app/api/profile/analyze/route.ts:171-173).
  `Math.round` rounds halves up, towards positive infinity, not away from zero.

## Model

| member | source | states |
|---|---|---|
| Handles.ExtractUsername | app/api/profile/analyze/route.ts:5-9 | the result is the captured handle when the profile-URL pattern matches the trimmed input, and otherwise the trimmed input without one leading `@` |
| Handles.UrlHandle | app/api/profile/analyze/route.ts:7 | a match captures a non-empty run of handle characters |
| Handles.FirstDomain | app/api/profile/analyze/route.ts:7 | the match used is the leftmost position where `x.com/` or `twitter.com/` (any case) is followed by a handle character |
| Handles.HandleRun | app/api/profile/analyze/route.ts:7 | the capture is the longest prefix of handle characters (greedy `[A-Za-z0-9_]+`) |
| Handles.NormHandle | app/api/compare/route.ts:4-9 | the result has no upper-case ASCII letter and equals `ExtractUsername` up to ASCII case |
| Handles.BareHandle | app/api/profile/analyze/route.ts:5-9 | a bare handle, or one with a leading `@`, comes back unchanged; `NormHandle` keeps a lower-case handle |
| Handles.ProfileUrl | app/api/profile/analyze/route.ts:7-8 | `[http[s]://](x.com\|twitter.com)/<handle><tail>` yields `<handle>` whatever non-handle tail follows |
| Handles.SchemeDomainMatch | app/api/profile/analyze/route.ts:7 | the optional scheme never changes the capture: the first match is the domain after it |
| Handles.NoDotNoDomain | app/api/profile/analyze/route.ts:7 | text without a `.` never matches the URL pattern |
| Text.TrimStart | app/api/profile/analyze/route.ts:6 | only leading white space is dropped, and the result does not start with white space |
| Text.TrimEnd | app/api/profile/analyze/route.ts:6 | only trailing white space is dropped, and the result does not end with white space |
| Text.TrimInfix | app/api/profile/analyze/route.ts:6 | `trim` returns an infix of its input with only white space before and after it |
| Text.ToLower | app/api/compare/route.ts:8 | each upper-case ASCII letter is lowered and every other character is kept |
| Text.ParseInt | app/api/compare/route.ts:47 | `parseInt` is NaN exactly when no digit follows the white space and the optional sign |
| Text.ParseIntToString | app/api/compare/route.ts:47 | `parseInt(String(i)) == i` for every integer |
| Text.SplitJoin | src/lib/twitter-client.ts:76 | splitting joined parts at the separator gives back the parts when none contains it |
| Text.SlicePrefix | app/api/compare/route.ts:73 | `slice(0, end)` is a prefix of length `min(end, length)`, counting a negative end from the back |
| Text.OrElse | app/api/compare/route.ts:37 | `a \|\| b` on a string gives `a` when it is present and non-empty, else `b` |
| Params.ClampParam | app/api/compare/route.ts:47 | the clamped parameter lies within its bounds |
| Params.ClampDefault | app/api/compare/route.ts:47 | a missing, empty, non-numeric or zero parameter gives 100 |
| Params.ClampInRange | app/api/profile/categories/route.ts:45 | a decimal value inside the bounds is read as it is; one outside is clamped to the nearer bound |
| Compare.SplitOnSeparators | app/api/compare/route.ts:38 | the split always yields at least one piece |
| Compare.NonEmpty | app/api/compare/route.ts:40 | exactly the non-empty pieces survive |
| Compare.MapTrim | app/api/compare/route.ts:39 | every trimmed piece is empty or starts and ends with a character other than white space |
| Compare.MapNormHandle | app/api/compare/route.ts:41 | no normalised piece holds an upper-case ASCII letter |
| Compare.Users | app/api/compare/route.ts:37-42 | the handle list has no repetition and no upper-case ASCII letter |
| Compare.PiecesHaveNoSeparator | app/api/compare/route.ts:38 | no piece contains white space or a comma |
| Compare.PiecesAreTrimmed | app/api/compare/route.ts:38-39 | trimming the pieces of the split changes nothing |
| Compare.NonEmptyPieces | app/api/compare/route.ts:38-40 | some piece is non-empty iff the text has a character other than white space and commas |
| Compare.SplitInterleave | app/api/compare/route.ts:38 | there is one more piece than separator characters, and putting the separators back between the pieces gives the text |
| Compare.UsersEmpty | app/api/compare/route.ts:37-45 | the route answers 400 exactly when `users` is absent or made only of separators |
| Compare.LoneAtSign | app/api/compare/route.ts:37-42 | `users=@` yields the single handle `""`; the 400 check does not reject it |
| Seqs.Dedupe | app/api/compare/route.ts:42 | `Array.from(new Set(xs))` has the same elements as `xs` |
| Seqs.DedupeDistinct | app/api/compare/route.ts:42 | the deduplicated list has no repetition |
| Seqs.DedupeFirstOccurrenceOrder | app/api/compare/route.ts:42 | the values keep the order of their first occurrences |
| Compare.PostLimit | app/api/compare/route.ts:47 | `n` lies in 10..500 |
| Compare.Aggregate | app/api/compare/route.ts:133-155 | the `forEach` loop computes the summed totals and the rounded averages of the per-row rates; a null column counts as 0 and the divisor is `length \|\| 1` |
| Compare.TotalsAppend | app/api/compare/route.ts:141-145 | totals are additive over batches of rows |
| Compare.AverageWithinRange | app/api/compare/route.ts:146-155 | an averaged rate lies within the range of the per-row rates, up to the rounding |
| Compare.AverageOfRatesNotRateOfSums | app/api/compare/route.ts:146-155 | averaging rates differs from the rate of the summed counters (10% and 100% average to 55%) |
| Compare.TotalsOf | app/api/compare/route.ts:133-145 | the summed counters of the analysis rows, a null column as 0; `Aggregate` computes them, `TotalsAppend` shows they add up over batches, `EmptyAggregate` that no rows give 0 |
| Compare.SummaryOf | app/api/compare/route.ts:146-155 | the rounded averages of the per-row rates over `length \|\| 1` rows; `AverageWithinRange` bounds each by the range of the row rates, `EmptyAggregate` gives 0 for no rows, `AverageOfRatesNotRateOfSums` shows it is not the rate of the sums |
| Compare.EmptyAggregate | app/api/compare/route.ts:151-155 | with no analysis rows every total and every average is 0 |
| Compare.BuildScoreMap | app/api/compare/route.ts:157-158 | the loop builds the map in which later rows override earlier ones |
| Compare.ScoreMapKeys | app/api/compare/route.ts:158 | the map holds exactly the scored post ids |
| Compare.ScoreMapLastWins | app/api/compare/route.ts:158 | a post's score is `normalized_score \|\| 0` of the last row for it |
| Compare.ScoreMapOf | app/api/compare/route.ts:157-158 | the score map; `ScoreMapKeys` gives its keys, `ScoreMapLastWins` the value of each key, and `BuildScoreMap` computes it |
| Compare.ScoreAverage | app/api/compare/route.ts:159-161 | `score_avg`, 0 without rows; `ScoreAverageWithinRange` bounds it by the range of the row scores |
| Compare.ScoreAverageWithinRange | app/api/compare/route.ts:159-161 | `score_avg` lies within the range of the row scores, up to the rounding |
| Compare.TopThreeOrdered | app/api/compare/route.ts:171-172 | `top` holds `min(3, #posts)` of the enriched posts, in descending score order |
| Compare.TopThreeBest | app/api/compare/route.ts:171-172 | no post left out scores higher than one in `top`, and tied posts keep their input order |
| Ranking.SortPermutes | app/api/compare/route.ts:171 | the sort is a permutation of its input |
| Ranking.SortSorted | app/api/compare/route.ts:171 | the sort orders keys descending |
| Ranking.SortStable | app/api/compare/route.ts:171 | elements with equal keys keep their input order |
| Ranking.Take | app/api/compare/route.ts:172 | `slice(0, n)` is the prefix of length `min(n, length)` |
| Compare.TopThree | app/api/compare/route.ts:164-172 | the three best-scoring posts; `TopThreeOrdered` and `TopThreeBest` state their number, order, origin and that none left out scores higher |
| Compare.Report | app/api/compare/route.ts:90-188 | a found profile's entry is never `missing`; an `ok` entry carries the profile's id and stored username and at most three top posts; a failed read gives an `error` with a non-empty message for the handle asked about |
| Compare.Outcome | app/api/compare/route.ts:54-191 | every entry except an `ok` one is for the handle asked about, and an `error` entry always has a message |
| Compare.CompareOne | app/api/compare/route.ts:54-191 | one handle's entry is `Outcome`; the lookup comes first; the analyzer runs iff autofill is on and the profile is missing; the re-query happens iff the analyzer call did not throw and answered 2xx; no request repeats |
| Compare.CompareAll | app/api/compare/route.ts:54-192 | one entry per handle, in order, each independent of the others' failures |
| Compare.CompareRoute | app/api/compare/route.ts:33-194 | 400 with the fixed message when no handle is given, else `n` and one `Outcome` per unique handle |
| Compare.MissingWithoutAutofill | app/api/compare/route.ts:65-88 | without autofill an unknown handle is `missing` |
| Compare.AutofillOutcomes | app/api/compare/route.ts:65-88 | with autofill, an analyzer call that throws gives an `error` with its message (or `unknown_error`); a non-2xx reply gives an `error` with the status and at most 200 characters of the body; after a 2xx reply, a failed or empty re-query gives `missing` |
| Compare.NoPosts | app/api/compare/route.ts:101-113 | a profile without posts is `ok` with zero totals, zero rates, score 0 and an empty top |
| Compare.FailureWithoutMessage | app/api/compare/route.ts:189-191 | an error without a message is reported as `unknown_error` |
| Metrics.Round | app/api/profile/analyze/route.ts:171-173 | `Math.round(x)` is within one half of `x` |
| Metrics.Round2 | app/api/profile/analyze/route.ts:171-173 | `round2(x)` is a whole number of hundredths within half a hundredth of `x`, so it is the nearest hundredth (halves up) |
| Metrics.Round2Cents | app/api/profile/analyze/route.ts:171-173 | a whole number of hundredths is unchanged by `round2` |
| Metrics.Round2Idempotent | app/api/profile/analyze/route.ts:171-173 | `round2` is idempotent |
| Metrics.Round2Monotone | app/api/profile/analyze/route.ts:171-173 | `round2` is monotone |
| Metrics.RatesOf | app/api/profile/analyze/route.ts:103-105 | without views all three rates are 0 |
| Metrics.RatesMeaning | app/api/profile/analyze/route.ts:103-105 | with views, each rate times the views is 100 times its counter; the rates are non-negative for non-negative counters |
| Metrics.Engagement | app/api/profile/analyze/route.ts:106 | the unrounded engagement; `ZeroViewsEngagement`, `EngagementIsNotSumOfRoundedRates` and `EngagementNearSumOfRoundedRates` state its stored rounding |
| Metrics.RawScore | app/api/profile/analyze/route.ts:107 | for non-negative rates the raw score lies between a fifth and two fifths of the engagement; `RawScorePositive` and `ZeroViewsRawScore` state when it is 0 |
| Metrics.ZeroViewsEngagement | app/api/profile/analyze/route.ts:103-106 | with no views the stored engagement rate is 0, whatever the other counters |
| Metrics.ZeroViewsRawScore | app/api/profile/analyze/route.ts:107 | with no views the stored raw score is 0 |
| Metrics.RawScorePositive | app/api/profile/analyze/route.ts:103-107 | for non-negative counters the raw score is non-negative, and positive iff the post has views and some like, retweet or reply |
| Metrics.EngagementIsNotSumOfRoundedRates | app/api/profile/analyze/route.ts:106-119 | rounding the sum of the rates can differ from summing the rounded rates |
| Metrics.EngagementNearSumOfRoundedRates | app/api/profile/analyze/route.ts:106-119 | the two readings differ by at most two hundredths |
| Metrics.SumPositive | app/api/profile/analyze/route.ts:142 | a sum of non-negative scores is positive iff one score is |
| Metrics.Mean | app/api/profile/analyze/route.ts:142 | for a non-empty cohort the mean times the count is the sum of the raw scores; it is 0 for an empty cohort |
| Metrics.SumBounds | app/api/profile/analyze/route.ts:142 | a sum of values between two bounds lies between the count times each bound |
| Metrics.MeanWithin | app/api/profile/analyze/route.ts:142 | the mean of a non-empty cohort lies between its smallest and its largest raw score |
| Metrics.MeanPositive | app/api/profile/analyze/route.ts:142-143 | the mean of non-negative scores is positive iff one score is |
| Metrics.Normalized | app/api/profile/analyze/route.ts:143-145 | a cohort mean that is not positive gives a normalised score of 0 |
| Metrics.NormalizedExample | app/api/profile/analyze/route.ts:142-145 | raw scores 10, 20, 30 have mean 20 and normalise to 0.5, 1, 1.5 |
| Analyze.TweetRowCounters | app/api/profile/analyze/route.ts:49-68 | the row keeps the post's id and text; present views, likes, retweets, replies and quotes are copied, and absent ones (or an absent metrics object) become 0; the row is not a reply or retweet and has no language |
| Analyze.TweetRowUrlNamesAuthor | app/api/profile/analyze/route.ts:65 | reading the stored url as a profile URL gives back the author's handle |
| Analyze.StatusUrlShape | app/api/profile/analyze/route.ts:65 | the url is `https://x.com/<username>/status/<id>` |
| Analyze.TweetRowOf | app/api/profile/analyze/route.ts:49-70 | the row of one fetched post; `TweetRowCounters` states its id, text, counters and flags, `StatusUrlShape` and `TweetRowUrlNamesAuthor` its url |
| Analyze.Chunks | app/api/profile/analyze/route.ts:73-76 | every chunk is non-empty and holds at most 100 rows |
| Analyze.ChunksFlatten | app/api/profile/analyze/route.ts:75-76 | the chunks put back together are the rows |
| Analyze.ChunksFull | app/api/profile/analyze/route.ts:75-76 | every chunk but the last is full |
| Analyze.ChunksCount | app/api/profile/analyze/route.ts:75-76 | there are `ceil(#rows / 100)` chunks |
| Analyze.UpsertChunks | app/api/profile/analyze/route.ts:73-83 | the loop hands the chunks to the store in order and stops at the first failure; on success it collects the ids of every chunk in order, and on failure it returns the error of the failed chunk; this matches `WriteChunks` |
| Analyze.WriteChunksPrefix | app/api/profile/analyze/route.ts:75-83 | chunks already written contribute their ids ahead of the rest of the loop |
| Analyze.WriteAllChunks | app/api/profile/analyze/route.ts:75-83 | when every chunk is written, the whole write gives the collected ids |
| Analyze.WriteFailedChunk | app/api/profile/analyze/route.ts:81 | a failed chunk after successful ones makes the whole write fail with its error |
| Analyze.WriteChunks | app/api/profile/analyze/route.ts:75-83 | the outcome of the chunk loop; `UpsertChunks` computes it, and `WriteChunksSucceeds`, `WriteChunksPrefix`, `WriteAllChunks` and `WriteFailedChunk` state it |
| Analyze.WriteChunksSucceeds | app/api/profile/analyze/route.ts:75-83 | the chunk loop ends without error exactly when every chunk was written |
| Analyze.AnalyzeSaved | app/api/profile/analyze/route.ts:95-145 | the loop and the normalisation pass give one analysis row and one score row per saved post, with the score normalised against the cohort mean |
| Analyze.AnalysisOf | app/api/profile/analyze/route.ts:110-125 | one post's analysis row; `RowsAgree` and `NoViewsNoRates` state its rates, engagement and comment counts |
| Analyze.ScoreOf | app/api/profile/analyze/route.ts:127-145 | one post's score row; `RowsAgree`, `Renormalize`, `NoViewsNoRates` and `CohortWithoutEngagement` state its rates, raw and normalised score |
| Analyze.Renormalize | app/api/profile/analyze/route.ts:143-145 | updating `normalized_score` in place gives the row normalised against the mean |
| Analyze.RowsAgree | app/api/profile/analyze/route.ts:110-139 | a post's analysis row and score row agree on id, counters and rounded rates; the comment rate is the reply rate; engagement and raw score are rounded once, after summing the unrounded rates |
| Analyze.NoViewsNoRates | app/api/profile/analyze/route.ts:99-119 | a post with no views (null or 0) has zero rates, engagement and raw score |
| Analyze.CohortWithoutEngagement | app/api/profile/analyze/route.ts:142-145 | the cohort mean is positive iff some post has views and engagement; otherwise every normalised score is 0 |
| Analyze.CohortExample | app/api/profile/analyze/route.ts:142-145 | three posts with raw scores 10, 20 and 30 get normalised scores 0.5, 1 and 1.5 |
| Analyze.AnalyzePost | app/api/profile/analyze/route.ts:11-169 | the handler's reply is `AnalyzeOutcome`: each step runs only after the ones before it succeeded |
| Analyze.RunAfterProfile | app/api/profile/analyze/route.ts:45-164 | fetch, chunked writes, read-back, analysis and the two chunked writes give `AfterProfile` |
| Analyze.AnalyzeOutcome | app/api/profile/analyze/route.ts:11-169 | the handler's reply; `AnalyzeStatus` gives its refusals and `AnalyzeSuccess` what a success requires and reports |
| Analyze.AfterProfile | app/api/profile/analyze/route.ts:45-164 | the reply once the profile is stored; `AfterProfileFails` states that its failures are 500s with a message |
| Analyze.AnalyzeStatus | app/api/profile/analyze/route.ts:14-16 | 400 iff the username is missing or empty; every other failure is a 500 with a non-empty message |
| Analyze.AfterProfileFails | app/api/profile/analyze/route.ts:165-168 | after the profile is stored, every failure is a 500 with `message \|\| 'internal_error'` |
| Analyze.AnalyzeSuccess | app/api/profile/analyze/route.ts:159-164 | a success reports the provider's username, the stored profile id and the number of saved posts, and required every chunk of every table to be written |
| UriEncoding.HexRoundTrip | src/lib/twitter-client.ts:76 | a hexadecimal digit reads back as its value |
| UriEncoding.Utf8 | src/lib/twitter-client.ts:76 | a character has one to four UTF-8 bytes |
| UriEncoding.Encode | src/lib/twitter-client.ts:76 | encoding never shortens the text |
| UriEncoding.EncodeSafe | src/lib/twitter-client.ts:76 | encoded text has only unreserved characters, `%` and hexadecimal digits, so never `&` or `=` |
| UriEncoding.DecodeOneEncodeChar | src/lib/twitter-client.ts:76 | the encoding of one character decodes back to it |
| UriEncoding.DecodeEncode | src/lib/twitter-client.ts:76 | decoding undoes `encodeURIComponent`, so different strings never encode alike |
| TwitterClient.HeaderStyle | src/lib/twitter-client.ts:59-63 | the logged style follows the first truthy header among `X-API-Key`/`X-API-KEY`, `Authorization` and `apikey`, else `unknown` |
| TwitterClient.BodySample | src/lib/twitter-client.ts:58-64 | an empty body has no sample; otherwise the sample is a prefix of at most `DEBUG_TWITTER_BODY_LEN` characters |
| TwitterClient.DefaultSampleLen | src/lib/twitter-client.ts:58 | without the setting a sample holds up to 400 characters |
| TwitterClient.Entry | src/lib/twitter-client.ts:57-65 | the entry `record` appends; `HeaderStyle` and `BodySample` state its style and sample, `AttemptLog` the entries of each attempt |
| TwitterClient.HeaderAttempts | src/lib/twitter-client.ts:196-206 | when the configured style is `x-api-key`, `bearer` or `apikey`, its record comes first (five records); then come the four standard records in order |
| TwitterClient.RecordStyles | src/lib/twitter-client.ts:198-204 | with a key each record is logged under its own style; without one, only `Bearer undefined` is truthy |
| TwitterClient.HeaderAttemptStyles | src/lib/twitter-client.ts:196-206 | the styles the attempts are logged under, in order, with and without a key |
| TwitterClient.StripSlash | src/lib/twitter-client.ts:209 | at most one trailing `/` is removed |
| TwitterClient.ToggleV1 | src/lib/twitter-client.ts:213-214 | the `/v1` suffix is removed when present, else added |
| TwitterClient.AddNew | src/lib/twitter-client.ts:210-217 | `Set.add` appends only a value not yet present |
| TwitterClient.AddNewDistinct | src/lib/twitter-client.ts:210-217 | adding keeps the set without repetitions and keeps its prefix |
| TwitterClient.BaseCandidatesShape | src/lib/twitter-client.ts:208-219 | at most four distinct bases: the configured one first (if not empty), its `/v1` variant and both defaults |
| TwitterClient.DefaultBases | src/lib/twitter-client.ts:208-219 | the default configuration tries the default base and its `/v1` variant |
| TwitterClient.BaseCandidates | src/lib/twitter-client.ts:208-219 | the base URLs to try; `BaseCandidatesShape` and `DefaultBases` state their number, order and distinctness |
| TwitterClient.Defined | src/lib/twitter-client.ts:155 | the filter keeps no `undefined` value |
| TwitterClient.DefinedMembers | src/lib/twitter-client.ts:155 | the filter keeps exactly the entries whose value is not `undefined` |
| TwitterClient.DefinedAppend | src/lib/twitter-client.ts:155 | the filter works piece by piece, so the kept entries stay in their order |
| TwitterClient.PairSplits | src/lib/twitter-client.ts:76 | a pair has no `&` and splits at `=` into the encoded key and value |
| TwitterClient.ParsePairsBack | src/lib/twitter-client.ts:76 | the pairs read back as the keys and value texts |
| TwitterClient.QueryString | src/lib/twitter-client.ts:76 | the defined entries as encoded pairs; `QueryStringRoundTrip` reads it back as exactly those entries, `AllUndefined` covers the empty case |
| TwitterClient.QueryStringRoundTrip | src/lib/twitter-client.ts:75-77 | the query string reads back as exactly the defined entries, in order |
| TwitterClient.AllUndefined | src/lib/twitter-client.ts:75-77 | an object of `undefined` values gives an empty query and the url ends in `?` |
| TwitterClient.QueryPart | src/lib/twitter-client.ts:75-77 | empty exactly when there is no query object; otherwise `?` followed by the query string |
| TwitterClient.AttemptLog | src/lib/twitter-client.ts:84-93 | a response is logged with its status and body sample; a non-2xx is listed under its status; only `request` records an exception (status 0) |
| TwitterClient.TryAttempt | src/lib/twitter-client.ts:84-93 | one attempt's log entries and verdict; `AttemptLog` states them for a response and for an exception |
| TwitterClient.ErrorsBetween | src/lib/twitter-client.ts:89-92 | one error per failed attempt, in order |
| TwitterClient.SearchFrom | src/lib/twitter-client.ts:81-96 | the end of the search; `SearchStep`, `FirstDecides`, `AllAttemptsFail`, `FoundIsFirst` and `NoRaiseNoPropagation` state it |
| TwitterClient.LogsFrom | src/lib/twitter-client.ts:87 | the entries the search appends; `LogStep` states them |
| TwitterClient.SearchStep | src/lib/twitter-client.ts:81-96 | a success returns, an escaping exception ends the call, and a failure adds its error and goes on |
| TwitterClient.LogStep | src/lib/twitter-client.ts:87 | each attempt appends its entries to the log |
| TwitterClient.SkipFailed | src/lib/twitter-client.ts:81-95 | failed attempts only add their errors |
| TwitterClient.FirstDecides | src/lib/twitter-client.ts:88 | the first attempt that does not fail decides the call |
| TwitterClient.AllAttemptsFail | src/lib/twitter-client.ts:96 | when every attempt fails, the call lists one error per attempt, in order |
| TwitterClient.FoundIsFirst | src/lib/twitter-client.ts:88 | a returned body is that of the first attempt that did not fail |
| TwitterClient.CaughtNeverEscapes | src/lib/twitter-client.ts:113-123 | calls that catch exceptions never end with one |
| TwitterClient.CaughtIsFailure | src/lib/twitter-client.ts:121-123 | a caught exception is a failure, not an escape |
| TwitterClient.NoRaiseNoPropagation | src/lib/twitter-client.ts:81-96 | attempts that never raise cannot end the call with an exception |
| TwitterClient.ThrowEscapes | src/lib/twitter-client.ts:185-189 | in `getTweetReplies` a throwing `fetch` ends the call with its message and logs nothing more |
| TwitterClient.ThrowIsListed | src/lib/twitter-client.ts:163-165 | elsewhere a throwing `fetch` only adds `err <label>: <message>` |
| TwitterClient.Outcome | src/lib/twitter-client.ts:96 | a call succeeds exactly when the search found a body, and returns that body; an exhausted search fails with the call's prefix before its errors; an escaping exception keeps its message |
| TwitterClient.RequestOrder | src/lib/twitter-client.ts:81-83 | attempt `i * #headers + j` is base `i` with header record `j` |
| TwitterClient.RequestAttempts | src/lib/twitter-client.ts:81-83 | the attempts of `request`; `RequestOrder` states their order |
| TwitterClient.ProfileRow | src/lib/twitter-client.ts:111-112 | four parameter names per header record |
| TwitterClient.ProfileRowIndex | src/lib/twitter-client.ts:111-112 | within one base, attempt `j * 4 + v` is header record `j` with parameter name `v` |
| TwitterClient.ProfileOrder | src/lib/twitter-client.ts:110-115 | attempts are ordered by base, header record, then parameter name |
| TwitterClient.ProfileAttempts | src/lib/twitter-client.ts:110-115 | the attempts of `getUserProfile`; `ProfileOrder` states their order |
| TwitterClient.TweetsRows | src/lib/twitter-client.ts:150 | one row of attempts per base |
| TwitterClient.TweetsOrder | src/lib/twitter-client.ts:150-157 | attempts are ordered by base, header record, path, then parameter set |
| TwitterClient.TweetsInnerIndex | src/lib/twitter-client.ts:151-157 | within one base: header record, path, then parameter set |
| TwitterClient.TweetsAttempts | src/lib/twitter-client.ts:150-157 | the attempts of `getUserTweets`; `TweetsOrder` states their order |
| TwitterClient.TweetsParams | src/lib/twitter-client.ts:144-147 | two parameter sets, both with the keys `userId`, `userName`, `cursor`, `includeReplies`; the first never sends `userName` and sends the id only when it is non-empty; the second never sends `userId`; the cursor is sent iff given |
| TwitterClient.RepliesOrder | src/lib/twitter-client.ts:177-185 | attempts are ordered by base, then header record |
| TwitterClient.RepliesAttempts | src/lib/twitter-client.ts:177-185 | the attempts of `getTweetReplies`; `RepliesOrder` states their order |
| TwitterClient.RepliesParams | src/lib/twitter-client.ts:179-181 | `tweet_id` first, then the cursor iff it is non-empty, then the count iff one is given; every value is defined |
| TwitterClient.Client.constructor | src/lib/twitter-client.ts:48-55 | the settings are read from the environment with their defaults, lower-casing the style; the log starts empty |
| TwitterClient.Client.Record | src/lib/twitter-client.ts:57-65 | appends exactly one entry with the logged style and body sample |
| TwitterClient.Client.ConsumeLogs | src/lib/twitter-client.ts:67-71 | returns the entries so far and empties the buffer |
| TwitterClient.Client.TryOne | src/lib/twitter-client.ts:84-93 | one attempt's verdict and log entries are those of `TryAttempt` |
| TwitterClient.Client.Search | src/lib/twitter-client.ts:81-96 | the loop's result and log are those of `SearchFrom` and `LogsFrom` over the candidates |
| TwitterClient.Client.Request | src/lib/twitter-client.ts:73-97 | without a key it fails before any attempt; otherwise it searches base by header record, recording exceptions |
| TwitterClient.Client.GetUserProfile | src/lib/twitter-client.ts:99-128 | it searches bases, then headers, then parameter names; the path can be overridden |
| TwitterClient.Client.GetUserTweets | src/lib/twitter-client.ts:130-171 | it searches bases, then headers, then paths, then by-id and by-name parameters |
| TwitterClient.Client.GetTweetReplies | src/lib/twitter-client.ts:173-194 | it searches bases, then headers, and an exception aborts the call |
| Categories.PostLimit | app/api/profile/categories/route.ts:45 | `n` lies in 20..300 |
| Categories.ClampConfidence | app/api/profile/categories/route.ts:90 | a number is clamped into [0, 1] and is unchanged inside it; a non-number is null |
| Categories.EvidenceIds | app/api/profile/categories/route.ts:91-95 | every evidence id is the id of one of the posts; no indices give none |
| Categories.IdsAt | app/api/profile/categories/route.ts:92-94 | at most one id per index, each an id of a post |
| Categories.IdsAtInRange | app/api/profile/categories/route.ts:92-94 | in-range indices map one for one to the ids of those posts |
| Categories.IdsAtDropsOutOfRange | app/api/profile/categories/route.ts:93-94 | an out-of-range index contributes nothing |
| Categories.ProtectedNames | app/api/profile/categories/route.ts:84 | exactly the names of the rows the user edited |
| Categories.Unprotected | app/api/profile/categories/route.ts:86 | exactly the proposals whose name was not edited |
| Categories.UnprotectedAppend | app/api/profile/categories/route.ts:86 | the filter works piece by piece, so it keeps the order and the repeats of the proposals |
| Categories.PayloadRespectsEdits | app/api/profile/categories/route.ts:79-86 | no row overwrites an edited category, and every other proposal gets a row |
| Categories.PayloadRows | app/api/profile/categories/route.ts:86-100 | every row is for the profile, is not marked edited, has clamped confidence, evidence among the posts, and equal creation and update times |
| Categories.RowForWellFormed | app/api/profile/categories/route.ts:87-99 | one proposal's row is well formed |
| Categories.CreatedBy | app/api/profile/categories/route.ts:97 | `llm` exactly when the key is set and non-empty, else `heuristic` |
| Categories.RowFor | app/api/profile/categories/route.ts:86-100 | one proposal's row; `RowForWellFormed` states it is well formed |
| Categories.Payload | app/api/profile/categories/route.ts:86-100 | the rows to upsert; `PayloadRespectsEdits` and `PayloadRows` state which and what they hold |
| Categories.GetRefusals | app/api/profile/categories/route.ts:16-36 | 404 iff the handle names no profile; every other refusal is a 400 or a 500 |
| Categories.GetListing | app/api/profile/categories/route.ts:19-34 | the handler lists iff the profile and its categories were read, and the listing is that profile's id, username and categories |
| Categories.HandleGet | app/api/profile/categories/route.ts:12-38 | the GET reply; `GetRefusals`, `GetListing` and `EmptyUsername` state it |
| Categories.EmptyUsername | app/api/profile/categories/route.ts:16-17 | an empty normalised handle gives 400 from both handlers |
| Categories.NoPostsNoCategorizer | app/api/profile/categories/route.ts:66 | a profile without posts gives 400, whatever the categoriser would say |
| Categories.SavedCounts | app/api/profile/categories/route.ts:102-116 | `saved` is the number of payload rows and at most the number of proposals; `skipped_modified` is the number of edited names |
| Categories.HandlePost | app/api/profile/categories/route.ts:40-120 | the POST reply; `EmptyUsername` and `NoPostsNoCategorizer` state its refusals |
| Categories.StoreProposals | app/api/profile/categories/route.ts:68-116 | the POST once the posts are read; `SavedCounts` states the counts it reports |

## Left out

- The environment is read once, when the client is built (`Env`); later changes to it are not seen.
- `fetch`, the database, `JSON.parse`, the categoriser (`analyzePoliticalPositions`) and the clock (`new Date().toISOString()`) are oracles. The conversion of a post's `created_at` to an ISO timestamp (`new Date(...).toISOString()`) is a total oracle too: the `RangeError` it throws on an unparsable date, which the route turns into a 500, is not modelled. A `fetch` that throws is modelled (`Reply.Threw` in the client, a failed `Store.analyze` in the compare route); timeouts and concurrency are not.
- Floating-point arithmetic: rates and scores are exact reals, so IEEE rounding and NaN/Infinity are not captured.
- `toLowerCase` is modelled for ASCII letters only; other scripts are kept as they are.
- Query values are strings, integers or booleans; `String(v)` of fractional numbers is not modelled.
- The nested `for` loops of the client are one loop over the list of candidates in the same nested order. The `Steps` list fixes each attempt's outcome in advance through the attempt's index.
- `Promise.all` over the analysis and score reads is two sequential reads, and the first failure wins.
- `split(/[\s,]+/)` is a split at each single separator followed by dropping empty pieces. That gives the same list once `filter(Boolean)` has run.
- `normalizeCategoriesOutput` is part of the categoriser oracle. The categories POST treats a failed read of the existing rows as no rows, as the route does.
- The catch-all 500 of the compare route (e.g. a malformed request URL) is not modelled. The per-handle `catch` is.
- `negative_reasons` is always the empty object, and the sentiment placeholders are fixed, so neither is a field of `Analysis`.
- The profile upsert keeps only the profile id and username. Display name, bio, counters and dates are not modelled.
- The `limit(100)` and newest-first ordering of the read-back of saved posts, and the `limit(n)` of the compare and categories reads, belong to the database oracle.
- Analyze.AnalyzePost: the route calls `getUserTweets(profile.id, 100)` and reads `tweetsResp.data`, while the client returns `tweets`. The model takes `getTweets` as an oracle that yields the fetched posts (or an error), so the `TypeError` this mismatch raises in the route is not modelled.
- `console.error` and `req.json()` parse errors are not modelled. An absent or non-string `username` is `None`.
- Compare.CompareAll: the database is one fixed oracle for the whole request, so an autofill run for one handle cannot change what a later handle's lookup returns. In the route it can, since the analyzer writes profiles. The independence of the entries partly holds by construction.
- `encodeURIComponent` throws a `URIError` on a lone surrogate. In `request` (src/lib/twitter-client.ts:75-77) and in `getTweetReplies` (src/lib/twitter-client.ts:182-184) that happens outside any `try`. `UriEncoding.Encode` works on Unicode scalar values, so the model cannot express this error.
- Text.SlicePrefix: lengths count Unicode scalar values, while JavaScript's `slice` counts UTF-16 code units. For text outside the Basic Multilingual Plane the two differ. A JavaScript slice can also end between the two halves of a surrogate pair, and the model cannot represent that.
- TwitterClient.BodySample: the log sample of at most `DEBUG_TWITTER_BODY_LEN` characters is cut at that many scalar values, not UTF-16 code units (src/lib/twitter-client.ts:64). So it can keep more text than the client does when the body holds characters outside the Basic Multilingual Plane.
- Compare.AutofillOutcomes: the excerpt of at most 200 characters in `analyze failed: <status> <body>` is cut at 200 scalar values, not 200 UTF-16 code units (app/api/compare/route.ts:73). It differs from the route's message, which can end in half a surrogate pair, when the body holds characters outside the Basic Multilingual Plane.

=== FILE: analyze.dfy ===
/** The analyze route: fetched posts become stored rows, rows are written in chunks of 100,
    and each saved post gets one analysis row and one virality-score row, normalised against
    the mean raw score of the profile's cohort. The database, the provider API and the clock
    are the oracles of `Services`. */
module Analyze {
  import opened Wrappers
  import opened Text
  import opened Handles
  import opened Metrics
  import opened Seqs

  /** The `public_metrics` object of a fetched post; any counter may be absent. */
  datatype PublicMetrics = PublicMetrics(
    impressions: Option<int>, likes: Option<int>, retweets: Option<int>,
    replies: Option<int>, quotes: Option<int>)

  /** A post as the route reads it from the provider's answer. */
  datatype FetchedTweet = FetchedTweet(
    id: string, text: string, createdAt: string, metrics: Option<PublicMetrics>)

  /** A row of the `tweets` table as the route writes it. */
  datatype TweetRow = TweetRow(
    profileId: string, tweetId: string, text: string, createdAt: string,
    views: int, likes: int, retweets: int, replies: int, quotes: int,
    url: string, isReply: bool, isRetweet: bool, language: Option<string>)

  /** `t.public_metrics || {}`: a missing metrics object reads as one with no counters. */
  function MetricsOrEmpty(m: Option<PublicMetrics>): PublicMetrics {
    m.GetOr(PublicMetrics(None, None, None, None, None))
  }

  function StatusUrl(username: string, id: string): string {
    "https://x.com/" + username + "/status/" + id
  }

  /** The row stored for a fetched post; `toIso` is `new Date(..).toISOString()`. */
  function TweetRowOf(t: FetchedTweet, profileId: string, username: string,
                      toIso: string -> string): TweetRow
  {
    var pm := MetricsOrEmpty(t.metrics);
    TweetRow(profileId, t.id, t.text, toIso(t.createdAt),
             pm.impressions.GetOr(0), pm.likes.GetOr(0), pm.retweets.GetOr(0),
             pm.replies.GetOr(0), pm.quotes.GetOr(0),
             StatusUrl(username, t.id), false, false, None)
  }

  /** The row keeps the post's id and text; present counters are copied, absent ones (or
      an absent metrics object) become 0; the row is never marked as a reply or a retweet
      and has no language. */
  lemma TweetRowCounters(t: FetchedTweet, profileId: string, username: string,
                         toIso: string -> string)
    ensures var r := TweetRowOf(t, profileId, username, toIso);
            r.tweetId == t.id && r.profileId == profileId && r.text == t.text
            && !r.isReply && !r.isRetweet && r.language.None?
            && (t.metrics.None? ==>
                  r.views == 0 && r.likes == 0 && r.retweets == 0 && r.replies == 0 && r.quotes == 0)
            && (t.metrics.Some? ==>
                  var m := t.metrics.value;
                  (m.impressions.None? ==> r.views == 0)
                  && (m.impressions.Some? ==> r.views == m.impressions.value)
                  && (m.likes.None? ==> r.likes == 0)
                  && (m.likes.Some? ==> r.likes == m.likes.value)
                  && (m.retweets.None? ==> r.retweets == 0)
                  && (m.retweets.Some? ==> r.retweets == m.retweets.value)
                  && (m.replies.None? ==> r.replies == 0)
                  && (m.replies.Some? ==> r.replies == m.replies.value)
                  && (m.quotes.None? ==> r.quotes == 0)
                  && (m.quotes.Some? ==> r.quotes == m.quotes.value))
  {
  }

  /** The stored url points back at its author: reading it as a profile URL gives the
      username it was built from. */
  lemma TweetRowUrlNamesAuthor(t: FetchedTweet, profileId: string, username: string,
                               toIso: string -> string)
    requires |username| > 0 && IsHandle(username)
    requires t.id == [] || !IsSpace(t.id[|t.id| - 1])
    ensures ExtractUsername(TweetRowOf(t, profileId, username, toIso).url) == username
  {
    var tail := "/status/" + t.id;
    assert tail[0] == '/';
    assert tail[|tail| - 1] == if t.id == [] then '/' else t.id[|t.id| - 1];
    ProfileUrl("https://", "x.com", username, tail);
    StatusUrlShape(username, t.id);
  }

  lemma StatusUrlShape(username: string, id: string)
    ensures StatusUrl(username, id) == "https://" + "x.com" + "/" + username + ("/status/" + id)
  {
    var a := "https://x.com/" + username;
    assert "https://" + "x.com" + "/" + username == a;
    assert a + "/status/" + id == a + ("/status/" + id);
  }

  // ---------------------------------------------------------------------------------
  // Chunked upserts

  /** `const chunkSize = 100`. */
  const ChunkSize: nat := 100

  /** The consecutive slices `rows.slice(i, i + size)` for `i = 0, size, 2 * size, ...`. */
  function Chunks<T>(rows: seq<T>, size: nat): (cs: seq<seq<T>>)
    requires size > 0
    ensures forall k :: 0 <= k < |cs| ==> 0 < |cs[k]| <= size
    decreases |rows|
  {
    if |rows| == 0 then []
    else if |rows| <= size then [rows]
    else [rows[..size]] + Chunks(rows[size..], size)
  }

  /** The chunks put back together are the rows. */
  lemma {:induction false} ChunksFlatten<T>(rows: seq<T>, size: nat)
    requires size > 0
    ensures Flatten(Chunks(rows, size)) == rows
    decreases |rows|
  {
    if |rows| > size {
      ChunksFlatten(rows[size..], size);
      assert Chunks(rows, size)[1..] == Chunks(rows[size..], size);
      assert rows == rows[..size] + rows[size..];
    } else if |rows| > 0 {
      assert Chunks(rows, size) == [rows];
      assert [rows][1..] == [];
      assert rows + [] == rows;
    }
  }

  /** Every chunk but the last is full. */
  lemma {:induction false} ChunksFull<T>(rows: seq<T>, size: nat)
    requires size > 0
    ensures forall k :: 0 <= k < |Chunks(rows, size)| - 1 ==> |Chunks(rows, size)[k]| == size
    decreases |rows|
  {
    if |rows| > size {
      var cs := Chunks(rows, size);
      ChunksFull(rows[size..], size);
      assert cs[1..] == Chunks(rows[size..], size);
      forall k | 1 <= k < |cs| - 1
        ensures |cs[k]| == size
      {
        assert cs[k] == cs[1..][k - 1];
      }
    }
  }

  /** There are `ceil(|rows| / size)` chunks: all but the last hold `size` rows, and the
      last holds at least one. */
  lemma {:induction false} ChunksCount<T>(rows: seq<T>, size: nat)
    requires size > 0
    ensures var n := |Chunks(rows, size)|; (n - 1) * size < |rows| <= n * size
    decreases |rows|
  {
    if |rows| > size {
      var rest := rows[size..];
      ChunksCount(rest, size);
      var m := |Chunks(rest, size)|;
      assert |Chunks(rows, size)| == m + 1;
      assert (m + 1) * size == m * size + size;
    }
  }

  /** What is left of the rows once the loop index has reached `i`. */
  function Drop<T>(rows: seq<T>, i: nat): seq<T> {
    if i <= |rows| then rows[i..] else []
  }

  lemma ChunksStep<T>(rows: seq<T>, i: nat, size: nat)
    requires size > 0 && i < |rows|
    ensures Chunks(rows[i..], size)
            == [rows[i..if i + size < |rows| then i + size else |rows|]] + Chunks(Drop(rows, i + size), size)
  {
    var t := rows[i..];
    if |t| > size {
      assert t[..size] == rows[i..i + size];
      assert t[size..] == rows[i + size..];
    } else {
      assert rows[i..|rows|] == t;
      assert Drop(rows, i + size) == [];
      assert Chunks(t, size) == [t];
    }
  }

  /** The ids the store returned for the chunks, in order (`data?.forEach(push)`); a chunk
      whose write failed adds none. */
  function StoredIds<T>(cs: seq<seq<T>>, store: seq<T> -> Result<seq<string>, string>): seq<string> {
    if |cs| == 0 then [] else StoredIds(cs[..|cs| - 1], store) + AnswerIds(store(cs[|cs| - 1]))
  }

  /** `data?.forEach((r) => allTweetIds.push(r.id))`: no ids when the write failed. */
  function AnswerIds(answer: Result<seq<string>, string>): seq<string> {
    if answer.Success? then answer.value else []
  }

  /** What the whole chunk loop amounts to: the ids of every chunk, in order, or the error of
      the first chunk whose write failed (no later chunk is written). */
  function WriteChunks<T>(cs: seq<seq<T>>, store: seq<T> -> Result<seq<string>, string>)
    : Result<seq<string>, string>
  {
    if |cs| == 0 then Success([])
    else
      match store(cs[0])
      case Failure(e) => Failure(e)
      case Success(ids) => Prepend(ids, WriteChunks(cs[1..], store))
  }

  /** The loop ends without error exactly when every chunk was written. */
  lemma {:induction false} WriteChunksSucceeds<T>(cs: seq<seq<T>>,
                                                 store: seq<T> -> Result<seq<string>, string>)
    ensures WriteChunks(cs, store).Success? <==> AllStored(cs, store)
  {
    if |cs| > 0 {
      WriteChunksSucceeds(cs[1..], store);
      assert forall k :: 0 < k < |cs| ==> cs[k] == cs[1..][k - 1];
      if AllStored(cs[1..], store) && store(cs[0]).Success? {
        forall k | 0 <= k < |cs| ensures store(cs[k]).Success? {
          if k > 0 { assert cs[k] == cs[1..][k - 1]; }
        }
      }
    }
  }

  /** Puts `ids` in front of the ids of a successful write; an error stays as it is. */
  function Prepend(ids: seq<string>, r: Result<seq<string>, string>): Result<seq<string>, string> {
    match r
    case Success(rest) => Success(ids + rest)
    case Failure(e) => Failure(e)
  }

  /** Chunks that were all written contribute their ids ahead of the rest of the loop. */
  lemma {:induction false} WriteChunksPrefix<T>(cs: seq<seq<T>>, k: nat,
                                               store: seq<T> -> Result<seq<string>, string>)
    requires k <= |cs| && AllStored(cs[..k], store)
    ensures WriteChunks(cs, store) == Prepend(StoredIds(cs[..k], store), WriteChunks(cs[k..], store))
  {
    if k == 0 {
      assert cs[..0] == [] && cs[0..] == cs;
      match WriteChunks(cs, store)
      case Success(v) => assert [] + v == v;
      case Failure(_) =>
    } else {
      var p := cs[..k - 1];
      assert cs[..k - 1] == cs[..k][..k - 1];
      assert AllStored(p, store);
      WriteChunksPrefix(cs, k - 1, store);
      var c := cs[k - 1];
      assert store(c).Success? by { assert cs[..k][k - 1] == c; }
      var tail := cs[k - 1..];
      assert tail[0] == c && tail[1..] == cs[k..];
      assert cs[..k] == p + [c];
      StoredIdsSnoc(p, c, store);
      match WriteChunks(cs[k..], store)
      case Success(v) =>
        assert StoredIds(p, store) + (store(c).value + v) == StoredIds(p, store) + store(c).value + v;
      case Failure(_) =>
    }
  }

  lemma StoredIdsSnoc<T>(cs: seq<seq<T>>, c: seq<T>, store: seq<T> -> Result<seq<string>, string>)
    requires store(c).Success?
    ensures StoredIds(cs + [c], store) == StoredIds(cs, store) + store(c).value
  {
    assert (cs + [c])[..|cs|] == cs;
  }

  lemma PrefixOfSum<T>(a: seq<T>, b: seq<T>, c: seq<T>)
    requires a + b == c
    ensures a <= c
  {
    assert c[..|a|] == a;
  }

  /** One turn of the chunk loop: the slice at `i` is the next chunk. */
  lemma ChunkLoopStep<T>(rows: seq<T>, i: nat, sent: seq<seq<T>>)
    requires i < |rows|
    requires sent + Chunks(Drop(rows, i), ChunkSize) == Chunks(rows, ChunkSize)
    ensures var chunk := rows[i..if i + ChunkSize < |rows| then i + ChunkSize else |rows|];
            (sent + [chunk]) + Chunks(Drop(rows, i + ChunkSize), ChunkSize) == Chunks(rows, ChunkSize)
            && sent + [chunk] <= Chunks(rows, ChunkSize)
  {
    var end := if i + ChunkSize < |rows| then i + ChunkSize else |rows|;
    var chunk := rows[i..end];
    var rest := Chunks(Drop(rows, i + ChunkSize), ChunkSize);
    ChunksStep(rows, i, ChunkSize);
    assert Drop(rows, i) == rows[i..];
    assert Chunks(Drop(rows, i), ChunkSize) == [chunk] + rest;
    Associative(sent, [chunk], rest);
    PrefixOfSum(sent + [chunk], rest, Chunks(rows, ChunkSize));
  }

  /** Every chunk in `cs` was written without error. */
  predicate AllStored<T>(cs: seq<seq<T>>, store: seq<T> -> Result<seq<string>, string>) {
    forall k :: 0 <= k < |cs| ==> store(cs[k]).Success?
  }

  lemma AllStoredSnoc<T>(cs: seq<seq<T>>, c: seq<T>, store: seq<T> -> Result<seq<string>, string>)
    requires AllStored(cs, store)
    ensures forall k :: 0 <= k < |cs + [c]| - 1 ==> store((cs + [c])[k]).Success?
    ensures store(c).Success? ==> AllStored(cs + [c], store)
  {
    forall k | 0 <= k < |cs|
      ensures (cs + [c])[k] == cs[k]
    {
    }
  }

  /** The chunk loop: hands each slice of at most 100 rows to the store in order and stops at
      the first failure. `sent` is the list of chunks handed over. */
  method UpsertChunks<T>(rows: seq<T>, store: seq<T> -> Result<seq<string>, string>)
    returns (sent: seq<seq<T>>, ids: seq<string>, err: Option<string>)
    ensures sent <= Chunks(rows, ChunkSize)
    ensures err.None? ==>
              sent == Chunks(rows, ChunkSize) && AllStored(sent, store) && ids == StoredIds(sent, store)
    ensures err.Some? ==>
              |sent| > 0 && AllStored(sent[..|sent| - 1], store) && store(sent[|sent| - 1]) == Failure(err.value)
    ensures err.None? ==> WriteChunks(Chunks(rows, ChunkSize), store) == Success(ids)
    ensures err.Some? ==> WriteChunks(Chunks(rows, ChunkSize), store) == Failure(err.value)
  {
    sent, ids, err := [], [], None;
    var i: nat := 0;
    while i < |rows|
      invariant sent + Chunks(Drop(rows, i), ChunkSize) == Chunks(rows, ChunkSize)
      invariant AllStored(sent, store)
      invariant ids == StoredIds(sent, store)
      decreases |rows| - i
    {
      var end := if i + ChunkSize < |rows| then i + ChunkSize else |rows|;
      var chunk := rows[i..end];
      ChunkLoopStep(rows, i, sent);
      var answer := store(chunk);
      if answer.Failure? {
        FailedTurn(Chunks(rows, ChunkSize), sent, chunk, store);
        sent := sent + [chunk];
        err := Some(answer.error);
        return;
      }
      StoredTurn(sent, chunk, ids, store);
      sent, ids := sent + [chunk], ids + answer.value;
      i := i + ChunkSize;
    }
    ChunkLoopDone(rows, i, sent, store);
  }

  /** Once the index has passed the end, every chunk was handed over and written. */
  lemma ChunkLoopDone<T>(rows: seq<T>, i: nat, sent: seq<seq<T>>,
                         store: seq<T> -> Result<seq<string>, string>)
    requires i >= |rows| && sent + Chunks(Drop(rows, i), ChunkSize) == Chunks(rows, ChunkSize)
    requires AllStored(sent, store)
    ensures sent == Chunks(rows, ChunkSize)
    ensures WriteChunks(Chunks(rows, ChunkSize), store) == Success(StoredIds(sent, store))
  {
    assert Chunks(Drop(rows, i), ChunkSize) == [];
    assert sent + [] == sent;
    WriteAllChunks(sent, store);
  }

  /** A turn whose write succeeded keeps the loop's invariants. */
  lemma StoredTurn<T>(sent: seq<seq<T>>, chunk: seq<T>, ids: seq<string>,
                      store: seq<T> -> Result<seq<string>, string>)
    requires AllStored(sent, store) && ids == StoredIds(sent, store) && store(chunk).Success?
    ensures AllStored(sent + [chunk], store)
    ensures ids + store(chunk).value == StoredIds(sent + [chunk], store)
  {
    AllStoredSnoc(sent, chunk, store);
    StoredIdsSnoc(sent, chunk, store);
  }

  /** What the loop reports when the write of `chunk` fails. */
  lemma FailedTurn<T>(cs: seq<seq<T>>, sent: seq<seq<T>>, chunk: seq<T>,
                      store: seq<T> -> Result<seq<string>, string>)
    requires sent + [chunk] <= cs && AllStored(sent, store) && store(chunk).Failure?
    ensures var s := sent + [chunk];
            |s| > 0 && s[..|s| - 1] == sent && s[|s| - 1] == chunk
            && WriteChunks(cs, store) == Failure(store(chunk).error)
  {
    WriteFailedChunk(cs, sent, chunk, store);
  }

  /** The loop stopped at a chunk whose write failed: the whole write fails with its error. */
  lemma WriteFailedChunk<T>(cs: seq<seq<T>>, sent: seq<seq<T>>, chunk: seq<T>,
                            store: seq<T> -> Result<seq<string>, string>)
    requires sent + [chunk] <= cs && AllStored(sent, store) && store(chunk).Failure?
    ensures WriteChunks(cs, store) == Failure(store(chunk).error)
  {
    var k := |sent|;
    assert cs[..k] == sent && cs[k] == chunk;
    WriteChunksPrefix(cs, k, store);
    assert cs[k..][0] == chunk;
  }

  /** Every chunk was written: the whole write gives the ids the loop collected. */
  lemma WriteAllChunks<T>(cs: seq<seq<T>>, store: seq<T> -> Result<seq<string>, string>)
    requires AllStored(cs, store)
    ensures WriteChunks(cs, store) == Success(StoredIds(cs, store))
  {
    assert cs[..|cs|] == cs && cs[|cs|..] == [];
    WriteChunksPrefix(cs, |cs|, store);
    assert StoredIds(cs, store) + [] == StoredIds(cs, store);
  }

  // ---------------------------------------------------------------------------------
  // Analysis and virality scores

  /** A row read back from the `tweets` table: its database id and its counters, any of
      which may be null. */
  datatype SavedTweet = SavedTweet(
    id: string, views: Option<int>, likes: Option<int>, retweets: Option<int>, replies: Option<int>)

  /** A row of the `tweet_analysis` table (`negative_reasons` is always the empty object). */
  datatype Analysis = Analysis(
    tweetId: string, views: int, likes: int, retweets: int, replies: int,
    likeRate: real, retweetRate: real, replyRate: real, engagementRate: real,
    totalComments: int, positiveComments: int, negativeComments: int, neutralComments: int)

  /** A row of the `virality_scores` table. */
  datatype Score = Score(
    tweetId: string, profileId: string, views: int, likes: int, retweets: int, replies: int,
    commentRate: real, retweetRate: real, likeRate: real, rawScore: real, normalizedScore: real)

  /** `t.views_count ?? 0` and the like. */
  function CountersOf(t: SavedTweet): Counters {
    Counters(t.views.GetOr(0), t.likes.GetOr(0), t.retweets.GetOr(0), t.replies.GetOr(0))
  }

  /** The analysis row pushed for a saved post. */
  function AnalysisOf(t: SavedTweet): Analysis {
    var c := CountersOf(t);
    var r := RatesOf(c);
    Analysis(t.id, c.views, c.likes, c.retweets, c.replies,
             Round2(r.like), Round2(r.retweet), Round2(r.reply), Round2(Engagement(r)),
             c.replies, 0, 0, c.replies)
  }

  /** The unrounded raw score pushed onto `rawScores`. */
  function RawOf(t: SavedTweet): real {
    RawScore(RatesOf(CountersOf(t)))
  }

  /** The score row of a saved post once the cohort mean of the raw scores is `mean`. */
  function ScoreOf(t: SavedTweet, profileId: string, mean: real): Score {
    var c := CountersOf(t);
    var r := RatesOf(c);
    var raw := Round2(RawScore(r));
    Score(t.id, profileId, c.views, c.likes, c.retweets, c.replies,
          Round2(r.reply), Round2(r.retweet), Round2(r.like), raw, Normalized(raw, mean))
  }

  function RawsOf(saved: seq<SavedTweet>): (raws: seq<real>)
    ensures |raws| == |saved| && forall i :: 0 <= i < |saved| ==> raws[i] == RawOf(saved[i])
  {
    seq(|saved|, i requires 0 <= i < |saved| => RawOf(saved[i]))
  }

  /** `avgRaw`: the mean of the unrounded raw scores of the cohort, 0 when it is empty. */
  function CohortMean(saved: seq<SavedTweet>): real {
    Mean(RawsOf(saved))
  }

  /** The analysis loop and the normalisation pass: one analysis row and one score row per
      saved post, in order; the score rows are first pushed with a normalised score of 0 and
      then, when the cohort mean is positive, updated in place. */
  method AnalyzeSaved(saved: seq<SavedTweet>, profileId: string)
    returns (analyses: seq<Analysis>, scores: seq<Score>)
    ensures |analyses| == |saved| && |scores| == |saved|
    ensures forall i :: 0 <= i < |saved| ==>
              analyses[i] == AnalysisOf(saved[i])
              && scores[i] == ScoreOf(saved[i], profileId, CohortMean(saved))
  {
    analyses, scores := [], [];
    var rawScores: seq<real> := [];
    var i := 0;
    while i < |saved|
      invariant i <= |saved| && |analyses| == i && |scores| == i && |rawScores| == i
      invariant forall k :: 0 <= k < i ==> analyses[k] == AnalysisOf(saved[k])
      invariant forall k :: 0 <= k < i ==> scores[k] == ScoreOf(saved[k], profileId, 0.0)
      invariant forall k :: 0 <= k < i ==> rawScores[k] == RawOf(saved[k])
    {
      var t := saved[i];
      rawScores := rawScores + [RawOf(t)];
      analyses := analyses + [AnalysisOf(t)];
      scores := scores + [ScoreOf(t, profileId, 0.0)];
      i := i + 1;
    }
    assert rawScores == RawsOf(saved);
    var avgRaw := Mean(rawScores);
    if avgRaw > 0.0 {
      var j := 0;
      while j < |scores|
        invariant j <= |scores| == |saved|
        invariant forall k :: 0 <= k < |saved| ==>
                    scores[k] == ScoreOf(saved[k], profileId, if k < j then avgRaw else 0.0)
      {
        Renormalize(saved[j], profileId, avgRaw);
        scores := scores[j := scores[j].(normalizedScore := Round2(scores[j].rawScore / avgRaw))];
        j := j + 1;
      }
    }
  }

  /** Updating the normalised score of a freshly pushed row in place gives the row of the
      cohort. */
  lemma Renormalize(t: SavedTweet, profileId: string, mean: real)
    requires mean > 0.0
    ensures var s := ScoreOf(t, profileId, 0.0);
            s.(normalizedScore := Round2(s.rawScore / mean)) == ScoreOf(t, profileId, mean)
  {
  }

  /** The analysis row and the score row of a post agree: same id and counters, the score's
      comment rate is the analysis's reply rate, every comment is counted as neutral, and the
      engagement and raw scores are rounded once, after summing the unrounded rates. */
  lemma RowsAgree(t: SavedTweet, profileId: string, mean: real)
    ensures var a := AnalysisOf(t); var s := ScoreOf(t, profileId, mean); var r := RatesOf(CountersOf(t));
            a.tweetId == s.tweetId == t.id && s.profileId == profileId
            && a.views == s.views && a.likes == s.likes && a.retweets == s.retweets && a.replies == s.replies
            && s.commentRate == a.replyRate && s.likeRate == a.likeRate && s.retweetRate == a.retweetRate
            && a.totalComments == a.neutralComments == a.replies
            && a.positiveComments == 0 && a.negativeComments == 0
            && a.engagementRate == Round2(r.like + r.retweet + r.reply)
            && s.rawScore == Round2(0.4 * r.retweet + 0.4 * r.reply + 0.2 * r.like)
  {
  }

  /** A post without views (a null view count reads as 0) has every rate, its engagement and
      its raw score at 0. */
  lemma NoViewsNoRates(t: SavedTweet, profileId: string, mean: real)
    requires t.views.None? || t.views == Some(0)
    ensures var a := AnalysisOf(t);
            a.likeRate == 0.0 && a.retweetRate == 0.0 && a.replyRate == 0.0 && a.engagementRate == 0.0
    ensures ScoreOf(t, profileId, mean).rawScore == 0.0
  {
    ZeroViewsEngagement(CountersOf(t));
    ZeroViewsRawScore(CountersOf(t));
    Round2Zero();
  }

  /** When the cohort mean is not positive (an empty cohort included) every normalised score
      stays 0. With non-negative counters that happens exactly when no post has both views
      and some like, retweet or reply. */
  lemma CohortWithoutEngagement(saved: seq<SavedTweet>, profileId: string)
    requires forall i :: 0 <= i < |saved| ==> CountersOf(saved[i]).NonNegative()
    ensures CohortMean(saved) > 0.0 <==> exists i :: 0 <= i < |saved| && CountersOf(saved[i]).Engaged()
    ensures CohortMean(saved) <= 0.0 ==>
              forall i :: 0 <= i < |saved| ==> ScoreOf(saved[i], profileId, CohortMean(saved)).normalizedScore == 0.0
  {
    var raws := RawsOf(saved);
    forall i | 0 <= i < |saved|
      ensures raws[i] >= 0.0
      ensures raws[i] > 0.0 <==> CountersOf(saved[i]).Engaged()
    {
      RawScorePositive(CountersOf(saved[i]));
    }
    MeanPositive(raws);
  }

  function ExamplePost(id: string, retweets: int): SavedTweet {
    SavedTweet(id, Some(100), Some(0), Some(retweets), Some(0))
  }

  lemma ExamplePostRaw(id: string, retweets: int)
    ensures RawOf(ExamplePost(id, retweets)) == 0.4 * retweets as real
  {
    var c := CountersOf(ExamplePost(id, retweets));
    assert c == Counters(100, 0, retweets, 0);
    assert RatesOf(c) == Rates(0.0, retweets as real, 0.0);
  }

  /** Three posts with raw scores 10, 20 and 30 (100 views and 25, 50, 75 retweets) get
      normalised scores 0.5, 1 and 1.5. */
  lemma CohortExample(profileId: string)
    ensures var saved := [ExamplePost("a", 25), ExamplePost("b", 50), ExamplePost("c", 75)];
            var m := CohortMean(saved);
            ScoreOf(saved[0], profileId, m).normalizedScore == 0.5
            && ScoreOf(saved[1], profileId, m).normalizedScore == 1.0
            && ScoreOf(saved[2], profileId, m).normalizedScore == 1.5
  {
    var saved := [ExamplePost("a", 25), ExamplePost("b", 50), ExamplePost("c", 75)];
    ExamplePostRaw("a", 25);
    ExamplePostRaw("b", 50);
    ExamplePostRaw("c", 75);
    assert RawsOf(saved) == [10.0, 20.0, 30.0];
    NormalizedExample();
    Round2Cents(1000);
    Round2Cents(2000);
    Round2Cents(3000);
  }

  // ---------------------------------------------------------------------------------
  // The route

  /** The fields of the provider's profile the route uses. */
  datatype ApiProfile = ApiProfile(id: string, username: string)

  /** The provider API, the database and the clock, as the route sees them. Each write
      returns the ids of the rows it stored or the message of its error. */
  datatype Services = Services(
    getProfile: string -> Result<ApiProfile, string>,           // twitter.getUserProfile
    upsertProfile: ApiProfile -> Result<string, string>,        // the `profiles` row id
    getTweets: string -> Result<seq<FetchedTweet>, string>,     // getUserTweets(id, 100).data
    upsertTweets: seq<TweetRow> -> Result<seq<string>, string>,
    readSaved: string -> Result<seq<SavedTweet>, string>,       // newest first, at most 100
    upsertAnalyses: seq<Analysis> -> Result<seq<string>, string>,
    upsertScores: seq<Score> -> Result<seq<string>, string>,
    toIso: string -> string)

  datatype AnalyzeReply =
    | Analyzed(username: string, profileId: string, tweetsProcessed: nat)
    | Rejected(status: int, error: string)

  /** The catch-all: status 500 with `e.message || 'internal_error'`. */
  function Internal(message: string): AnalyzeReply {
    Rejected(500, OrElse(Some(message), "internal_error"))
  }

  /** `tweetsResp.data.map(...)`: one row per fetched post, in order. */
  function TweetRowsOf(tweets: seq<FetchedTweet>, profileId: string, username: string,
                       toIso: string -> string): (rows: seq<TweetRow>)
    ensures |rows| == |tweets|
    ensures forall i :: 0 <= i < |tweets| ==> rows[i] == TweetRowOf(tweets[i], profileId, username, toIso)
  {
    seq(|tweets|, i requires 0 <= i < |tweets| => TweetRowOf(tweets[i], profileId, username, toIso))
  }

  /** The analysis rows of the saved posts, in order. */
  function AnalysesOf(saved: seq<SavedTweet>): (rows: seq<Analysis>)
    ensures |rows| == |saved| && forall i :: 0 <= i < |saved| ==> rows[i] == AnalysisOf(saved[i])
  {
    seq(|saved|, i requires 0 <= i < |saved| => AnalysisOf(saved[i]))
  }

  /** The score rows of the saved posts, normalised against their cohort. */
  function ScoresOf(saved: seq<SavedTweet>, profileId: string): (rows: seq<Score>)
    ensures |rows| == |saved|
    ensures forall i :: 0 <= i < |saved| ==> rows[i] == ScoreOf(saved[i], profileId, CohortMean(saved))
  {
    seq(|saved|, i requires 0 <= i < |saved| => ScoreOf(saved[i], profileId, CohortMean(saved)))
  }

  /** The reply of `POST /api/profile/analyze` for the body field `username` (`None` when it
      is absent or not a string): each step runs only when the ones before it succeeded. */
  function AnalyzeOutcome(username: Option<string>, sv: Services): AnalyzeReply {
    if username.None? || username.value == "" then Rejected(400, "username requerido")
    else
      match sv.getProfile(ExtractUsername(username.value))
      case Failure(e) => Internal(e)
      case Success(p) =>
        match sv.upsertProfile(p)
        case Failure(e) => Internal(e)
        case Success(pid) => AfterProfile(p, pid, sv)
  }

  function AfterProfile(p: ApiProfile, pid: string, sv: Services): AnalyzeReply {
    match sv.getTweets(p.id)
    case Failure(e) => Internal(e)
    case Success(tweets) =>
      match WriteChunks(Chunks(TweetRowsOf(tweets, pid, p.username, sv.toIso), ChunkSize), sv.upsertTweets)
      case Failure(e) => Internal(e)
      case Success(_) =>
        match sv.readSaved(pid)
        case Failure(e) => Internal(e)
        case Success(saved) =>
          match WriteChunks(Chunks(AnalysesOf(saved), ChunkSize), sv.upsertAnalyses)
          case Failure(e) => Internal(e)
          case Success(_) =>
            match WriteChunks(Chunks(ScoresOf(saved, pid), ChunkSize), sv.upsertScores)
            case Failure(e) => Internal(e)
            case Success(_) => Analyzed(p.username, pid, |saved|)
  }

  /** `POST /api/profile/analyze`. */
  method AnalyzePost(username: Option<string>, sv: Services) returns (reply: AnalyzeReply)
    ensures reply == AnalyzeOutcome(username, sv)
  {
    if username.None? || username.value == "" {
      return Rejected(400, "username requerido");
    }
    var handle := ExtractUsername(username.value);
    var profile := sv.getProfile(handle);
    if profile.Failure? {
      return Internal(profile.error);
    }
    var p := profile.value;
    var upserted := sv.upsertProfile(p);
    if upserted.Failure? {
      return Internal(upserted.error);
    }
    var pid := upserted.value;
    reply := RunAfterProfile(p, pid, sv);
  }

  method RunAfterProfile(p: ApiProfile, pid: string, sv: Services) returns (reply: AnalyzeReply)
    ensures reply == AfterProfile(p, pid, sv)
  {
    var fetched := sv.getTweets(p.id);
    if fetched.Failure? {
      return Internal(fetched.error);
    }
    var tweetRows := TweetRowsOf(fetched.value, pid, p.username, sv.toIso);
    var _, _, err := UpsertChunks(tweetRows, sv.upsertTweets);
    if err.Some? {
      return Internal(err.value);
    }
    var read := sv.readSaved(pid);
    if read.Failure? {
      return Internal(read.error);
    }
    var saved := read.value;
    var analyses, scores := AnalyzeSaved(saved, pid);
    assert analyses == AnalysesOf(saved);
    assert scores == ScoresOf(saved, pid);
    var _, _, errA := UpsertChunks(analyses, sv.upsertAnalyses);
    if errA.Some? {
      return Internal(errA.value);
    }
    var _, _, errS := UpsertChunks(scores, sv.upsertScores);
    if errS.Some? {
      return Internal(errS.value);
    }
    reply := Analyzed(p.username, pid, |saved|);
  }

  /** Only a missing or empty username is a client error (400); every other failure is a
      500 whose message is never empty. */
  lemma AnalyzeStatus(username: Option<string>, sv: Services)
    ensures AnalyzeOutcome(username, sv).Rejected? && AnalyzeOutcome(username, sv).status == 400
            <==> username.None? || username.value == ""
    ensures AnalyzeOutcome(username, sv).Rejected? ==>
              AnalyzeOutcome(username, sv).status in {400, 500} && AnalyzeOutcome(username, sv).error != ""
  {
    if username.Some? && username.value != "" {
      var prof := sv.getProfile(ExtractUsername(username.value));
      if prof.Success? && sv.upsertProfile(prof.value).Success? {
        AfterProfileFails(prof.value, sv.upsertProfile(prof.value).value, sv);
      }
    }
  }

  /** After the profile is stored, every failure is a 500 with a message. */
  lemma AfterProfileFails(p: ApiProfile, pid: string, sv: Services)
    ensures AfterProfile(p, pid, sv).Rejected? ==>
              AfterProfile(p, pid, sv).status == 500 && AfterProfile(p, pid, sv).error != ""
  {
    var r := AfterProfile(p, pid, sv);
    if r.Rejected? {
      var e :| r == Internal(e);
    }
  }

  /** A successful run reports the provider's spelling of the username (not the handle as
      typed), the stored profile id and the number of saved posts it analysed; and it
      required every chunk of every table to be written. */
  lemma AnalyzeSuccess(username: Option<string>, sv: Services)
    requires AnalyzeOutcome(username, sv).Analyzed?
    ensures username.Some? && sv.getProfile(ExtractUsername(username.value)).Success?
    ensures var p := sv.getProfile(ExtractUsername(username.value)).value;
            sv.upsertProfile(p).Success? && sv.readSaved(sv.upsertProfile(p).value).Success?
            && var pid := sv.upsertProfile(p).value; var saved := sv.readSaved(pid).value;
            AnalyzeOutcome(username, sv) == Analyzed(p.username, pid, |saved|)
            && WriteChunks(Chunks(AnalysesOf(saved), ChunkSize), sv.upsertAnalyses).Success?
            && WriteChunks(Chunks(ScoresOf(saved, pid), ChunkSize), sv.upsertScores).Success?
  {
  }
}

=== FILE: categories.dfy ===
/** The categories route: lists the political categories stored for a profile (GET) and
    stores a fresh categorisation of its latest posts (POST) without touching categories the
    user edited. The database, the categoriser and the clock are the oracles of `CatStore`. */
module Categories {
  import opened Wrappers
  import opened Text
  import opened Handles
  import opened Params

  datatype Profile = Profile(id: string, username: string)

  /** A post as the route selects it; its text may be null. */
  datatype Post = Post(id: string, tweetId: string, text: Option<string>)

  /** A category proposed by the categoriser. `confidence` is `None` when the value is not a
      number and `evidence` is `None` when it is not an array. */
  datatype Proposal = Proposal(name: string, position: string, confidence: Option<real>,
                               evidence: Option<seq<int>>)

  /** A row of `political_categories` that already exists; its flag may be null. */
  datatype ExistingRow = ExistingRow(categoryName: string, isUserModified: Option<bool>)

  /** A row of the upsert payload. */
  datatype CategoryRow = CategoryRow(
    profileId: string, categoryName: string, positionDescription: string,
    confidenceScore: Option<real>, evidenceTweetIds: seq<string>, isUserModified: bool,
    createdBy: string, createdAt: string, updatedAt: string)

  datatype CatStore = CatStore(
    findProfile: string -> Result<Option<Profile>, string>,
    listCategories: string -> Result<seq<CategoryRow>, string>,
    latestPosts: (string, int) -> Result<seq<Post>, string>,
    categorize: seq<string> -> seq<Proposal>,
    existing: string -> Result<seq<ExistingRow>, string>,
    upsert: seq<CategoryRow> -> Result<(), string>)

  datatype CatReply =
    | Listed(profileId: string, username: string, categories: seq<CategoryRow>)
    | Saved(saved: nat, skippedModified: nat, categories: seq<CategoryRow>)
    | Error(status: int, message: string)

  /** `e.message || 'internal_error'`. */
  function ServerError(message: string): CatReply {
    Error(500, OrElse(Some(message), "internal_error"))
  }

  /** `normHandle(url.searchParams.get('username') || '')`. */
  function UsernameParam(p: Option<string>): string {
    NormHandle(OrElse(p, ""))
  }

  /** `GET /api/profile/categories`. */
  function HandleGet(usernameParam: Option<string>, st: CatStore): CatReply {
    var username := UsernameParam(usernameParam);
    if username == "" then Error(400, "username requerido")
    else
      match st.findProfile(username)
      case Failure(e) => ServerError(e)
      case Success(None) => Error(404, "perfil no encontrado")
      case Success(Some(p)) =>
        match st.listCategories(p.id)
        case Failure(e) => ServerError(e)
        case Success(cats) => Listed(p.id, p.username, cats)
  }

  /** `n` of the categories route: between 20 and 300, 100 by default. */
  function PostLimit(p: Option<string>): (n: int)
    ensures 20 <= n <= 300
  {
    ClampParam(p, 20, 300)
  }

  /** `Math.max(0, Math.min(1, c))` for a number, `null` otherwise. */
  function ClampConfidence(c: Option<real>): (r: Option<real>)
    ensures r.Some? <==> c.Some?
    ensures r.Some? ==> 0.0 <= r.value <= 1.0
    ensures c.Some? && 0.0 <= c.value <= 1.0 ==> r == c
    ensures c.Some? && c.value < 0.0 ==> r == Some(0.0)
    ensures c.Some? && c.value > 1.0 ==> r == Some(1.0)
  {
    match c
    case None => None
    case Some(x) => Some(if x < 0.0 then 0.0 else if x > 1.0 then 1.0 else x)
  }

  /** `evidence_indices.map((i) => tweets[i]?.tweet_id).filter(isString)`: the ids of the
      indexed posts, in index order, without the out-of-range indices; `[]` when the
      evidence is not an array. */
  /** Every id is the id of one of the posts. */
  predicate IdsFromPosts(ids: seq<string>, posts: seq<Post>) {
    forall k :: 0 <= k < |ids| ==> exists i :: 0 <= i < |posts| && ids[k] == posts[i].tweetId
  }

  function EvidenceIds(indices: Option<seq<int>>, posts: seq<Post>): (r: seq<string>)
    ensures indices.None? ==> r == []
    ensures IdsFromPosts(r, posts)
  {
    match indices
    case None => []
    case Some(xs) => IdsAt(xs, posts)
  }

  function IdsAt(xs: seq<int>, posts: seq<Post>): (r: seq<string>)
    ensures |r| <= |xs|
    ensures forall k :: 0 <= k < |r| ==> exists i :: 0 <= i < |posts| && r[k] == posts[i].tweetId
  {
    if |xs| == 0 then []
    else
      var rest := IdsAt(xs[1..], posts);
      if 0 <= xs[0] < |posts| then [posts[xs[0]].tweetId] + rest else rest
  }

  /** Indices inside the list of posts map to the ids of those posts, one for one. */
  lemma {:induction false} IdsAtInRange(xs: seq<int>, posts: seq<Post>)
    requires forall k :: 0 <= k < |xs| ==> 0 <= xs[k] < |posts|
    ensures |IdsAt(xs, posts)| == |xs|
    ensures forall k :: 0 <= k < |xs| ==> IdsAt(xs, posts)[k] == posts[xs[k]].tweetId
  {
    if |xs| > 0 {
      IdsAtInRange(xs[1..], posts);
    }
  }

  /** An index outside the list of posts (negative or too large) contributes nothing,
      wherever it appears. */
  lemma {:induction false} IdsAtDropsOutOfRange(xs: seq<int>, bad: int, ys: seq<int>, posts: seq<Post>)
    requires bad < 0 || bad >= |posts|
    ensures IdsAt(xs + [bad] + ys, posts) == IdsAt(xs + ys, posts)
  {
    if |xs| > 0 {
      IdsAtDropsOutOfRange(xs[1..], bad, ys, posts);
      assert (xs + [bad] + ys)[1..] == xs[1..] + [bad] + ys;
      assert (xs + ys)[1..] == xs[1..] + ys;
    } else {
      assert xs + [bad] + ys == [bad] + ys;
      assert ([bad] + ys)[1..] == ys;
      assert xs + ys == ys;
    }
  }

  /** The names of the categories the user edited (`is_user_modified` true). */
  function ProtectedNames(existing: seq<ExistingRow>): (names: set<string>)
    ensures forall name :: name in names <==>
              exists i :: 0 <= i < |existing| && existing[i].categoryName == name
                          && existing[i].isUserModified == Some(true)
  {
    set i | 0 <= i < |existing| && existing[i].isUserModified == Some(true) :: existing[i].categoryName
  }

  /** The proposals whose name the user has not edited, in order. */
  function Unprotected(proposals: seq<Proposal>, protectedNames: set<string>): (r: seq<Proposal>)
    ensures |r| <= |proposals|
    ensures forall c :: c in r <==> c in proposals && c.name !in protectedNames
  {
    if |proposals| == 0 then []
    else
      var rest := Unprotected(proposals[1..], protectedNames);
      if proposals[0].name in protectedNames then rest else [proposals[0]] + rest
  }

  /** The filter works piece by piece, so it keeps the order and the repeats of the proposals. */
  lemma {:induction false} UnprotectedAppend(a: seq<Proposal>, b: seq<Proposal>, protectedNames: set<string>)
    ensures Unprotected(a + b, protectedNames) == Unprotected(a, protectedNames) + Unprotected(b, protectedNames)
  {
    if |a| > 0 {
      assert (a + b)[1..] == a[1..] + b;
      UnprotectedAppend(a[1..], b, protectedNames);
    } else {
      assert a + b == b;
    }
  }

  /** `process.env.GEMINI_API_KEY ? 'llm' : 'heuristic'`. */
  function CreatedBy(geminiKey: Option<string>): (r: string)
    ensures r == "llm" <==> geminiKey.Some? && geminiKey.value != ""
    ensures r == "llm" || r == "heuristic"
  {
    if OrElse(geminiKey, "") != "" then "llm" else "heuristic"
  }

  function RowFor(c: Proposal, profileId: string, posts: seq<Post>, geminiKey: Option<string>,
                  now: string): CategoryRow
  {
    CategoryRow(profileId, c.name, c.position, ClampConfidence(c.confidence),
                EvidenceIds(c.evidence, posts), false, CreatedBy(geminiKey), now, now)
  }

  /** The rows to upsert: one per proposal the user has not overridden, in order. */
  function Payload(proposals: seq<Proposal>, protectedNames: set<string>, profileId: string,
                   posts: seq<Post>, geminiKey: Option<string>, now: string): (rows: seq<CategoryRow>)
  {
    var keep := Unprotected(proposals, protectedNames);
    seq(|keep|, i requires 0 <= i < |keep| => RowFor(keep[i], profileId, posts, geminiKey, now))
  }

  /** The payload never overwrites an edited category and drops nothing else: its names are
      exactly the proposed names that are not protected. */
  lemma PayloadRespectsEdits(proposals: seq<Proposal>, protectedNames: set<string>, profileId: string,
                             posts: seq<Post>, geminiKey: Option<string>, now: string)
    ensures var rows := Payload(proposals, protectedNames, profileId, posts, geminiKey, now);
            (forall k :: 0 <= k < |rows| ==> rows[k].categoryName !in protectedNames)
            && (forall c :: c in proposals && c.name !in protectedNames ==>
                  exists k :: 0 <= k < |rows| && rows[k].categoryName == c.name)
  {
    var keep := Unprotected(proposals, protectedNames);
    var rows := Payload(proposals, protectedNames, profileId, posts, geminiKey, now);
    forall k | 0 <= k < |rows|
      ensures rows[k].categoryName !in protectedNames
    {
      assert keep[k] in keep;
    }
    forall c | c in proposals && c.name !in protectedNames
      ensures exists k :: 0 <= k < |rows| && rows[k].categoryName == c.name
    {
      assert c in keep;
      var k :| 0 <= k < |keep| && keep[k] == c;
      assert rows[k].categoryName == c.name;
    }
  }

  /** A payload row is marked as not edited, has equal creation and update times, a
      confidence in `[0, 1]` or none, evidence ids taken from the posts, and is attributed
      to the model exactly when its key is configured. */
  predicate WellFormedRow(r: CategoryRow, profileId: string, posts: seq<Post>,
                          geminiKey: Option<string>, now: string)
  {
    !r.isUserModified && r.createdAt == r.updatedAt == now && r.profileId == profileId
    && (r.confidenceScore.Some? ==> 0.0 <= r.confidenceScore.value <= 1.0)
    && IdsFromPosts(r.evidenceTweetIds, posts)
    && (r.createdBy == "llm" <==> geminiKey.Some? && geminiKey.value != "")
    && (r.createdBy != "llm" ==> r.createdBy == "heuristic")
  }

  lemma PayloadRows(proposals: seq<Proposal>, protectedNames: set<string>, profileId: string,
                    posts: seq<Post>, geminiKey: Option<string>, now: string)
    ensures forall r :: r in Payload(proposals, protectedNames, profileId, posts, geminiKey, now) ==>
              WellFormedRow(r, profileId, posts, geminiKey, now)
  {
    var keep := Unprotected(proposals, protectedNames);
    var rows := Payload(proposals, protectedNames, profileId, posts, geminiKey, now);
    forall r | r in rows
      ensures WellFormedRow(r, profileId, posts, geminiKey, now)
    {
      var j :| 0 <= j < |rows| && rows[j] == r;
      assert r == RowFor(keep[j], profileId, posts, geminiKey, now);
      RowForWellFormed(keep[j], profileId, posts, geminiKey, now);
    }
  }

  lemma RowForWellFormed(c: Proposal, profileId: string, posts: seq<Post>,
                         geminiKey: Option<string>, now: string)
    ensures WellFormedRow(RowFor(c, profileId, posts, geminiKey, now), profileId, posts, geminiKey, now)
  {
    var r := RowFor(c, profileId, posts, geminiKey, now);
    var ids := EvidenceIds(c.evidence, posts);
    assert r.evidenceTweetIds == ids;
    assert r.createdBy == CreatedBy(geminiKey);
    assert r.confidenceScore == ClampConfidence(c.confidence);
    assert !r.isUserModified && r.createdAt == r.updatedAt == now && r.profileId == profileId;
  }

  /** `tweets.map((t) => t.text || '')`. */
  function Texts(posts: seq<Post>): (r: seq<string>)
    ensures |r| == |posts|
    ensures forall i :: 0 <= i < |posts| ==>
              (posts[i].text.Some? ==> r[i] == posts[i].text.value) && (posts[i].text.None? ==> r[i] == "")
  {
    seq(|posts|, i requires 0 <= i < |posts| => OrElse(posts[i].text, ""))
  }

  /** `POST /api/profile/categories`. `now` is the clock, `geminiKey` the configured key. A
      failed read of the existing rows counts as no rows. */
  function HandlePost(usernameParam: Option<string>, nParam: Option<string>, st: CatStore,
                geminiKey: Option<string>, now: string): CatReply
  {
    var username := UsernameParam(usernameParam);
    var n := PostLimit(nParam);
    if username == "" then Error(400, "username requerido")
    else
      match st.findProfile(username)
      case Failure(e) => ServerError(e)
      case Success(None) => Error(404, "perfil no encontrado; ejecute /api/profile/analyze primero")
      case Success(Some(p)) =>
        match st.latestPosts(p.id, n)
        case Failure(e) => ServerError(e)
        case Success(posts) =>
          if |posts| == 0 then Error(400, "sin tweets; ejecute analyze primero")
          else StoreProposals(p, posts, st, geminiKey, now)
  }

  /** The part of the POST handler after the posts are read: categorise them, drop the
      proposals the user overrode, upsert the rest and list what is stored. */
  function StoreProposals(p: Profile, posts: seq<Post>, st: CatStore, geminiKey: Option<string>,
                          now: string): CatReply
  {
    var proposals := st.categorize(Texts(posts));
    var existing := match st.existing(p.id) case Success(rows) => rows case Failure(_) => [];
    var protectedNames := ProtectedNames(existing);
    var payload := Payload(proposals, protectedNames, p.id, posts, geminiKey, now);
    var stored := if |payload| > 0 then st.upsert(payload) else Success(());
    if stored.Failure? then ServerError(stored.error)
    else
      match st.listCategories(p.id)
      case Failure(e) => ServerError(e)
      case Success(cats) => Saved(|payload|, |protectedNames|, cats)
  }

  /** A username that normalises to the empty handle is refused with 400 by both
      handlers, before the database is read. */
  lemma EmptyUsername(usernameParam: Option<string>, nParam: Option<string>, st: CatStore,
                      geminiKey: Option<string>, now: string)
    requires UsernameParam(usernameParam) == ""
    ensures HandleGet(usernameParam, st) == Error(400, "username requerido")
    ensures HandlePost(usernameParam, nParam, st, geminiKey, now) == Error(400, "username requerido")
  {
  }

  /** The GET handler answers 404 exactly when the handle names no profile, and every
      other refusal is a 400 (no handle) or a 500 (a failed read). */
  lemma GetRefusals(usernameParam: Option<string>, st: CatStore)
    ensures var u := UsernameParam(usernameParam); var r := HandleGet(usernameParam, st);
            (r.Error? && r.status == 404 <==> u != "" && st.findProfile(u) == Success(None))
            && (r.Error? ==> r.status == 400 || r.status == 404 || r.status == 500)
  {
    var u := UsernameParam(usernameParam);
    var r := HandleGet(usernameParam, st);
    if u == "" {
      assert r == Error(400, "username requerido");
    } else {
      var found := st.findProfile(u);
      if found.Failure? {
        assert r == ServerError(found.error);
      } else if found.value.None? {
        assert r == Error(404, "perfil no encontrado");
      } else {
        var listed := st.listCategories(found.value.value.id);
        if listed.Failure? {
          assert r == ServerError(listed.error);
        } else {
          assert r.Listed?;
        }
      }
    }
  }

  /** The GET handler lists exactly when the profile and its categories were read, and the
      listing is that of the profile the handle names. */
  lemma GetListing(usernameParam: Option<string>, st: CatStore)
    ensures var u := UsernameParam(usernameParam); var r := HandleGet(usernameParam, st);
            (r.Listed? <==> u != "" && st.findProfile(u).Success? && st.findProfile(u).value.Some?
                            && st.listCategories(st.findProfile(u).value.value.id).Success?)
            && (r.Listed? ==> r.profileId == st.findProfile(u).value.value.id
                              && r.username == st.findProfile(u).value.value.username
                              && Success(r.categories) == st.listCategories(r.profileId))
  {
  }

  /** A profile without posts is refused with 400 before the categoriser runs: the answer
      does not depend on it. */
  lemma NoPostsNoCategorizer(usernameParam: Option<string>, nParam: Option<string>, st: CatStore,
                             other: seq<string> -> seq<Proposal>, geminiKey: Option<string>, now: string)
    requires var u := UsernameParam(usernameParam);
             u != "" && st.findProfile(u).Success? && st.findProfile(u).value.Some?
             && st.latestPosts(st.findProfile(u).value.value.id, PostLimit(nParam)) == Success([])
    ensures HandlePost(usernameParam, nParam, st, geminiKey, now) == Error(400, "sin tweets; ejecute analyze primero")
    ensures HandlePost(usernameParam, nParam, st.(categorize := other), geminiKey, now)
            == HandlePost(usernameParam, nParam, st, geminiKey, now)
  {
  }

  /** A successful POST reports as skipped the number of distinct edited category names,
      and as saved the number of payload rows, which is at most the number of proposals. */
  lemma SavedCounts(p: Profile, posts: seq<Post>, st: CatStore, geminiKey: Option<string>, now: string)
    requires StoreProposals(p, posts, st, geminiKey, now).Saved?
    ensures var r := StoreProposals(p, posts, st, geminiKey, now);
            var existing := if st.existing(p.id).Success? then st.existing(p.id).value else [];
            var proposals := st.categorize(Texts(posts));
            r.skippedModified == |ProtectedNames(existing)|
            && r.saved == |Unprotected(proposals, ProtectedNames(existing))|
            && r.saved <= |proposals|
  {
  }
}

=== FILE: compare.dfy ===
/** The compare route: reads a list of handles, looks each one up in the database (running
    the analyzer first when asked to and the profile is unknown), and reports per handle the
    summed counters, the averaged rates, the mean normalised score and the three
    best-scoring posts. The database and the analyzer endpoint are the oracles of `Store`. */
module Compare {
  import opened Wrappers
  import opened Text
  import opened Handles
  import opened Metrics
  import opened Ranking
  import opened Params
  import opened Seqs

  // ---------------------------------------------------------------------------------
  // The users list

  /** A character of the separator class `[\s,]`. */
  predicate IsSeparator(c: char) { IsSpace(c) || c == ',' }

  /** The pieces between separator characters (`split` on each single separator; the runs
      of `/[\s,]+/` differ from this only by empty pieces, which are dropped next). */
  function SplitOnSeparators(s: string): (r: seq<string>)
    ensures |r| > 0
  {
    if |s| == 0 then [""]
    else
      var rest := SplitOnSeparators(s[1..]);
      if IsSeparator(s[0]) then [""] + rest else [[s[0]] + rest[0]] + rest[1..]
  }

  /** `.filter(Boolean)` on strings: drops the empty ones. */
  function NonEmpty(ps: seq<string>): (r: seq<string>)
    ensures forall i :: 0 <= i < |r| ==> r[i] != ""
    ensures forall p :: p in r <==> p in ps && p != ""
  {
    if |ps| == 0 then [] else (if ps[0] == "" then [] else [ps[0]]) + NonEmpty(ps[1..])
  }

  /** `.map((s) => s.trim())`: no piece starts or ends with white space. */
  function MapTrim(ps: seq<string>): (r: seq<string>)
    ensures |r| == |ps| && forall i :: 0 <= i < |ps| ==> r[i] == Trim(ps[i])
    ensures forall i :: 0 <= i < |r| ==> r[i] == [] || (!IsSpace(r[i][0]) && !IsSpace(r[i][|r[i]| - 1]))
  {
    seq(|ps|, i requires 0 <= i < |ps| => Trim(ps[i]))
  }

  /** `.map(normHandle)`: no handle keeps an upper-case ASCII letter. */
  function MapNormHandle(ps: seq<string>): (r: seq<string>)
    ensures |r| == |ps| && forall i :: 0 <= i < |ps| ==> r[i] == NormHandle(ps[i])
    ensures forall i, k :: 0 <= i < |r| && 0 <= k < |r[i]| ==> !IsUpperAscii(r[i][k])
  {
    seq(|ps|, i requires 0 <= i < |ps| => NormHandle(ps[i]))
  }

  /** The handles of the `users` parameter, normalised and without repetitions. */
  function Users(param: Option<string>): (us: seq<string>)
    ensures forall i, j :: 0 <= i < j < |us| ==> us[i] != us[j]
    ensures forall i, k :: 0 <= i < |us| && 0 <= k < |us[i]| ==> !IsUpperAscii(us[i][k])
  {
    var hs := MapNormHandle(NonEmpty(MapTrim(SplitOnSeparators(OrElse(param, "")))));
    DedupeDistinct(hs);
    DedupeKeepsLower(hs);
    Dedupe(hs)
  }

  /** Removing repetitions brings in no upper-case letter. */
  lemma DedupeKeepsLower(hs: seq<string>)
    requires forall i, k :: 0 <= i < |hs| && 0 <= k < |hs[i]| ==> !IsUpperAscii(hs[i][k])
    ensures forall i, k :: 0 <= i < |Dedupe(hs)| && 0 <= k < |Dedupe(hs)[i]| ==> !IsUpperAscii(Dedupe(hs)[i][k])
  {
    var d := Dedupe(hs);
    forall i, k | 0 <= i < |d| && 0 <= k < |d[i]|
      ensures !IsUpperAscii(d[i][k])
    {
      assert d[i] in d;
      var j :| 0 <= j < |hs| && hs[j] == d[i];
    }
  }

  /** The separator characters of `s`, in order. */
  function Separators(s: string): string {
    if |s| == 0 then []
    else (if IsSeparator(s[0]) then [s[0]] else []) + Separators(s[1..])
  }

  /** The pieces with one separator character between each two of them. */
  function Interleave(ps: seq<string>, seps: string): string
    requires |ps| == |seps| + 1
    decreases |seps|
  {
    if |seps| == 0 then ps[0] else ps[0] + [seps[0]] + Interleave(ps[1..], seps[1..])
  }

  /** Putting the separators of `s` back between its pieces gives `s`: the split loses
      nothing but the separator characters themselves. */
  lemma {:induction false} SplitInterleave(s: string)
    ensures |SplitOnSeparators(s)| == |Separators(s)| + 1
    ensures Interleave(SplitOnSeparators(s), Separators(s)) == s
  {
    if |s| > 0 {
      SplitInterleave(s[1..]);
      var rest := SplitOnSeparators(s[1..]);
      var seps := Separators(s[1..]);
      if IsSeparator(s[0]) {
        assert Separators(s) == [s[0]] + seps;
        assert ([""] + rest)[1..] == rest;
        assert s == [s[0]] + s[1..];
      } else {
        assert Separators(s) == seps;
        InterleaveConsFirst(s[0], rest, seps);
        assert s == [s[0]] + s[1..];
      }
    }
  }

  /** A character put in front of the first piece ends up in front of the whole text. */
  lemma InterleaveConsFirst(c: char, ps: seq<string>, seps: string)
    requires |ps| == |seps| + 1
    ensures Interleave([[c] + ps[0]] + ps[1..], seps) == [c] + Interleave(ps, seps)
  {
    var qs := [[c] + ps[0]] + ps[1..];
    assert qs[0] == [c] + ps[0] && qs[1..] == ps[1..];
    if |seps| > 0 {
      assert ([c] + ps[0]) + [seps[0]] + Interleave(ps[1..], seps[1..])
             == [c] + (ps[0] + [seps[0]] + Interleave(ps[1..], seps[1..]));
    }
  }

  /** No pieces contain a separator, so trimming them changes nothing. */
  lemma {:induction false} PiecesHaveNoSeparator(s: string)
    ensures forall k :: 0 <= k < |SplitOnSeparators(s)| ==>
              forall i :: 0 <= i < |SplitOnSeparators(s)[k]| ==> !IsSeparator(SplitOnSeparators(s)[k][i])
  {
    if |s| > 0 {
      PiecesHaveNoSeparator(s[1..]);
    }
  }

  lemma PiecesAreTrimmed(s: string)
    ensures MapTrim(SplitOnSeparators(s)) == SplitOnSeparators(s)
  {
    var ps := SplitOnSeparators(s);
    PiecesHaveNoSeparator(s);
    forall k | 0 <= k < |ps|
      ensures Trim(ps[k]) == ps[k]
    {
      TrimUnchanged(ps[k]);
    }
  }

  /** Some piece is non-empty exactly when the text has a character that is not a
      separator. */
  lemma {:induction false} NonEmptyPieces(s: string)
    ensures NonEmpty(SplitOnSeparators(s)) == [] <==> forall i :: 0 <= i < |s| ==> IsSeparator(s[i])
  {
    if |s| > 0 {
      NonEmptyPieces(s[1..]);
      var rest := SplitOnSeparators(s[1..]);
      if IsSeparator(s[0]) {
        assert ([""] + rest)[1..] == rest;
        if forall i :: 0 <= i < |s[1..]| ==> IsSeparator(s[1..][i]) {
          forall i | 0 <= i < |s|
            ensures IsSeparator(s[i])
          {
            if i > 0 { assert s[i] == s[1..][i - 1]; }
          }
        }
      } else {
        var first := [s[0]] + rest[0];
        assert first in SplitOnSeparators(s);
      }
    }
  }

  /** The users list is empty (and the route answers 400) exactly when the parameter is
      absent or made of separators only. */
  lemma UsersEmpty(param: Option<string>)
    ensures Users(param) == [] <==> forall i :: 0 <= i < |OrElse(param, "")| ==> IsSeparator(OrElse(param, "")[i])
  {
    var s := OrElse(param, "");
    PiecesAreTrimmed(s);
    NonEmptyPieces(s);
    var ne := NonEmpty(SplitOnSeparators(s));
    var hs := MapNormHandle(ne);
    if hs != [] {
      assert hs[0] in Dedupe(hs);
    }
  }

  /** An entry that normalises to the empty handle is kept: `users=@` asks for the handle
      `""`. */
  lemma LoneAtSign()
    ensures Users(Some("@")) == [""]
  {
    var s := "@";
    assert !IsSeparator(s[0]);
    assert s[1..] == "";
    assert SplitOnSeparators(s[1..]) == [""];
    assert [s[0]] + "" == "@";
    assert SplitOnSeparators(s) == ["@"];
    PiecesAreTrimmed(s);
    assert NonEmpty(["@"]) == ["@"] + NonEmpty([]);
    BareHandle("");
    assert "@" + "" == "@";
    assert NormHandle("@") == "";
    assert MapNormHandle(["@"]) == [""];
    assert Dedupe([""]) == [] + [""];
  }

  /** `n` of the compare route: between 10 and 500, 100 by default. */
  function PostLimit(p: Option<string>): (n: int)
    ensures 10 <= n <= 500
  {
    ClampParam(p, 10, 500)
  }

  // ---------------------------------------------------------------------------------
  // Aggregation

  /** A row of `tweet_analysis` as the route selects it; every column may be null. */
  datatype AnalysisRow = AnalysisRow(
    tweetId: string, views: Option<int>, likes: Option<int>, retweets: Option<int>,
    replies: Option<int>, likeRate: Option<real>, retweetRate: Option<real>,
    replyRate: Option<real>, engagementRate: Option<real>)

  datatype Totals = Totals(reach: int, likes: int, retweets: int, replies: int, tweetsConsidered: nat)

  datatype RateSummary = RateSummary(retweetRate: real, commentRate: real, likeRate: real, engagementRate: real)

  // `a.views_count || 0` and the like.
  function ViewsOf(a: AnalysisRow): int { a.views.GetOr(0) }
  function LikesOf(a: AnalysisRow): int { a.likes.GetOr(0) }
  function RetweetsOf(a: AnalysisRow): int { a.retweets.GetOr(0) }
  function RepliesOf(a: AnalysisRow): int { a.replies.GetOr(0) }
  function LikeRateOf(a: AnalysisRow): real { a.likeRate.GetOr(0.0) }
  function RetweetRateOf(a: AnalysisRow): real { a.retweetRate.GetOr(0.0) }
  function ReplyRateOf(a: AnalysisRow): real { a.replyRate.GetOr(0.0) }
  function EngagementRateOf(a: AnalysisRow): real { a.engagementRate.GetOr(0.0) }

  function SumInt<T>(s: seq<T>, f: T -> int): int {
    if |s| == 0 then 0 else SumInt(s[..|s| - 1], f) + f(s[|s| - 1])
  }

  function SumReal<T>(s: seq<T>, f: T -> real): real {
    if |s| == 0 then 0.0 else SumReal(s[..|s| - 1], f) + f(s[|s| - 1])
  }

  /** The totals of the analysis rows. */
  function TotalsOf(rows: seq<AnalysisRow>): Totals {
    Totals(SumInt(rows, ViewsOf), SumInt(rows, LikesOf), SumInt(rows, RetweetsOf),
           SumInt(rows, RepliesOf), |rows|)
  }

  /** `analyses.length || 1`. */
  function Divisor(n: nat): (k: nat)
    ensures k >= 1
  {
    if n == 0 then 1 else n
  }

  /** The per-row rates averaged over the rows (an average of rates, not a rate of sums),
      rounded to hundredths. */
  function SummaryOf(rows: seq<AnalysisRow>): RateSummary {
    var k := Divisor(|rows|) as real;
    RateSummary(Round2(SumReal(rows, RetweetRateOf) / k), Round2(SumReal(rows, ReplyRateOf) / k),
                Round2(SumReal(rows, LikeRateOf) / k), Round2(SumReal(rows, EngagementRateOf) / k))
  }

  /** The `analyses.forEach` loop and the four averages after it. */
  method Aggregate(rows: seq<AnalysisRow>) returns (totals: Totals, rates: RateSummary)
    ensures totals == TotalsOf(rows) && rates == SummaryOf(rows)
  {
    var views, likes, rts, replies := 0, 0, 0, 0;
    var likeRateSum, rtRateSum, replyRateSum, engageSum := 0.0, 0.0, 0.0, 0.0;
    var i := 0;
    while i < |rows|
      invariant i <= |rows|
      invariant views == SumInt(rows[..i], ViewsOf) && likes == SumInt(rows[..i], LikesOf)
      invariant rts == SumInt(rows[..i], RetweetsOf) && replies == SumInt(rows[..i], RepliesOf)
      invariant likeRateSum == SumReal(rows[..i], LikeRateOf)
      invariant rtRateSum == SumReal(rows[..i], RetweetRateOf)
      invariant replyRateSum == SumReal(rows[..i], ReplyRateOf)
      invariant engageSum == SumReal(rows[..i], EngagementRateOf)
    {
      var a := rows[i];
      assert rows[..i + 1][..i] == rows[..i] && rows[..i + 1][i] == a;
      views := views + ViewsOf(a);
      likes := likes + LikesOf(a);
      rts := rts + RetweetsOf(a);
      replies := replies + RepliesOf(a);
      likeRateSum := likeRateSum + LikeRateOf(a);
      rtRateSum := rtRateSum + RetweetRateOf(a);
      replyRateSum := replyRateSum + ReplyRateOf(a);
      engageSum := engageSum + EngagementRateOf(a);
      i := i + 1;
    }
    assert rows[..i] == rows;
    var k := Divisor(|rows|) as real;
    totals := Totals(views, likes, rts, replies, |rows|);
    rates := RateSummary(Round2(rtRateSum / k), Round2(replyRateSum / k),
                         Round2(likeRateSum / k), Round2(engageSum / k));
  }

  lemma {:induction false} SumIntAppend<T>(a: seq<T>, b: seq<T>, f: T -> int)
    ensures SumInt(a + b, f) == SumInt(a, f) + SumInt(b, f)
    decreases |b|
  {
    if |b| > 0 {
      SumIntAppend(a, b[..|b| - 1], f);
      assert (a + b)[..|a + b| - 1] == a + b[..|b| - 1];
    } else {
      assert a + b == a;
    }
  }

  /** Totals are additive: the totals of two batches of rows add up to the totals of both. */
  lemma TotalsAppend(a: seq<AnalysisRow>, b: seq<AnalysisRow>)
    ensures var t := TotalsOf(a + b); var ta := TotalsOf(a); var tb := TotalsOf(b);
            t.reach == ta.reach + tb.reach && t.likes == ta.likes + tb.likes
            && t.retweets == ta.retweets + tb.retweets && t.replies == ta.replies + tb.replies
            && t.tweetsConsidered == ta.tweetsConsidered + tb.tweetsConsidered
  {
    SumIntAppend(a, b, ViewsOf);
    SumIntAppend(a, b, LikesOf);
    SumIntAppend(a, b, RetweetsOf);
    SumIntAppend(a, b, RepliesOf);
  }

  lemma {:induction false} SumRealBounds<T>(s: seq<T>, f: T -> real, lo: real, hi: real)
    requires forall i :: 0 <= i < |s| ==> lo <= f(s[i]) <= hi
    ensures lo * |s| as real <= SumReal(s, f) <= hi * |s| as real
  {
    if |s| > 0 {
      SumRealBounds(s[..|s| - 1], f, lo, hi);
      assert lo * |s| as real == lo * (|s| - 1) as real + lo;
      assert hi * |s| as real == hi * (|s| - 1) as real + hi;
    }
  }

  /** An average of per-row rates lies within the range of those rates, up to the rounding
      to hundredths. */
  lemma AverageWithinRange(rows: seq<AnalysisRow>, f: AnalysisRow -> real, lo: real, hi: real)
    requires |rows| > 0
    requires forall i :: 0 <= i < |rows| ==> lo <= f(rows[i]) <= hi
    ensures var avg := Round2(SumReal(rows, f) / Divisor(|rows|) as real);
            lo - 0.005 < avg <= hi + 0.005
  {
    AverageBetween(rows, f, lo, hi);
    Round2Within(SumReal(rows, f) / Divisor(|rows|) as real, lo, hi);
  }

  lemma AverageBetween(rows: seq<AnalysisRow>, f: AnalysisRow -> real, lo: real, hi: real)
    requires |rows| > 0
    requires forall i :: 0 <= i < |rows| ==> lo <= f(rows[i]) <= hi
    ensures lo <= SumReal(rows, f) / Divisor(|rows|) as real <= hi
  {
    SumRealBounds(rows, f, lo, hi);
    MeanBetween(SumReal(rows, f), |rows| as real, lo, hi);
  }

  /** Two posts with like rates of 10% (10 likes on 100 views) and 100% (1 like on 1 view)
      average to 55%, while their summed likes over their summed views are about 10.9%. */
  lemma AverageOfRatesNotRateOfSums()
    ensures var rows := [AnalysisRow("a", Some(100), Some(10), None, None, Some(10.0), None, None, None),
                         AnalysisRow("b", Some(1), Some(1), None, None, Some(100.0), None, None, None)];
            var t := TotalsOf(rows);
            SummaryOf(rows).likeRate == 55.0 && t.reach == 101 && t.likes == 11
            && 100.0 * t.likes as real / t.reach as real < 11.0
  {
    var rows := [AnalysisRow("a", Some(100), Some(10), None, None, Some(10.0), None, None, None),
                 AnalysisRow("b", Some(1), Some(1), None, None, Some(100.0), None, None, None)];
    assert rows[..1] == [rows[0]] && rows[..1][..0] == [];
    assert SumReal(rows, LikeRateOf) == 110.0;
    assert SumInt(rows, ViewsOf) == 101;
    assert SumInt(rows, LikesOf) == 11;
    Round2Cents(5500);
  }

  // ---------------------------------------------------------------------------------
  // Scores and the top three

  datatype ScoreRow = ScoreRow(tweetId: string, normalizedScore: Option<real>)

  /** `s.normalized_score || 0`. */
  function NormOf(s: ScoreRow): real { s.normalizedScore.GetOr(0.0) }

  /** The map after `scores.forEach((s) => scoreMap.set(s.tweet_id, ...))`: a later row for
      the same post overwrites an earlier one. */
  function ScoreMapOf(scores: seq<ScoreRow>): map<string, real> {
    if |scores| == 0 then map[]
    else
      var last := scores[|scores| - 1];
      ScoreMapOf(scores[..|scores| - 1])[last.tweetId := NormOf(last)]
  }

  method BuildScoreMap(scores: seq<ScoreRow>) returns (scoreMap: map<string, real>)
    ensures scoreMap == ScoreMapOf(scores)
  {
    scoreMap := map[];
    var i := 0;
    while i < |scores|
      invariant i <= |scores| && scoreMap == ScoreMapOf(scores[..i])
    {
      assert scores[..i + 1][..i] == scores[..i];
      scoreMap := scoreMap[scores[i].tweetId := NormOf(scores[i])];
      i := i + 1;
    }
    assert scores[..i] == scores;
  }

  /** The map holds exactly the scored posts. */
  lemma {:induction false} ScoreMapKeys(scores: seq<ScoreRow>, id: string)
    ensures id in ScoreMapOf(scores) <==> exists i :: 0 <= i < |scores| && scores[i].tweetId == id
  {
    if |scores| > 0 {
      var init := scores[..|scores| - 1];
      ScoreMapKeys(init, id);
      if exists i :: 0 <= i < |init| && init[i].tweetId == id {
        var i :| 0 <= i < |init| && init[i].tweetId == id;
        assert scores[i].tweetId == id;
      }
      if exists i :: 0 <= i < |scores| && scores[i].tweetId == id {
        var i :| 0 <= i < |scores| && scores[i].tweetId == id;
        if i < |init| {
          assert init[i].tweetId == id;
        }
      }
    }
  }

  /** The score a post gets is the one of the last row for it. */
  lemma {:induction false} ScoreMapLastWins(scores: seq<ScoreRow>, i: nat)
    requires i < |scores|
    requires forall j :: i < j < |scores| ==> scores[j].tweetId != scores[i].tweetId
    ensures scores[i].tweetId in ScoreMapOf(scores)
    ensures ScoreMapOf(scores)[scores[i].tweetId] == NormOf(scores[i])
  {
    var init := scores[..|scores| - 1];
    if i < |init| {
      assert init[i] == scores[i];
      forall j | i < j < |init|
        ensures init[j].tweetId != init[i].tweetId
      {
        assert init[j] == scores[j];
      }
      ScoreMapLastWins(init, i);
    }
  }

  /** `score_avg`: the mean normalised score over the score rows, rounded, or 0 without
      rows. */
  function ScoreAverage(scores: seq<ScoreRow>): real {
    if |scores| == 0 then 0.0 else Round2(SumReal(scores, NormOf) / |scores| as real)
  }

  /** The mean score lies within the range of the row scores, up to the rounding. */
  lemma ScoreAverageWithinRange(scores: seq<ScoreRow>, lo: real, hi: real)
    requires |scores| > 0
    requires forall i :: 0 <= i < |scores| ==> lo <= NormOf(scores[i]) <= hi
    ensures lo - 0.005 < ScoreAverage(scores) <= hi + 0.005
  {
    SumRealBounds(scores, NormOf, lo, hi);
    MeanBetween(SumReal(scores, NormOf), |scores| as real, lo, hi);
  }

  /** A post of the profile as the route selects it. */
  datatype TweetRef = TweetRef(id: string, url: Option<string>, text: string, createdAt: string)

  /** An entry of `top`. */
  datatype Ranked = Ranked(tweetId: string, url: Option<string>, text: string, createdAt: string, score: real)

  function ScoreKey(r: Ranked): real { r.score }

  /** `scoreMap.get(t.id) || 0`. */
  function ScoreFor(scoreMap: map<string, real>, id: string): real {
    if id in scoreMap then scoreMap[id] else 0.0
  }

  /** `tweets.map(...)` with the mapped score: each post keeps its id, url, text and date. */
  function Enrich(tweets: seq<TweetRef>, scoreMap: map<string, real>): (r: seq<Ranked>)
    ensures |r| == |tweets|
    ensures forall i :: 0 <= i < |tweets| ==>
              r[i].tweetId == tweets[i].id && r[i].url == tweets[i].url && r[i].text == tweets[i].text
              && r[i].createdAt == tweets[i].createdAt && r[i].score == ScoreFor(scoreMap, tweets[i].id)
  {
    seq(|tweets|, i requires 0 <= i < |tweets| =>
      var t := tweets[i];
      Ranked(t.id, t.url, t.text, t.createdAt, ScoreFor(scoreMap, t.id)))
  }

  /** `enriched.sort(...)` followed by `enriched.slice(0, 3)`. */
  function TopThree(tweets: seq<TweetRef>, scoreMap: map<string, real>): seq<Ranked> {
    Take(SortDesc(Enrich(tweets, scoreMap), ScoreKey), 3)
  }

  /** The top holds `min(3, #posts)` of the enriched posts, in descending score order. */
  lemma TopThreeOrdered(tweets: seq<TweetRef>, scoreMap: map<string, real>)
    ensures var top := TopThree(tweets, scoreMap);
            |top| == (if |tweets| < 3 then |tweets| else 3)
            && SortedDesc(top, ScoreKey)
            && multiset(top) <= multiset(Enrich(tweets, scoreMap))
  {
    var all := Enrich(tweets, scoreMap);
    var sorted := SortDesc(all, ScoreKey);
    var top := TopThree(tweets, scoreMap);
    SortSorted(all, ScoreKey);
    SortPermutes(all, ScoreKey);
    assert sorted == top + sorted[|top|..];
    assert multiset(sorted) == multiset(top) + multiset(sorted[|top|..]);
    forall i, j | 0 <= i < j < |top|
      ensures top[i].score >= top[j].score
    {
      assert top[i] == sorted[i] && top[j] == sorted[j];
    }
  }

  /** No post left out of the top scores higher than a post in it, and posts with equal
      scores keep the order in which the database returned them. */
  lemma TopThreeBest(tweets: seq<TweetRef>, scoreMap: map<string, real>, v: real)
    ensures var top := TopThree(tweets, scoreMap); var all := Enrich(tweets, scoreMap);
            var sorted := SortDesc(all, ScoreKey);
            (forall i, j :: 0 <= i < |top| <= j < |sorted| ==> top[i].score >= sorted[j].score)
            && WithKey(sorted, ScoreKey, v) == WithKey(all, ScoreKey, v)
  {
    var all := Enrich(tweets, scoreMap);
    var sorted := SortDesc(all, ScoreKey);
    var top := TopThree(tweets, scoreMap);
    SortSorted(all, ScoreKey);
    SortStable(all, ScoreKey, v);
    forall i, j | 0 <= i < |top| <= j < |sorted|
      ensures top[i].score >= sorted[j].score
    {
      assert top[i] == sorted[i];
    }
  }

  // ---------------------------------------------------------------------------------
  // One handle

  datatype Profile = Profile(id: string, username: string)

  /** The answer of the analyzer endpoint; `body` is `''` when it could not be read. */
  datatype HttpReply = HttpReply(status: int, body: string)

  predicate IsOk(status: int) { 200 <= status <= 299 }

  /** The database and the analyzer endpoint. Profile lookups are case-insensitive. The
      analyzer call answers, or throws with the message of its error (a network failure). A
      re-query after the analyzer ran may see a different database, hence its own oracle;
      its errors are ignored by the route. */
  datatype Store = Store(
    findProfile: string -> Result<Option<Profile>, string>,
    analyze: string -> Result<HttpReply, string>,
    refindProfile: string -> Result<Option<Profile>, string>,
    latestTweets: (string, int) -> Result<seq<TweetRef>, string>,
    analysesOf: seq<string> -> Result<seq<AnalysisRow>, string>,
    scoresOf: seq<string> -> Result<seq<ScoreRow>, string>)

  datatype CompareItem =
    | Found(username: string, profileId: string, totals: Totals, rates: RateSummary,
            scoreAvg: real, top: seq<Ranked>)
    | Missing(username: string)
    | Failed(username: string, error: string)

  /** The requests the route makes for one handle, in order. */
  datatype Call =
    | FindProfile(handle: string)
    | RunAnalyzer(handle: string)
    | RefindProfile(handle: string)
    | LatestTweets(profileId: string, limit: int)
    | FetchAnalyses(ids: seq<string>)
    | FetchScores(ids: seq<string>)

  /** `e.message || 'unknown_error'`. */
  function FailureText(message: string): string {
    OrElse(Some(message), "unknown_error")
  }

  /** The entry for a failed analyzer call. */
  function AnalyzeFailure(reply: HttpReply): string {
    "analyze failed: " + IntToString(reply.status) + " " + SlicePrefix(reply.body, 200)
  }

  /** `tweets.map((t) => t.id)`. */
  function TweetIds(tweets: seq<TweetRef>): (ids: seq<string>)
    ensures |ids| == |tweets| && forall i :: 0 <= i < |tweets| ==> ids[i] == tweets[i].id
  {
    seq(|tweets|, i requires 0 <= i < |tweets| => tweets[i].id)
  }

  /** The entry of a profile that was found: never `missing`; a found entry carries the
      profile's id and stored username, and a failure is reported for the handle asked
      about. */
  function Report(u: string, p: Profile, n: int, st: Store): (r: CompareItem)
    ensures !r.Missing?
    ensures r.Found? ==> r.profileId == p.id && r.username == p.username && |r.top| <= 3
    ensures r.Failed? ==> r.username == u && r.error != ""
  {
    match st.latestTweets(p.id, n)
    case Failure(e) => Failed(u, FailureText(e))
    case Success(tweets) =>
      if |tweets| == 0 then
        Found(p.username, p.id, Totals(0, 0, 0, 0, 0), RateSummary(0.0, 0.0, 0.0, 0.0), 0.0, [])
      else
        var ids := TweetIds(tweets);
        match st.analysesOf(ids)
        case Failure(e) => Failed(u, FailureText(e))
        case Success(analyses) =>
          match st.scoresOf(ids)
          case Failure(e) => Failed(u, FailureText(e))
          case Success(scores) =>
            Found(p.username, p.id, TotalsOf(analyses), SummaryOf(analyses),
                  ScoreAverage(scores), TopThree(tweets, ScoreMapOf(scores)))
  }

  /** The entry for handle `u`. Every entry is for the handle asked about, except a found
      profile, which carries the username stored in the database; an error entry always
      has a message. */
  function Outcome(u: string, autofill: bool, n: int, st: Store): (r: CompareItem)
    ensures !r.Found? ==> r.username == u
    ensures r.Failed? ==> r.error != ""
  {
    match st.findProfile(u)
    case Failure(e) => Failed(u, FailureText(e))
    case Success(Some(p)) => Report(u, p, n, st)
    case Success(None) =>
      if !autofill then Missing(u)
      else
        match st.analyze(u)
        case Failure(e) => Failed(u, FailureText(e))
        case Success(reply) =>
          if !IsOk(reply.status) then Failed(u, AnalyzeFailure(reply))
          else
            match st.refindProfile(u)
            case Success(Some(p)) => Report(u, p, n, st)
            case _ => Missing(u)
  }

  /** The body of the loop over the handles: the lookups, the optional analyzer run, the
      three reads and the aggregation, with every failure turned into an `error` entry. */
  method CompareOne(u: string, autofill: bool, n: int, st: Store)
    returns (item: CompareItem, calls: seq<Call>)
    ensures item == Outcome(u, autofill, n, st)
    ensures |calls| > 0 && calls[0] == FindProfile(u)
    ensures RunAnalyzer(u) in calls <==> autofill && st.findProfile(u) == Success(None)
    ensures RefindProfile(u) in calls <==>
              RunAnalyzer(u) in calls && st.analyze(u).Success? && IsOk(st.analyze(u).value.status)
    ensures forall i, j :: 0 <= i < j < |calls| ==> calls[i] != calls[j]
  {
    calls := [FindProfile(u)];
    var found := st.findProfile(u);
    if found.Failure? {
      return Failed(u, FailureText(found.error)), calls;
    }
    var prof := found.value;
    if prof.None? && autofill {
      calls := calls + [RunAnalyzer(u)];
      var answer := st.analyze(u);
      if answer.Failure? {
        return Failed(u, FailureText(answer.error)), calls;
      }
      var reply := answer.value;
      if !IsOk(reply.status) {
        return Failed(u, AnalyzeFailure(reply)), calls;
      }
      calls := calls + [RefindProfile(u)];
      var again := st.refindProfile(u);
      prof := if again.Success? then again.value else None;
    }
    if prof.None? {
      return Missing(u), calls;
    }
    var p := prof.value;
    calls := calls + [LatestTweets(p.id, n)];
    var twRes := st.latestTweets(p.id, n);
    if twRes.Failure? {
      return Failed(u, FailureText(twRes.error)), calls;
    }
    var tweets := twRes.value;
    var ids := TweetIds(tweets);
    if |ids| == 0 {
      item := Found(p.username, p.id, Totals(0, 0, 0, 0, 0), RateSummary(0.0, 0.0, 0.0, 0.0), 0.0, []);
      return;
    }
    calls := calls + [FetchAnalyses(ids), FetchScores(ids)];
    var anRes := st.analysesOf(ids);
    var scRes := st.scoresOf(ids);
    if anRes.Failure? {
      return Failed(u, FailureText(anRes.error)), calls;
    }
    if scRes.Failure? {
      return Failed(u, FailureText(scRes.error)), calls;
    }
    var totals, rates := Aggregate(anRes.value);
    var scoreMap := BuildScoreMap(scRes.value);
    var scoreAvg := ScoreAverage(scRes.value);
    var top := TopThree(tweets, scoreMap);
    item := Found(p.username, p.id, totals, rates, scoreAvg, top);
  }

  /** The loop over the handles: one entry per handle, in order; a failure for one handle
      does not stop the others. */
  method CompareAll(users: seq<string>, autofill: bool, n: int, st: Store)
    returns (results: seq<CompareItem>)
    ensures |results| == |users|
    ensures forall i :: 0 <= i < |users| ==> results[i] == Outcome(users[i], autofill, n, st)
  {
    results := [];
    for i := 0 to |users|
      invariant |results| == i
      invariant forall k :: 0 <= k < i ==> results[k] == Outcome(users[k], autofill, n, st)
    {
      var item, _ := CompareOne(users[i], autofill, n, st);
      results := results + [item];
    }
  }

  /** The query parameters the route reads. */
  datatype Query = Query(users: Option<string>, n: Option<string>, autofill: Option<string>)

  datatype CompareResponse =
    | BadRequest(error: string)
    | Compared(n: int, results: seq<CompareItem>)

  /** `GET /api/compare`. */
  method CompareRoute(q: Query, st: Store) returns (resp: CompareResponse)
    ensures Users(q.users) == [] ==> resp == BadRequest("Provide ?users=a,b or space-separated list")
    ensures Users(q.users) != [] ==>
              resp.Compared? && resp.n == PostLimit(q.n) && |resp.results| == |Users(q.users)|
              && forall i :: 0 <= i < |resp.results| ==>
                   resp.results[i] == Outcome(Users(q.users)[i], FlagOn(q.autofill), resp.n, st)
  {
    var users := Users(q.users);
    if |users| == 0 {
      return BadRequest("Provide ?users=a,b or space-separated list");
    }
    var n := PostLimit(q.n);
    var results := CompareAll(users, FlagOn(q.autofill), n, st);
    resp := Compared(n, results);
  }

  // ---------------------------------------------------------------------------------
  // Properties of the per-handle outcome

  /** Without autofill an unknown handle is `missing`, and the analyzer is never run. */
  lemma MissingWithoutAutofill(u: string, n: int, st: Store)
    requires st.findProfile(u) == Success(None)
    ensures Outcome(u, false, n, st) == Missing(u)
  {
  }

  /** With autofill, an analyzer call that throws gives an `error` entry with its message
      (or `unknown_error`); a non-2xx answer gives an `error` entry carrying the status and
      at most 200 characters of the body; a 2xx answer is followed by one more lookup, and a
      profile still absent (or a failed lookup) gives `missing`. */
  lemma AutofillOutcomes(u: string, n: int, st: Store)
    requires st.findProfile(u) == Success(None)
    ensures var answer := st.analyze(u); var r := Outcome(u, true, n, st);
            (answer.Failure? ==> r == Failed(u, FailureText(answer.error)))
            && (answer.Success? && !IsOk(answer.value.status) ==>
                  var reply := answer.value;
                  r.Failed? && r.error == "analyze failed: " + IntToString(reply.status) + " " + SlicePrefix(reply.body, 200)
                  && |SlicePrefix(reply.body, 200)| <= 200)
            && (answer.Success? && IsOk(answer.value.status) && !st.refindProfile(u).Success? ==> r == Missing(u))
            && (answer.Success? && IsOk(answer.value.status) && st.refindProfile(u) == Success(None) ==> r == Missing(u))
  {
  }

  /** A profile without posts is reported with zero totals and rates, a zero score and an
      empty top, and the analysis and score tables are not read. */
  lemma NoPosts(u: string, p: Profile, n: int, st: Store)
    requires st.findProfile(u) == Success(Some(p))
    requires st.latestTweets(p.id, n) == Success([])
    ensures forall autofill: bool :: Outcome(u, autofill, n, st)
              == Found(p.username, p.id, Totals(0, 0, 0, 0, 0), RateSummary(0.0, 0.0, 0.0, 0.0), 0.0, [])
  {
  }

  /** A failure with an empty message is reported as `unknown_error`. */
  lemma FailureWithoutMessage(u: string, autofill: bool, n: int, st: Store)
    requires st.findProfile(u) == Failure("")
    ensures Outcome(u, autofill, n, st) == Failed(u, "unknown_error")
  {
  }

  /** With no analysis rows the totals are 0 and every average is 0 (the divisor is 1). */
  lemma EmptyAggregate()
    ensures TotalsOf([]) == Totals(0, 0, 0, 0, 0)
    ensures SummaryOf([]) == RateSummary(0.0, 0.0, 0.0, 0.0)
  {
    Round2Zero();
  }
}

=== FILE: handles.dfy ===
/** Reading an account handle out of what a user typed: a bare handle, `@handle`, or a
    profile URL on x.com or twitter.com.

    The routes use the regular expression
    `(?:https?://)?(?:x\.com|twitter\.com)/([A-Za-z0-9_]+)` with the `i` flag. Its optional
    scheme never changes the captured group: a match that starts at a scheme contains a
    domain match a few characters later, and no domain can start inside `http://` or
    `https://`. So the capture is the longest run of handle characters after the leftmost
    `x.com/` or `twitter.com/` (any letter case) that is followed by at least one handle
    character, which is what `UrlHandle` computes. */
module Handles {
  import opened Wrappers
  import opened Text

  predicate IsHandleChar(c: char) {
    ('A' <= c <= 'Z') || ('a' <= c <= 'z') || ('0' <= c <= '9') || c == '_'
  }

  predicate IsHandle(s: string) {
    forall i :: 0 <= i < |s| ==> IsHandleChar(s[i])
  }

  /** `word` (written in lower case) occurs at position `i` of `s`, ignoring ASCII case. */
  predicate MatchesAt(s: string, i: nat, word: string) {
    i + |word| <= |s| && forall j :: 0 <= j < |word| ==> LowerChar(s[i + j]) == word[j]
  }

  /** The length of the `x.com/` or `twitter.com/` at position `i` of `s` when a handle
      character follows it, and 0 when the pattern cannot match there. */
  function DomainAt(s: string, i: nat): (k: nat)
    ensures k == 0 || k == 6 || k == 12
    ensures k > 0 ==> i + k < |s| && IsHandleChar(s[i + k]) && s[i + k - 1] == '/'
  {
    if MatchesAt(s, i, "x.com/") && i + 6 < |s| && IsHandleChar(s[i + 6]) then
      assert LowerChar(s[i + 5]) == "x.com/"[5];
      6
    else if MatchesAt(s, i, "twitter.com/") && i + 12 < |s| && IsHandleChar(s[i + 12]) then
      assert LowerChar(s[i + 11]) == "twitter.com/"[11];
      12
    else 0
  }

  /** The leftmost position at or after `from` where the pattern matches. */
  function FirstDomain(s: string, from: nat): (r: Option<nat>)
    ensures r.Some? ==> from <= r.value < |s| && DomainAt(s, r.value) > 0
    ensures r.Some? ==> forall j :: from <= j < r.value ==> DomainAt(s, j) == 0
    ensures r.None? ==> forall j :: from <= j < |s| ==> DomainAt(s, j) == 0
    decreases |s| - from
  {
    if from >= |s| then None
    else if DomainAt(s, from) > 0 then Some(from)
    else FirstDomain(s, from + 1)
  }

  /** The longest prefix of `s` made of handle characters (the greedy `[A-Za-z0-9_]+`). */
  function HandleRun(s: string): (r: string)
    ensures |r| <= |s| && r == s[..|r|] && IsHandle(r)
    ensures |r| == |s| || !IsHandleChar(s[|r|])
  {
    if |s| > 0 && IsHandleChar(s[0]) then [s[0]] + HandleRun(s[1..]) else []
  }

  /** The captured group of the profile-URL pattern, if the pattern matches. */
  function UrlHandle(s: string): (r: Option<string>)
    ensures r.Some? ==> |r.value| > 0 && IsHandle(r.value)
  {
    match FirstDomain(s, 0)
    case None => None
    case Some(i) =>
      var k := DomainAt(s, i);
      assert IsHandleChar(s[i + k]);
      Some(HandleRun(s[i + k..]))
  }

  /** `t.replace(/^@/, '')`. */
  function StripAt(t: string): string {
    if |t| > 0 && t[0] == '@' then t[1..] else t
  }

  /** `extractUsername` of the analyze route: the handle of a profile URL, or else the
      trimmed input without one leading `@`. Letter case is kept. */
  function ExtractUsername(raw: string): (r: string)
    ensures UrlHandle(Trim(raw)).Some? ==> r == UrlHandle(Trim(raw)).value && |r| > 0 && IsHandle(r)
    ensures UrlHandle(Trim(raw)).None? ==>
              (Trim(raw) == r && (r == [] || r[0] != '@')) || Trim(raw) == "@" + r
  {
    var t := Trim(raw);
    match UrlHandle(t)
    case Some(h) => h
    case None => StripAt(t)
  }

  /** `normHandle` of the compare and categories routes: the same extraction, lower-cased.
      The result has no upper-case ASCII letter and equals `ExtractUsername(raw)` up to
      ASCII letter case. */
  function NormHandle(raw: string): (r: string)
    ensures forall i :: 0 <= i < |r| ==> !IsUpperAscii(r[i])
    ensures |r| == |ExtractUsername(raw)|
    ensures forall i :: 0 <= i < |r| ==> LowerChar(r[i]) == LowerChar(ExtractUsername(raw)[i])
  {
    ToLower(ExtractUsername(raw))
  }

  /** Text without a `.` never matches the URL pattern. */
  lemma NoDotNoDomain(s: string)
    requires '.' !in s
    ensures UrlHandle(s).None?
  {
    forall j | 0 <= j < |s|
      ensures DomainAt(s, j) == 0
    {
      if j + 1 < |s| {
        assert s[j + 1] in s;
        assert LowerChar(s[j + 1]) != "x.com/"[1];
      }
      if j + 7 < |s| {
        assert s[j + 7] in s;
        assert LowerChar(s[j + 7]) != "twitter.com/"[7];
      }
    }
  }

  /** A bare handle, with or without one leading `@`, comes back as it is from
      `ExtractUsername`, and from `NormHandle` when it is already lower case. */
  lemma BareHandle(h: string)
    requires IsHandle(h)
    ensures ExtractUsername(h) == h
    ensures ExtractUsername("@" + h) == h
    ensures (forall i :: 0 <= i < |h| ==> !IsUpperAscii(h[i])) ==> NormHandle(h) == h
  {
    HandleKept(h);
    AtHandleKept(h);
    if forall i :: 0 <= i < |h| ==> !IsUpperAscii(h[i]) {
      ToLowerFixed(h);
    }
  }

  lemma HandleKept(h: string)
    requires IsHandle(h)
    ensures ExtractUsername(h) == h
  {
    HandleIsPlain(h);
    PlainText(h);
  }

  lemma AtHandleKept(h: string)
    requires IsHandle(h)
    ensures ExtractUsername("@" + h) == h
  {
    var a := ['@'] + h;
    HandleIsPlain(h);
    assert '.' !in a;
    assert a[0] == '@' && a[1..] == h;
    assert a[|a| - 1] == if h == [] then '@' else h[|h| - 1];
    PlainText(a);
    assert StripAt(a) == h;
  }

  /** A handle has no `.`, no white space at either end, and does not start with `@`. */
  lemma HandleIsPlain(h: string)
    requires IsHandle(h)
    ensures '.' !in h
    ensures h == [] || (!IsSpace(h[0]) && !IsSpace(h[|h| - 1]) && h[0] != '@')
  {
    forall i | 0 <= i < |h|
      ensures h[i] != '.'
    {
      assert IsHandleChar(h[i]);
    }
  }

  /** Text that has no `.`, and that neither starts nor ends with white space, is only
      stripped of one leading `@`. */
  lemma PlainText(t: string)
    requires '.' !in t
    requires t == [] || (!IsSpace(t[0]) && !IsSpace(t[|t| - 1]))
    ensures ExtractUsername(t) == StripAt(t)
  {
    TrimUnchanged(t);
    NoDotNoDomain(t);
  }

  lemma {:induction false} HandleRunStops(h: string, tail: string)
    requires IsHandle(h)
    requires tail == [] || !IsHandleChar(tail[0])
    ensures HandleRun(h + tail) == h
  {
    if |h| > 0 {
      assert (h + tail)[1..] == h[1..] + tail;
      HandleRunStops(h[1..], tail);
      assert h == [h[0]] + h[1..];
    } else {
      assert h + tail == tail;
    }
  }

  /** No match starts inside the optional scheme of a profile URL. */
  lemma NoDomainInScheme(s: string, scheme: string, j: nat)
    requires scheme == "" || scheme == "http://" || scheme == "https://"
    requires |scheme| < |s| && s[..|scheme|] == scheme
    requires j < |scheme|
    ensures DomainAt(s, j) == 0
  {
    assert s[j] == scheme[j] && s[j + 1] == (scheme + [s[|scheme|]])[j + 1];
    assert LowerChar(s[j]) != "x.com/"[0];
    assert LowerChar(s[j]) != "twitter.com/"[0] || LowerChar(s[j + 1]) != "twitter.com/"[1];
  }

  /** The URL pattern matches where `domain/` is followed by a handle character. */
  lemma DomainAtProfile(s: string, i: nat, domain: string, rest: string)
    requires domain == "x.com" || domain == "twitter.com"
    requires i <= |s| && s[i..] == domain + "/" + rest
    requires |rest| > 0 && IsHandleChar(rest[0])
    ensures DomainAt(s, i) == |domain| + 1
  {
    var w := domain + "/";
    assert forall j :: 0 <= j < |w| ==> s[i + j] == s[i..][j] == w[j];
    assert forall j :: 0 <= j < |w| ==> LowerChar(w[j]) == w[j];
    assert s[i + |w|] == s[i..][|w|] == rest[0];
    if domain == "twitter.com" {
      assert LowerChar(s[i]) != "x.com/"[0];
    }
  }

  /** No match starts inside the optional scheme at the front of `s`. */
  lemma NoDomainBeforeScheme(s: string, scheme: string)
    requires scheme == "" || scheme == "http://" || scheme == "https://"
    requires |scheme| < |s| && s[..|scheme|] == scheme
    ensures forall j :: 0 <= j < |scheme| ==> DomainAt(s, j) == 0
  {
    forall j | 0 <= j < |scheme|
      ensures DomainAt(s, j) == 0
    {
      NoDomainInScheme(s, scheme, j);
    }
  }

  /** Behind an optional scheme, `domain/` followed by a handle character is where the
      pattern matches first, and the capture is the handle run that starts there. */
  lemma SchemeDomainMatch(s: string, scheme: string, domain: string, rest: string)
    requires scheme == "" || scheme == "http://" || scheme == "https://"
    requires domain == "x.com" || domain == "twitter.com"
    requires |rest| > 0 && IsHandleChar(rest[0])
    requires s == scheme + (domain + "/" + rest)
    ensures UrlHandle(s) == Some(HandleRun(rest))
  {
    var i := |scheme|;
    var tail := domain + "/" + rest;
    assert s[..i] == scheme && s[i..] == tail;
    NoDomainBeforeScheme(s, scheme);
    DomainAtProfile(s, i, domain, rest);
    FirstDomainSkips(s, 0, i);
    assert s[i + |domain| + 1..] == tail[|domain| + 1..] == rest;
  }

  /** A profile URL `[http[s]://](x.com|twitter.com)/<handle><tail>` gives back its handle,
      whatever follows it, as long as the tail starts with a non-handle character and does
      not end with white space. */
  lemma ProfileUrl(scheme: string, domain: string, h: string, tail: string)
    requires scheme == "" || scheme == "http://" || scheme == "https://"
    requires domain == "x.com" || domain == "twitter.com"
    requires |h| > 0 && IsHandle(h)
    requires tail == [] || (!IsHandleChar(tail[0]) && !IsSpace(tail[|tail| - 1]))
    ensures ExtractUsername(scheme + domain + "/" + h + tail) == h
  {
    var rest := h + tail;
    var s := scheme + (domain + "/" + rest);
    assert s == scheme + domain + "/" + h + tail;
    assert s[0] == (scheme + domain)[0];
    assert s[|s| - 1] == rest[|rest| - 1];
    TrimUnchanged(s);
    SchemeDomainMatch(s, scheme, domain, rest);
    HandleRunStops(h, tail);
  }

  lemma {:induction false} FirstDomainSkips(s: string, from: nat, i: nat)
    requires from <= i < |s|
    requires forall j :: from <= j < i ==> DomainAt(s, j) == 0
    requires DomainAt(s, i) > 0
    ensures FirstDomain(s, from) == Some(i)
    decreases i - from
  {
    if from < i {
      assert DomainAt(s, from) == 0;
      FirstDomainSkips(s, from + 1, i);
    } else {
      assert DomainAt(s, i) > 0;
    }
  }
}

=== FILE: metrics.dfy ===
/** Per-post engagement metrics and the cohort normalisation of the virality score, in exact
    rational arithmetic. `Math.round` is `Round`; all rates are percentages of the views. */
module Metrics {

  /** `Math.round(x)`: the integer nearest to `x`, halves rounded up. */
  function Round(x: real): (k: int)
    ensures x - 0.5 < k as real <= x + 0.5
  {
    (x + 0.5).Floor
  }

  /** `round2(n)`, that is `Math.round(n * 100) / 100`: `n` to the nearest hundredth. */
  function Round2(x: real): (r: real)
    ensures x - 0.005 < r <= x + 0.005
    ensures (r * 100.0).Floor as real == r * 100.0
  {
    Round(x * 100.0) as real / 100.0
  }

  /** A whole number of hundredths is left as it is by `Round2`. */
  lemma Round2Cents(k: int)
    ensures Round2(k as real / 100.0) == k as real / 100.0
  {
    assert (k as real / 100.0) * 100.0 == k as real;
    assert Round(k as real) == k;
  }

  /** Rounding to hundredths is idempotent. */
  lemma Round2Idempotent(x: real)
    ensures Round2(Round2(x)) == Round2(x)
  {
    Round2Cents(Round(x * 100.0));
  }

  /** A value between two bounds rounds to within half a hundredth of them. */
  lemma Round2Within(x: real, lo: real, hi: real)
    requires lo <= x <= hi
    ensures lo - 0.005 < Round2(x) <= hi + 0.005
  {
  }

  /** Rounding to hundredths is monotone. */
  lemma Round2Monotone(x: real, y: real)
    requires x <= y
    ensures Round2(x) <= Round2(y)
  {
    assert (x * 100.0 + 0.5).Floor <= (y * 100.0 + 0.5).Floor;
  }

  /** The four counters a post is scored on. */
  datatype Counters = Counters(views: int, likes: int, retweets: int, replies: int)
  {
    predicate NonNegative() {
      views >= 0 && likes >= 0 && retweets >= 0 && replies >= 0
    }

    /** Seen at least once and liked, retweeted or replied to at least once. */
    predicate Engaged() {
      views > 0 && (likes > 0 || retweets > 0 || replies > 0)
    }
  }

  /** The unrounded rates of a post, as percentages of its views. */
  datatype Rates = Rates(like: real, retweet: real, reply: real)

  /** `likeRate`, `retweetRate` and `replyRate`: `count / views * 100`, and 0 for all three
      when the post has no views. */
  function RatesOf(c: Counters): (r: Rates)
    ensures c.views <= 0 ==> r == Rates(0.0, 0.0, 0.0)
  {
    if c.views > 0 then
      var v := c.views as real;
      Rates(c.likes as real / v * 100.0, c.retweets as real / v * 100.0,
            c.replies as real / v * 100.0)
    else Rates(0.0, 0.0, 0.0)
  }

  /** With views, each rate is the percentage of the views its counter makes up; with
      non-negative counters no rate is negative. */
  lemma RatesMeaning(c: Counters)
    ensures c.views > 0 ==>
              RatesOf(c).like * c.views as real == 100.0 * c.likes as real
              && RatesOf(c).retweet * c.views as real == 100.0 * c.retweets as real
              && RatesOf(c).reply * c.views as real == 100.0 * c.replies as real
    ensures c.NonNegative() ==> RatesOf(c).like >= 0.0 && RatesOf(c).retweet >= 0.0 && RatesOf(c).reply >= 0.0
  {
  }

  /** The engagement rate before rounding: the sum of the three unrounded rates. */
  function Engagement(r: Rates): real {
    r.like + r.retweet + r.reply
  }

  /** The raw virality score before rounding: retweets and replies weigh 0.4, likes 0.2, so
      for non-negative rates it lies between a fifth and two fifths of the engagement. */
  function RawScore(r: Rates): (s: real)
    ensures r.like >= 0.0 && r.retweet >= 0.0 && r.reply >= 0.0 ==>
              0.2 * Engagement(r) <= s <= 0.4 * Engagement(r)
  {
    0.4 * r.retweet + 0.4 * r.reply + 0.2 * r.like
  }

  /** With no views every rate and the engagement are 0, whatever the other counters are. */
  lemma ZeroViewsEngagement(c: Counters)
    requires c.views == 0
    ensures Round2(Engagement(RatesOf(c))) == 0.0
  {
    var r := RatesOf(c);
    assert r == Rates(0.0, 0.0, 0.0);
    Round2Zero();
  }

  /** With no views the raw score is 0, whatever the other counters are. */
  lemma ZeroViewsRawScore(c: Counters)
    requires c.views == 0
    ensures Round2(RawScore(RatesOf(c))) == 0.0
  {
    var r := RatesOf(c);
    assert r == Rates(0.0, 0.0, 0.0);
    assert RawScore(r) == 0.0;
    Round2Zero();
  }

  lemma Round2Zero()
    ensures Round2(0.0) == 0.0
  {
    Round2Cents(0);
  }

  /** The raw score of a post with non-negative counters is positive exactly when it has
      views and at least one like, retweet or reply. */
  lemma RawScorePositive(c: Counters)
    requires c.NonNegative()
    ensures RawScore(RatesOf(c)) >= 0.0
    ensures RawScore(RatesOf(c)) > 0.0 <==> c.Engaged()
  {
    var r := RatesOf(c);
    RatesMeaning(c);
    WeightedPositive(r);
    if c.views > 0 {
      var v := c.views as real;
      RatePositive(c.likes, v, r.like);
      RatePositive(c.retweets, v, r.retweet);
      RatePositive(c.replies, v, r.reply);
    } else {
      assert r == Rates(0.0, 0.0, 0.0);
    }
  }

  lemma WeightedPositive(r: Rates)
    requires r.like >= 0.0 && r.retweet >= 0.0 && r.reply >= 0.0
    ensures RawScore(r) >= 0.0
    ensures RawScore(r) > 0.0 <==> r.like > 0.0 || r.retweet > 0.0 || r.reply > 0.0
  {
  }

  /** A non-negative rate of a count over positive views is positive exactly when the
      count is. */
  lemma RatePositive(count: int, v: real, rate: real)
    requires v > 0.0 && count >= 0 && rate >= 0.0 && rate * v == 100.0 * count as real
    ensures rate > 0.0 <==> count > 0
  {
    if rate > 0.0 {
      assert rate * v > 0.0;
    } else {
      assert rate * v == 0.0;
    }
  }

  /** Rounding the sum of the rates and summing the rounded rates can differ: three counts
      of 1 on 3 views give rates of 33.33 each once rounded, which add up to 99.99, while the
      rounded engagement is 100. */
  lemma EngagementIsNotSumOfRoundedRates()
    ensures var r := RatesOf(Counters(3, 1, 1, 1));
            Round2(Engagement(r)) == 100.0
            && Round2(r.like) + Round2(r.retweet) + Round2(r.reply) == 99.99
  {
    var r := RatesOf(Counters(3, 1, 1, 1));
    var third := 100.0 / 3.0;
    assert r == Rates(third, third, third);
    assert Engagement(r) == 100.0;
    Round2Cents(10000);
    assert Round(third * 100.0) == 3333;
  }

  /** The two readings never differ by more than two hundredths. */
  lemma EngagementNearSumOfRoundedRates(r: Rates)
    ensures var d := Round2(Engagement(r)) - (Round2(r.like) + Round2(r.retweet) + Round2(r.reply));
            -0.02 < d < 0.02
  {
  }

  /** `rawScores.reduce((a, b) => a + b, 0)`. */
  function Sum(s: seq<real>): real {
    if |s| == 0 then 0.0 else Sum(s[..|s| - 1]) + s[|s| - 1]
  }

  /** The mean of the raw scores, and 0 for an empty cohort. */
  function Mean(s: seq<real>): (m: real)
    ensures |s| > 0 ==> m * |s| as real == Sum(s)
  {
    if |s| == 0 then 0.0 else Sum(s) / |s| as real
  }

  /** A sum of non-negative numbers is positive exactly when one of them is. */
  lemma {:induction false} SumPositive(s: seq<real>)
    requires forall i :: 0 <= i < |s| ==> s[i] >= 0.0
    ensures Sum(s) >= 0.0
    ensures Sum(s) > 0.0 <==> exists i :: 0 <= i < |s| && s[i] > 0.0
  {
    if |s| > 0 {
      var init := s[..|s| - 1];
      SumPositive(init);
      if exists i :: 0 <= i < |init| && init[i] > 0.0 {
        var i :| 0 <= i < |init| && init[i] > 0.0;
        assert s[i] > 0.0;
      }
      if exists i :: 0 <= i < |s| && s[i] > 0.0 {
        var i :| 0 <= i < |s| && s[i] > 0.0;
        if i < |s| - 1 {
          assert init[i] > 0.0;
        }
      }
    }
  }

  /** A sum of numbers between `lo` and `hi` lies between `|s|` times each bound. */
  lemma {:induction false} SumBounds(s: seq<real>, lo: real, hi: real)
    requires forall i :: 0 <= i < |s| ==> lo <= s[i] <= hi
    ensures lo * |s| as real <= Sum(s) <= hi * |s| as real
  {
    if |s| > 0 {
      var init := s[..|s| - 1];
      assert forall i :: 0 <= i < |init| ==> init[i] == s[i];
      SumBounds(init, lo, hi);
    }
  }

  /** The mean of a non-empty cohort lies between its smallest and its largest score. */
  lemma MeanWithin(s: seq<real>, lo: real, hi: real)
    requires |s| > 0
    requires forall i :: 0 <= i < |s| ==> lo <= s[i] <= hi
    ensures lo <= Mean(s) <= hi
  {
    SumBounds(s, lo, hi);
    MeanBetween(Sum(s), |s| as real, lo, hi);
  }

  /** A total between `n` times each bound, divided by `n`, lies between the bounds. */
  lemma MeanBetween(sum: real, n: real, lo: real, hi: real)
    requires n > 0.0 && lo * n <= sum <= hi * n
    ensures lo <= sum / n <= hi
  {
    assert sum / n - lo == (sum - lo * n) / n;
    assert hi - sum / n == (hi * n - sum) / n;
  }

  /** The mean of non-negative scores is positive exactly when one score is. */
  lemma MeanPositive(s: seq<real>)
    requires forall i :: 0 <= i < |s| ==> s[i] >= 0.0
    ensures Mean(s) > 0.0 <==> exists i :: 0 <= i < |s| && s[i] > 0.0
  {
    SumPositive(s);
    if |s| > 0 {
      QuotientPositive(Sum(s), |s| as real);
    }
  }

  lemma QuotientPositive(x: real, n: real)
    requires x >= 0.0 && n > 0.0
    ensures x / n > 0.0 <==> x > 0.0
  {
    if x == 0.0 {
      assert x / n == 0.0;
    } else {
      assert x / n * n == x;
    }
  }

  /** `normalized_score`: the stored (rounded) raw score over the cohort mean of the unrounded
      raw scores, rounded; it stays 0 unless that mean is positive. */
  function Normalized(storedRaw: real, mean: real): (n: real)
    ensures mean <= 0.0 ==> n == 0.0
  {
    if mean > 0.0 then Round2(storedRaw / mean) else 0.0
  }

  /** Raw scores of 10, 20 and 30 have mean 20 and normalise to 0.5, 1 and 1.5. */
  lemma NormalizedExample()
    ensures Mean([10.0, 20.0, 30.0]) == 20.0
    ensures Normalized(10.0, 20.0) == 0.5 && Normalized(20.0, 20.0) == 1.0
            && Normalized(30.0, 20.0) == 1.5
  {
    assert Sum([10.0, 20.0, 30.0]) == Sum([10.0, 20.0]) + 30.0;
    assert Sum([10.0, 20.0]) == Sum([10.0]) + 20.0;
    assert Sum([10.0]) == Sum([]) + 10.0;
    Round2Cents(50);
    Round2Cents(100);
    Round2Cents(150);
  }
}

=== FILE: params.dfy ===
/** Query-string parameters of the compare and categories routes. */
module Params {
  import opened Wrappers
  import opened Text

  function Min(a: int, b: int): int { if a < b then a else b }
  function Max(a: int, b: int): int { if a < b then b else a }

  /** `Math.min(Math.max(parseInt(p || '100', 10) || 100, lo), hi)`: an absent, empty,
      non-numeric or zero value reads as 100, and the result is clamped to `[lo, hi]`. */
  function ClampParam(p: Option<string>, lo: int, hi: int): (n: int)
    requires lo <= hi
    ensures lo <= n <= hi
  {
    var parsed := ParseInt(OrElse(p, "100"));
    var v := if parsed.None? || parsed.value == 0 then 100 else parsed.value;
    Min(Max(v, lo), hi)
  }

  /** A value that does not parse to a non-zero integer gives the default of 100, clamped. */
  lemma ClampDefault(p: Option<string>, lo: int, hi: int)
    requires lo <= 100 <= hi
    requires p.None? || p.value == "" || ParseInt(p.value).None? || ParseInt(p.value) == Some(0)
    ensures ClampParam(p, lo, hi) == 100
  {
    if p.None? || p.value == "" {
      ParseHundred();
    }
  }

  lemma ParseHundred()
    ensures ParseInt("100") == Some(100)
  {
    var s := "100";
    assert !IsSpace(s[0]);
    assert TrimStart(s) == s;
    assert UnsignedPart(s) == s;
    LeadingDigitsAll(s);
    assert s[..2] == "10" && "10"[..1] == "1";
    assert DigitsValue(s) == DigitsValue("10") * 10 + 0;
  }

  /** A decimal value inside the bounds is read back as it is; values outside are clamped
      to the nearer bound. */
  lemma ClampInRange(k: int, lo: int, hi: int)
    requires lo <= hi && k != 0
    ensures lo <= k <= hi ==> ClampParam(Some(IntToString(k)), lo, hi) == k
    ensures k < lo ==> ClampParam(Some(IntToString(k)), lo, hi) == lo
    ensures hi < k ==> ClampParam(Some(IntToString(k)), lo, hi) == hi
  {
    var s := IntToString(k);
    assert OrElse(Some(s), "100") == s;
    ParseIntToString(k);
    assert ParseInt(OrElse(Some(s), "100")) == Some(k);
  }

  /** `p === '1' || p === 'true'`. */
  predicate FlagOn(p: Option<string>) {
    p == Some("1") || p == Some("true")
  }
}

=== FILE: ranking.dfy ===
/** `Array.prototype.sort` with a descending comparator on a numeric key. The sort is stable
    (ECMAScript 2019 and later), so it is modelled as insertion of each element, in input
    order, after every element whose key is at least its own. */
module Ranking {

  /** `x` goes before the first element whose key is strictly smaller than its own. */
  function Insert<T>(x: T, s: seq<T>, key: T -> real): (r: seq<T>)
    ensures |r| == |s| + 1
  {
    if |s| == 0 then [x]
    else if key(s[0]) < key(x) then [x] + s
    else [s[0]] + Insert(x, s[1..], key)
  }

  /** `s.sort((a, b) => key(b) - key(a))`. */
  function SortDesc<T>(s: seq<T>, key: T -> real): (r: seq<T>)
    ensures |r| == |s|
  {
    if |s| == 0 then [] else Insert(s[|s| - 1], SortDesc(s[..|s| - 1], key), key)
  }

  predicate SortedDesc<T>(s: seq<T>, key: T -> real) {
    forall i, j :: 0 <= i < j < |s| ==> key(s[i]) >= key(s[j])
  }

  /** The elements of `s` whose key is `v`, in their order in `s`. */
  function WithKey<T>(s: seq<T>, key: T -> real, v: real): seq<T> {
    if |s| == 0 then []
    else (if key(s[0]) == v then [s[0]] else []) + WithKey(s[1..], key, v)
  }

  lemma {:induction false} InsertPermutes<T>(x: T, s: seq<T>, key: T -> real)
    ensures multiset(Insert(x, s, key)) == multiset(s) + multiset{x}
  {
    if |s| > 0 && key(s[0]) >= key(x) {
      InsertPermutes(x, s[1..], key);
      assert s == [s[0]] + s[1..];
    }
  }

  /** Inserting an element whose key is at most `b` into a list whose keys are all at most
      `b` keeps every key at most `b`. */
  lemma {:induction false} InsertBounded<T>(x: T, s: seq<T>, key: T -> real, b: real)
    requires key(x) <= b && forall i :: 0 <= i < |s| ==> key(s[i]) <= b
    ensures forall j :: 0 <= j < |Insert(x, s, key)| ==> key(Insert(x, s, key)[j]) <= b
  {
    if |s| > 0 && key(s[0]) >= key(x) {
      var rest := Insert(x, s[1..], key);
      InsertBounded(x, s[1..], key, b);
      forall j | 0 <= j < |[s[0]] + rest|
        ensures key(([s[0]] + rest)[j]) <= b
      {
        if j > 0 {
          assert ([s[0]] + rest)[j] == rest[j - 1];
        }
      }
    } else if |s| > 0 {
      forall j | 0 <= j < |[x] + s|
        ensures key(([x] + s)[j]) <= b
      {
        if j > 0 {
          assert ([x] + s)[j] == s[j - 1];
        }
      }
    }
  }

  /** Putting `h` in front of a sorted list whose keys are all at most `h`'s key gives a
      sorted list. */
  lemma ConsSorted<T>(h: T, rest: seq<T>, key: T -> real)
    requires SortedDesc(rest, key)
    requires forall j :: 0 <= j < |rest| ==> key(rest[j]) <= key(h)
    ensures SortedDesc([h] + rest, key)
  {
    var r := [h] + rest;
    forall i, j | 0 <= i < j < |r|
      ensures key(r[i]) >= key(r[j])
    {
      assert r[j] == rest[j - 1];
      if i > 0 {
        assert r[i] == rest[i - 1];
      }
    }
  }

  lemma SortedTail<T>(s: seq<T>, key: T -> real)
    requires |s| > 0 && SortedDesc(s, key)
    ensures SortedDesc(s[1..], key)
    ensures forall j :: 0 <= j < |s[1..]| ==> key(s[1..][j]) <= key(s[0])
  {
    var t := s[1..];
    forall i, j | 0 <= i < j < |t|
      ensures key(t[i]) >= key(t[j])
    {
      assert t[i] == s[i + 1] && t[j] == s[j + 1];
    }
    forall j | 0 <= j < |t|
      ensures key(t[j]) <= key(s[0])
    {
      assert t[j] == s[j + 1];
    }
  }

  lemma {:induction false} InsertSorted<T>(x: T, s: seq<T>, key: T -> real)
    requires SortedDesc(s, key)
    ensures SortedDesc(Insert(x, s, key), key)
  {
    if |s| == 0 {
    } else if key(s[0]) < key(x) {
      forall j | 0 <= j < |s|
        ensures key(s[j]) <= key(x)
      {
        if j > 0 {
          assert key(s[0]) >= key(s[j]);
        }
      }
      ConsSorted(x, s, key);
    } else {
      SortedTail(s, key);
      InsertSorted(x, s[1..], key);
      InsertBounded(x, s[1..], key, key(s[0]));
      ConsSorted(s[0], Insert(x, s[1..], key), key);
    }
  }

  /** The sort is a permutation of its input. */
  lemma {:induction false} SortPermutes<T>(s: seq<T>, key: T -> real)
    ensures multiset(SortDesc(s, key)) == multiset(s)
  {
    if |s| > 0 {
      var init := s[..|s| - 1];
      var x := s[|s| - 1];
      var sorted := SortDesc(init, key);
      SortPermutes(init, key);
      InsertPermutes(x, sorted, key);
      assert SortDesc(s, key) == Insert(x, sorted, key);
      assert s == init + [x];
      calc {
        multiset(SortDesc(s, key));
        multiset(sorted) + multiset{x};
        multiset(init) + multiset{x};
        multiset(init + [x]);
      }
    }
  }

  /** The sort puts the keys in descending order. */
  lemma {:induction false} SortSorted<T>(s: seq<T>, key: T -> real)
    ensures SortedDesc(SortDesc(s, key), key)
  {
    if |s| > 0 {
      SortSorted(s[..|s| - 1], key);
      InsertSorted(s[|s| - 1], SortDesc(s[..|s| - 1], key), key);
    }
  }

  lemma {:induction false} WithKeyAppend<T>(a: seq<T>, b: seq<T>, key: T -> real, v: real)
    ensures WithKey(a + b, key, v) == WithKey(a, key, v) + WithKey(b, key, v)
  {
    if |a| > 0 {
      WithKeyAppend(a[1..], b, key, v);
      assert (a + b)[1..] == a[1..] + b;
    } else {
      assert a + b == b;
    }
  }

  lemma {:induction false} WithKeyNone<T>(s: seq<T>, key: T -> real, v: real)
    requires forall i :: 0 <= i < |s| ==> key(s[i]) != v
    ensures WithKey(s, key, v) == []
  {
    if |s| > 0 {
      WithKeyNone(s[1..], key, v);
    }
  }

  /** Inserting into a sorted list puts the new element after every element with the same
      key. */
  lemma {:induction false} InsertAfterEqualKeys<T>(x: T, s: seq<T>, key: T -> real, v: real)
    requires SortedDesc(s, key)
    ensures WithKey(Insert(x, s, key), key, v)
            == WithKey(s, key, v) + (if key(x) == v then [x] else [])
  {
    if |s| == 0 {
    } else if key(s[0]) < key(x) {
      if key(x) == v {
        WithKeyNone(s, key, v);
      }
      assert ([x] + s)[1..] == s;
    } else {
      var tail := s[1..];
      assert SortedDesc(tail, key) by {
        forall i, j | 0 <= i < j < |tail|
          ensures key(tail[i]) >= key(tail[j])
        {
          assert tail[i] == s[i + 1] && tail[j] == s[j + 1];
        }
      }
      InsertAfterEqualKeys(x, tail, key, v);
      var head := if key(s[0]) == v then [s[0]] else [];
      var xs := if key(x) == v then [x] else [];
      var t := [s[0]] + Insert(x, tail, key);
      assert t[1..] == Insert(x, tail, key);
      assert WithKey(t, key, v) == head + (WithKey(tail, key, v) + xs);
      assert WithKey(s, key, v) == head + WithKey(tail, key, v);
    }
  }

  /** Stability: elements with equal keys keep their input order. */
  lemma {:induction false} SortStable<T>(s: seq<T>, key: T -> real, v: real)
    ensures WithKey(SortDesc(s, key), key, v) == WithKey(s, key, v)
  {
    if |s| > 0 {
      var init := s[..|s| - 1];
      var x := s[|s| - 1];
      SortStable(init, key, v);
      SortSorted(init, key);
      InsertAfterEqualKeys(x, SortDesc(init, key), key, v);
      assert s == init + [x];
      WithKeyAppend(init, [x], key, v);
      assert WithKey([x], key, v) == (if key(x) == v then [x] else []) + WithKey([], key, v);
    }
  }

  /** `s.slice(0, n)` for a non-negative `n`. */
  function Take<T>(s: seq<T>, n: nat): (r: seq<T>)
    ensures |r| == if n < |s| then n else |s|
    ensures r == s[..|r|]
  {
    if n < |s| then s[..n] else s
  }
}

=== FILE: seqs.dfy ===
/** Sequence helpers shared by the modules. */
module Seqs {
  /** The concatenation of a sequence of sequences, in order. */
  function Flatten<T>(cs: seq<seq<T>>): seq<T> {
    if |cs| == 0 then [] else cs[0] + Flatten(cs[1..])
  }

  /** Concatenation regroups freely. */
  lemma Associative<T>(a: seq<T>, b: seq<T>, c: seq<T>)
    ensures a + (b + c) == a + b + c && a + [] == a
  {
  }

  /** Flattening `n` rows of width `m` puts element `j` of row `i` at position `i * m + j`:
      rows come one after the other and keep their own order. */
  lemma {:induction false} FlattenIndex<T>(cs: seq<seq<T>>, m: nat, i: nat, j: nat)
    requires forall k :: 0 <= k < |cs| ==> |cs[k]| == m
    requires i < |cs| && j < m
    ensures |Flatten(cs)| == |cs| * m
    ensures i * m + j < |Flatten(cs)| && Flatten(cs)[i * m + j] == cs[i][j]
  {
    FlattenLength(cs, m);
    if i > 0 {
      FlattenIndex(cs[1..], m, i - 1, j);
      assert i * m + j == m + ((i - 1) * m + j);
    }
  }

  lemma {:induction false} FlattenLength<T>(cs: seq<seq<T>>, m: nat)
    requires forall k :: 0 <= k < |cs| ==> |cs[k]| == m
    ensures |Flatten(cs)| == |cs| * m
  {
    if |cs| > 0 {
      FlattenLength(cs[1..], m);
      assert |cs| * m == m + (|cs| - 1) * m;
    }
  }

  /** `Array.from(new Set(xs))`: each value once, at the place of its first occurrence. */
  function Dedupe<T(==,!new)>(xs: seq<T>): (r: seq<T>)
    ensures |r| <= |xs|
    ensures forall x :: x in r <==> x in xs
  {
    if |xs| == 0 then []
    else
      var d := Dedupe(xs[..|xs| - 1]);
      var x := xs[|xs| - 1];
      assert xs == xs[..|xs| - 1] + [x];
      if x in d then d else d + [x]
  }

  /** `Dedupe` leaves no repetitions. */
  lemma {:induction false} DedupeDistinct<T(!new)>(xs: seq<T>)
    ensures forall i, j :: 0 <= i < j < |Dedupe(xs)| ==> Dedupe(xs)[i] != Dedupe(xs)[j]
  {
    if |xs| > 0 {
      DedupeDistinct(xs[..|xs| - 1]);
    }
  }

  /** The position of the first occurrence of `x` in `xs`. */
  function FirstIndex<T(==,!new)>(xs: seq<T>, x: T): (i: nat)
    requires x in xs
    ensures i < |xs| && xs[i] == x && x !in xs[..i]
  {
    if xs[0] == x then 0 else 1 + FirstIndex(xs[1..], x)
  }

  lemma {:induction false} FirstIndexIs<T(!new)>(xs: seq<T>, x: T, k: nat)
    requires k < |xs| && xs[k] == x && x !in xs[..k]
    ensures FirstIndex(xs, x) == k
  {
    if k > 0 {
      assert xs[0] in xs[..k];
      assert xs[1..][k - 1] == x && xs[1..][..k - 1] == xs[1..k];
      assert forall y :: y in xs[1..k] ==> y in xs[..k];
      FirstIndexIs(xs[1..], x, k - 1);
    }
  }

  lemma FirstIndexPrefix<T(!new)>(xs: seq<T>, n: nat, x: T)
    requires n <= |xs| && x in xs[..n]
    ensures FirstIndex(xs, x) == FirstIndex(xs[..n], x)
  {
    var i := FirstIndex(xs[..n], x);
    assert xs[..n][..i] == xs[..i];
    assert xs[i] == xs[..n][i];
    FirstIndexIs(xs, x, i);
  }

  /** `Dedupe` keeps the order of first occurrences. */
  lemma {:induction false} DedupeFirstOccurrenceOrder<T(!new)>(xs: seq<T>)
    ensures forall i, j :: 0 <= i < j < |Dedupe(xs)| ==>
              FirstIndex(xs, Dedupe(xs)[i]) < FirstIndex(xs, Dedupe(xs)[j])
  {
    if |xs| > 0 {
      var n := |xs| - 1;
      var init := xs[..n];
      var x := xs[n];
      var d := Dedupe(init);
      DedupeFirstOccurrenceOrder(init);
      var r := Dedupe(xs);
      assert r == if x in d then d else d + [x];
      forall i, j | 0 <= i < j < |r|
        ensures FirstIndex(xs, r[i]) < FirstIndex(xs, r[j])
      {
        OrderAfterLast(xs, d, i, j);
      }
    }
  }

  /** One pair of the induction step: positions `i < j` of `Dedupe(xs)`, which is `d`
      (the deduplicated prefix) possibly followed by the last element. */
  lemma OrderAfterLast<T(!new)>(xs: seq<T>, d: seq<T>, i: nat, j: nat)
    requires |xs| > 0 && d == Dedupe(xs[..|xs| - 1])
    requires forall i, j :: 0 <= i < j < |d| ==>
               FirstIndex(xs[..|xs| - 1], d[i]) < FirstIndex(xs[..|xs| - 1], d[j])
    requires i < j < |Dedupe(xs)|
    ensures FirstIndex(xs, Dedupe(xs)[i]) < FirstIndex(xs, Dedupe(xs)[j])
  {
    var n := |xs| - 1;
    var x := xs[n];
    var r := Dedupe(xs);
    assert r == if x in d then d else d + [x];
    assert r[i] == d[i];
    FirstIndexPrefix(xs, n, d[i]);
    if j < |d| {
      assert r[j] == d[j];
      FirstIndexPrefix(xs, n, d[j]);
    } else {
      assert r[j] == x && x !in xs[..n];
      FirstIndexIs(xs, x, n);
    }
  }
}

=== FILE: text.dfy ===
/** String helpers with the semantics of the JavaScript built-ins the routes use:
    `trim`, ASCII `toLowerCase`, `parseInt(s, 10)`, `String(n)`, `join` and `slice(0, end)`. */
module Text {
  import opened Wrappers

  /** The JavaScript WhiteSpace and LineTerminator code points: what `trim`, `\s` and
      `parseInt` skip. */
  predicate IsSpace(c: char) {
    var n := c as int;
    n == 0x09 || n == 0x0A || n == 0x0B || n == 0x0C || n == 0x0D || n == 0x20
    || n == 0xA0 || n == 0x1680 || (0x2000 <= n <= 0x200A) || n == 0x2028 || n == 0x2029
    || n == 0x202F || n == 0x205F || n == 0x3000 || n == 0xFEFF
  }

  /** `s.trimStart()`: drops the leading white space and nothing else. */
  function TrimStart(s: string): (r: string)
    ensures |r| <= |s| && r == s[|s| - |r|..]
    ensures forall i :: 0 <= i < |s| - |r| ==> IsSpace(s[i])
    ensures r == [] || !IsSpace(r[0])
  {
    if |s| > 0 && IsSpace(s[0]) then TrimStart(s[1..]) else s
  }

  /** `s.trimEnd()`: drops the trailing white space and nothing else. */
  function TrimEnd(s: string): (r: string)
    ensures |r| <= |s| && r == s[..|r|]
    ensures forall i :: |r| <= i < |s| ==> IsSpace(s[i])
    ensures r == [] || !IsSpace(r[|r| - 1])
  {
    if |s| > 0 && IsSpace(s[|s| - 1]) then TrimEnd(s[..|s| - 1]) else s
  }

  /** `s.trim()`: the text between the leading and the trailing white space. */
  function Trim(s: string): (r: string)
    ensures |r| <= |s|
    ensures r == [] || (!IsSpace(r[0]) && !IsSpace(r[|r| - 1]))
  {
    TrimEnd(TrimStart(s))
  }

  /** `Trim` removes white space only: what it returns is an infix of its input, and
      everything before and after that infix is white space. */
  lemma TrimInfix(s: string)
    ensures var r := Trim(s); var a := |s| - |TrimStart(s)|;
            a + |r| <= |s| && r == s[a..a + |r|]
            && (forall i :: 0 <= i < a ==> IsSpace(s[i]))
            && (forall i :: a + |r| <= i < |s| ==> IsSpace(s[i]))
  {
    var t := TrimStart(s);
    var r := TrimEnd(t);
    var a := |s| - |t|;
    assert t == s[a..];
    assert r == t[..|r|];
    assert r == s[a..a + |r|];
    forall i | 0 <= i < a
      ensures IsSpace(s[i])
    {
    }
    forall i | a + |r| <= i < |s|
      ensures IsSpace(s[i])
    {
      assert s[i] == t[i - a];
    }
  }

  /** Trimming text that neither starts nor ends with white space changes nothing. */
  lemma TrimUnchanged(s: string)
    requires s == [] || (!IsSpace(s[0]) && !IsSpace(s[|s| - 1]))
    ensures Trim(s) == s
  {
  }

  predicate IsUpperAscii(c: char) { 'A' <= c <= 'Z' }

  /** `toLowerCase` on one character, for the ASCII letters. */
  function LowerChar(c: char): (r: char)
    ensures !IsUpperAscii(r)
    ensures IsUpperAscii(c) ==> r as int == c as int + 32
    ensures !IsUpperAscii(c) ==> r == c
  {
    if IsUpperAscii(c) then (c as int + 32) as char else c
  }

  /** `s.toLowerCase()` restricted to ASCII: each upper-case ASCII letter becomes its
      lower-case letter, every other character is kept. */
  function ToLower(s: string): (r: string)
    ensures |r| == |s|
    ensures forall i :: 0 <= i < |s| ==> r[i] == LowerChar(s[i])
  {
    seq(|s|, i requires 0 <= i < |s| => LowerChar(s[i]))
  }

  /** Lower-casing is idempotent, and text without upper-case ASCII letters is unchanged. */
  lemma ToLowerFixed(s: string)
    requires forall i :: 0 <= i < |s| ==> !IsUpperAscii(s[i])
    ensures ToLower(s) == s
  {
  }

  predicate IsDigit(c: char) { '0' <= c <= '9' }

  function DigitValue(c: char): (d: nat)
    requires IsDigit(c)
    ensures d < 10
  {
    c as int - '0' as int
  }

  function DigitChar(d: nat): (c: char)
    requires d < 10
    ensures IsDigit(c) && DigitValue(c) == d
  {
    ('0' as int + d) as char
  }

  /** The longest prefix of `s` made of decimal digits. */
  function LeadingDigits(s: string): (r: string)
    ensures |r| <= |s| && r == s[..|r|]
    ensures forall i :: 0 <= i < |r| ==> IsDigit(r[i])
    ensures |r| == |s| || !IsDigit(s[|r|])
  {
    if |s| > 0 && IsDigit(s[0]) then [s[0]] + LeadingDigits(s[1..]) else []
  }

  /** The value of a string of decimal digits, most significant first. */
  function DigitsValue(d: string): nat
    requires forall i :: 0 <= i < |d| ==> IsDigit(d[i])
  {
    if |d| == 0 then 0 else DigitsValue(d[..|d| - 1]) * 10 + DigitValue(d[|d| - 1])
  }

  /** `parseInt(s, 10)`: skip leading white space, read an optional sign and then the longest
      run of decimal digits; `None` is NaN (no digit at all). */
  function ParseInt(s: string): (r: Option<int>)
    ensures r.None? <==> LeadingDigits(UnsignedPart(TrimStart(s))) == []
  {
    var t := TrimStart(s);
    var negative := |t| > 0 && t[0] == '-';
    var digits := LeadingDigits(UnsignedPart(t));
    if digits == [] then None
    else
      var v: int := DigitsValue(digits);
      if negative then Some(-v) else Some(v)
  }

  /** The text after one leading `+` or `-`. */
  function UnsignedPart(t: string): string {
    if |t| > 0 && (t[0] == '-' || t[0] == '+') then t[1..] else t
  }

  /** `String(n)` for a non-negative integer: its decimal digits without leading zeros. */
  function NatToString(n: nat): (r: string)
    ensures |r| > 0
    ensures forall i :: 0 <= i < |r| ==> IsDigit(r[i])
    ensures |r| > 1 ==> r[0] != '0'
  {
    if n < 10 then [DigitChar(n)] else NatToString(n / 10) + [DigitChar(n % 10)]
  }

  /** `String(i)` for an integer. */
  function IntToString(i: int): (r: string)
    ensures |r| > 0
    ensures i < 0 <==> r[0] == '-'
  {
    if i < 0 then "-" + NatToString(-i) else NatToString(i)
  }

  lemma {:induction false} NatToStringValue(n: nat)
    ensures DigitsValue(NatToString(n)) == n
  {
    if n >= 10 {
      var s := NatToString(n);
      NatToStringValue(n / 10);
      assert s[..|s| - 1] == NatToString(n / 10);
    }
  }

  lemma LeadingDigitsAll(s: string)
    requires forall i :: 0 <= i < |s| ==> IsDigit(s[i])
    ensures LeadingDigits(s) == s
  {
  }

  /** `parseInt` reads back what `String` writes: the decimal rendering of an integer parses
      to that integer. */
  lemma ParseIntToString(i: int)
    ensures ParseInt(IntToString(i)) == Some(i)
  {
    var s := IntToString(i);
    var m := if i < 0 then -i else i;
    var digits := NatToString(m);
    assert !IsSpace(s[0]);
    assert TrimStart(s) == s;
    assert UnsignedPart(s) == digits;
    LeadingDigitsAll(digits);
    NatToStringValue(m);
  }

  /** `parts.join(sep)`. */
  function Join(parts: seq<string>, sep: string): string {
    if |parts| == 0 then ""
    else if |parts| == 1 then parts[0]
    else parts[0] + sep + Join(parts[1..], sep)
  }

  /** Cuts `s` at every occurrence of the character `sep`: the inverse of `Join` when the
      parts do not contain `sep`. */
  function Split(s: string, sep: char): (r: seq<string>)
    ensures |r| > 0
    decreases |s|
  {
    if |s| == 0 then [""]
    else
      var rest := Split(s[1..], sep);
      if s[0] == sep then [""] + rest else [[s[0]] + rest[0]] + rest[1..]
  }

  lemma {:induction false} SplitAppend(a: string, b: string, sep: char)
    requires forall i :: 0 <= i < |a| ==> a[i] != sep
    ensures Split(a + b, sep) == [a + Split(b, sep)[0]] + Split(b, sep)[1..]
  {
    if |a| > 0 {
      assert (a + b)[1..] == a[1..] + b;
      SplitAppend(a[1..], b, sep);
      assert [a[0]] + (a[1..] + Split(b, sep)[0]) == a + Split(b, sep)[0];
    } else {
      var sb := Split(b, sep);
      assert a + b == b;
      assert a + sb[0] == sb[0];
      assert sb == [sb[0]] + sb[1..];
    }
  }

  /** Splitting the joined parts at the separator gives the parts back. */
  lemma {:induction false} SplitJoin(parts: seq<string>, sep: char)
    requires |parts| > 0
    requires forall p, i :: p in parts && 0 <= i < |p| ==> p[i] != sep
    ensures Split(Join(parts, [sep]), sep) == parts
  {
    if |parts| == 1 {
      SplitAppend(parts[0], "", sep);
      assert parts[0] + "" == parts[0];
    } else {
      var rest := Join(parts[1..], [sep]);
      SplitJoin(parts[1..], sep);
      assert Join(parts, [sep]) == parts[0] + ([sep] + rest);
      var t := [sep] + rest;
      assert t[1..] == rest;
      assert Split(t, sep) == [""] + parts[1..];
      SplitAppend(parts[0], t, sep);
      assert parts[0] + "" == parts[0];
      assert parts == [parts[0]] + parts[1..];
    }
  }

  /** `s.slice(0, end)`: a negative end counts from the back of the string. */
  function SlicePrefix(s: string, end: int): (r: string)
    ensures |r| <= |s| && r == s[..|r|]
    ensures end >= 0 ==> |r| == if end < |s| then end else |s|
    ensures end < 0 ==> |r| == if |s| + end > 0 then |s| + end else 0
  {
    var k := if end < 0 then (if |s| + end > 0 then |s| + end else 0)
             else (if end < |s| then end else |s|);
    s[..k]
  }

  /** `a || b` on an optional string: an absent or empty value gives the default. */
  function OrElse(o: Option<string>, default: string): (r: string)
    ensures (o.Some? && o.value != "") ==> r == o.value
    ensures (o.None? || o.value == "") ==> r == default
  {
    if o.Some? && o.value != "" then o.value else default
  }
}

=== FILE: twitter_client.dfy ===
/** The client of the provider API. Each call tries a list of candidate requests, one base
    URL and one header record at a time (and, for some calls, one path or one parameter set
    at a time), records every response in a log buffer, returns the body of the first
    successful response, and otherwise fails with the list of everything that went wrong.

    `fetch` and `JSON.parse` are the oracles of `Net`; the environment variables are read
    once, when the client is built. */
module TwitterClient {
  import opened Wrappers
  import opened Text
  import opened UriEncoding
  import opened Seqs

  const DefaultBase: string := "https://api.twitterapi.io"

  /** The environment variables the client reads. */
  datatype Env = Env(
    apiKey: Option<string>,       // TWITTER_API_KEY
    baseUrl: Option<string>,      // TWITTER_API_BASE_URL
    authStyle: Option<string>,    // TWITTER_API_AUTH_STYLE
    profilePath: Option<string>,  // TWITTER_API_PROFILE_PATH
    tweetsPath: Option<string>,   // TWITTER_API_TWEETS_PATH
    repliesPath: Option<string>,  // TWITTER_API_REPLIES_PATH
    bodyLen: Option<string>)      // DEBUG_TWITTER_BODY_LEN

  // ---------------------------------------------------------------------------------
  // Header records and the log buffer

  /** A header record; the value `None` is `undefined` (the API key is not set). */
  type Headers = map<string, Option<string>>

  /** `headers[name]` is truthy: present, defined and not empty. */
  predicate Truthy(h: Headers, name: string) {
    name in h && h[name].Some? && h[name].value != ""
  }

  /** The authentication style a header record is logged under. */
  function HeaderStyle(h: Headers): (style: string)
    ensures style == "x-api-key" <==> Truthy(h, "X-API-Key") || Truthy(h, "X-API-KEY")
    ensures style == "bearer" <==>
              !Truthy(h, "X-API-Key") && !Truthy(h, "X-API-KEY") && Truthy(h, "Authorization")
    ensures style == "apikey" <==>
              !Truthy(h, "X-API-Key") && !Truthy(h, "X-API-KEY") && !Truthy(h, "Authorization")
              && Truthy(h, "apikey")
    ensures style == "unknown" <==>
              !Truthy(h, "X-API-Key") && !Truthy(h, "X-API-KEY") && !Truthy(h, "Authorization")
              && !Truthy(h, "apikey")
  {
    if Truthy(h, "X-API-Key") then "x-api-key"
    else if Truthy(h, "X-API-KEY") then "x-api-key"
    else if Truthy(h, "Authorization") then "bearer"
    else if Truthy(h, "apikey") then "apikey"
    else "unknown"
  }

  /** `parseInt(DEBUG_TWITTER_BODY_LEN || '400', 10)`, where NaN acts as 0 in `slice`. */
  function SampleLen(bodyLen: Option<string>): int {
    match ParseInt(OrElse(bodyLen, "400"))
    case None => 0
    case Some(n) => n
  }

  /** Without the setting, a sample holds up to 400 characters. */
  lemma DefaultSampleLen()
    ensures SampleLen(None) == 400 && SampleLen(Some("")) == 400
  {
    assert OrElse(None, "400") == "400" && OrElse(Some(""), "400") == "400";
    ParseDefaultLen();
  }

  /** The default setting `'400'` reads as 400. */
  lemma ParseDefaultLen()
    ensures ParseInt("400") == Some(400)
  {
    var t := "400";
    assert TrimStart(t) == t && UnsignedPart(t) == t;
    LeadingDigitsAll(t);
    assert t[..2] == "40" && "40"[..1] == "4";
    assert DigitsValue(t) == DigitsValue("40") * 10 + DigitValue('0');
    assert DigitsValue("40") == DigitsValue("4") * 10 + DigitValue('0');
  }

  /** The `bodySample` of a log entry: the start of a non-empty body. */
  function BodySample(body: Option<string>, bodyLen: Option<string>): (r: Option<string>)
    ensures r.None? <==> body.None? || body.value == ""
    ensures r.Some? ==> body.Some? && |r.value| <= |body.value| && r.value == body.value[..|r.value|]
    ensures r.Some? && SampleLen(bodyLen) >= 0 ==> |r.value| <= SampleLen(bodyLen)
    ensures r.Some? && 0 <= SampleLen(bodyLen) <= |body.value| ==> |r.value| == SampleLen(bodyLen)
  {
    if body.Some? && body.value != "" then Some(SlicePrefix(body.value, SampleLen(bodyLen)))
    else None
  }

  datatype LogEntry = LogEntry(
    url: string,
    headerStyle: string,
    status: int,
    bodySample: Option<string>,
    error: Option<string>)

  /** The entry `record(url, headers, status, body, error)` appends. */
  function Entry(url: string, headers: Headers, status: int, body: Option<string>,
                 error: Option<string>, bodyLen: Option<string>): LogEntry
  {
    LogEntry(url, HeaderStyle(headers), status, BodySample(body, bodyLen), error)
  }

  // ---------------------------------------------------------------------------------
  // Header attempts and base candidates

  function XApiKey(key: Option<string>): Headers { map["X-API-Key" := key] }
  function XApiKeyUpper(key: Option<string>): Headers { map["X-API-KEY" := key] }
  function Bearer(key: Option<string>): Headers {
    map["Authorization" := Some("Bearer " + (if key.Some? then key.value else "undefined"))]
  }
  function ApiKey(key: Option<string>): Headers { map["apikey" := key] }

  predicate KnownStyle(authStyle: string) {
    authStyle == "x-api-key" || authStyle == "bearer" || authStyle == "apikey"
  }

  /** The header records to try, in order: the one the configured style names (if it names
      one), then all four styles. */
  function HeaderAttempts(key: Option<string>, authStyle: string): (hs: seq<Headers>)
    ensures |hs| == if KnownStyle(authStyle) then 5 else 4
    ensures hs[|hs| - 4..] == [XApiKey(key), XApiKeyUpper(key), Bearer(key), ApiKey(key)]
    ensures KnownStyle(authStyle) ==>
              hs[0] == (if authStyle == "x-api-key" then XApiKey(key)
                        else if authStyle == "bearer" then Bearer(key) else ApiKey(key))
  {
    var preferred :=
      (if authStyle == "x-api-key" then [XApiKey(key)] else [])
      + (if authStyle == "bearer" then [Bearer(key)] else [])
      + (if authStyle == "apikey" then [ApiKey(key)] else []);
    preferred + [XApiKey(key), XApiKeyUpper(key), Bearer(key), ApiKey(key)]
  }

  /** The styles a list of header records is logged under. */
  function Styles(hs: seq<Headers>): (styles: seq<string>)
    ensures |styles| == |hs| && forall i :: 0 <= i < |hs| ==> styles[i] == HeaderStyle(hs[i])
  {
    seq(|hs|, i requires 0 <= i < |hs| => HeaderStyle(hs[i]))
  }

  /** The styles of the four standard records, with and without a key. */
  lemma RecordStyles(key: Option<string>)
    ensures var k := key.Some? && key.value != "";
            HeaderStyle(XApiKey(key)) == (if k then "x-api-key" else "unknown")
            && HeaderStyle(XApiKeyUpper(key)) == (if k then "x-api-key" else "unknown")
            && HeaderStyle(Bearer(key)) == "bearer"
            && HeaderStyle(ApiKey(key)) == (if k then "apikey" else "unknown")
  {
    var b := "Bearer " + (if key.Some? then key.value else "undefined");
    assert b != "" && Truthy(Bearer(key), "Authorization");
  }

  lemma StylesFour(a: Headers, b: Headers, c: Headers, d: Headers)
    ensures Styles([a, b, c, d]) == [HeaderStyle(a), HeaderStyle(b), HeaderStyle(c), HeaderStyle(d)]
  {
  }

  lemma StylesFive(h: Headers, a: Headers, b: Headers, c: Headers, d: Headers)
    ensures Styles([h] + [a, b, c, d])
            == [HeaderStyle(h)] + [HeaderStyle(a), HeaderStyle(b), HeaderStyle(c), HeaderStyle(d)]
  {
    assert [h] + [a, b, c, d] == [h, a, b, c, d];
  }

  /** With an API key, the attempts are logged under their own style, the configured one
      first; without one, only the bearer record (`Bearer undefined`) has a truthy value. */
  lemma HeaderAttemptStyles(key: Option<string>, authStyle: string)
    ensures var styles := Styles(HeaderAttempts(key, authStyle));
            if key.Some? && key.value != "" then
              styles == (if KnownStyle(authStyle) then [authStyle] else [])
                        + ["x-api-key", "x-api-key", "bearer", "apikey"]
            else
              styles == (if KnownStyle(authStyle) then [if authStyle == "bearer" then "bearer" else "unknown"] else [])
                        + ["unknown", "unknown", "bearer", "unknown"]
  {
    var hs := HeaderAttempts(key, authStyle);
    var x, xu, br, ak := XApiKey(key), XApiKeyUpper(key), Bearer(key), ApiKey(key);
    var four := [x, xu, br, ak];
    var k := key.Some? && key.value != "";
    RecordStyles(key);
    var tail := [HeaderStyle(x), HeaderStyle(xu), HeaderStyle(br), HeaderStyle(ak)];
    assert tail == if k then ["x-api-key", "x-api-key", "bearer", "apikey"]
                   else ["unknown", "unknown", "bearer", "unknown"];
    if authStyle == "x-api-key" {
      assert hs == [x] + four;
      StylesFive(x, x, xu, br, ak);
    } else if authStyle == "bearer" {
      assert hs == [br] + four;
      StylesFive(br, x, xu, br, ak);
    } else if authStyle == "apikey" {
      assert hs == [ak] + four;
      StylesFive(ak, x, xu, br, ak);
    } else {
      assert hs == four;
      StylesFour(x, xu, br, ak);
    }
  }

  /** `s.replace(/\/$/, '')`. */
  function StripSlash(s: string): (r: string)
    ensures r == s || (s == r + "/")
  {
    if |s| > 0 && s[|s| - 1] == '/' then s[..|s| - 1] else s
  }

  predicate EndsWithV1(s: string) { |s| >= 3 && s[|s| - 3..] == "/v1" }

  /** The other variant of a base: without its `/v1` suffix, or with one added. */
  function ToggleV1(base: string): (r: string)
    ensures EndsWithV1(base) ==> base == r + "/v1"
    ensures !EndsWithV1(base) ==> r == base + "/v1"
  {
    if EndsWithV1(base) then base[..|base| - 3] else base + "/v1"
  }

  /** `bases.add(x)` on an insertion-ordered set. */
  function AddNew(xs: seq<string>, x: string): (r: seq<string>)
    ensures x in xs ==> r == xs
    ensures x !in xs ==> r == xs + [x]
  {
    if x in xs then xs else xs + [x]
  }

  /** The base URLs to try: the configured one without a trailing `/`, its `/v1` variant,
      then the default base with and without `/v1`, each once. */
  function BaseCandidates(baseUrl: string): seq<string> {
    var base := StripSlash(baseUrl);
    var first := if base != "" then [base] else [];
    AddNew(AddNew(AddNew(first, ToggleV1(base)), DefaultBase), DefaultBase + "/v1")
  }

  predicate Distinct(xs: seq<string>) {
    forall i, j :: 0 <= i < j < |xs| ==> xs[i] != xs[j]
  }

  lemma AddNewDistinct(xs: seq<string>, x: string)
    requires Distinct(xs)
    ensures Distinct(AddNew(xs, x)) && x in AddNew(xs, x)
    ensures forall y :: y in xs ==> y in AddNew(xs, x)
    ensures |AddNew(xs, x)| <= |xs| + 1 && AddNew(xs, x)[..|xs|] == xs
  {
    if x !in xs {
      var r := xs + [x];
      forall i, j | 0 <= i < j < |r|
        ensures r[i] != r[j]
      {
        if j == |xs| {
          assert r[i] in xs;
        }
      }
    }
  }

  /** The base candidates hold no repetition and at most four entries; they start with the
      configured base (when it is not empty) and include its `/v1` variant and both
      defaults. */
  lemma BaseCandidatesShape(baseUrl: string)
    ensures var bs := BaseCandidates(baseUrl);
            Distinct(bs) && |bs| <= 4
            && ToggleV1(StripSlash(baseUrl)) in bs
            && DefaultBase in bs && DefaultBase + "/v1" in bs
            && (StripSlash(baseUrl) != "" ==> bs[0] == StripSlash(baseUrl))
  {
    var base := StripSlash(baseUrl);
    var b0 := if base != "" then [base] else [];
    var b1 := AddNew(b0, ToggleV1(base));
    var b2 := AddNew(b1, DefaultBase);
    AddNewDistinct(b0, ToggleV1(base));
    AddNewDistinct(b1, DefaultBase);
    AddNewDistinct(b2, DefaultBase + "/v1");
    if base != "" {
      assert b2[..|b0|] == b0 by {
        assert b1[..|b0|] == b0;
        assert b2[..|b1|] == b1;
      }
      assert BaseCandidates(baseUrl)[..|b2|] == b2;
      assert BaseCandidates(baseUrl)[0] == b2[0] == b0[0];
    }
  }

  /** With the default configuration the candidates are the default base and its `/v1`
      variant. */
  lemma DefaultBases()
    ensures BaseCandidates(DefaultBase) == [DefaultBase, DefaultBase + "/v1"]
  {
    assert !EndsWithV1(DefaultBase) by {
      assert DefaultBase[|DefaultBase| - 1] == 'o';
    }
    assert StripSlash(DefaultBase) == DefaultBase;
    assert DefaultBase != DefaultBase + "/v1" by {
      assert |DefaultBase| < |DefaultBase + "/v1"|;
    }
  }

  // ---------------------------------------------------------------------------------
  // Query strings

  /** A value of a query object: a string, an integer, a boolean or `undefined`. */
  datatype QueryValue = Str(s: string) | Num(n: int) | Flag(b: bool) | Undefined

  /** `String(v)`. */
  function ValueText(v: QueryValue): string
    requires !v.Undefined?
  {
    match v
    case Str(s) => s
    case Num(n) => IntToString(n)
    case Flag(b) => if b then "true" else "false"
  }

  /** The entries whose value is not `undefined`, in order. */
  function Defined(entries: seq<(string, QueryValue)>): (r: seq<(string, QueryValue)>)
    ensures forall i :: 0 <= i < |r| ==> !r[i].1.Undefined?
    ensures |r| <= |entries|
  {
    if |entries| == 0 then []
    else (if entries[0].1.Undefined? then [] else [entries[0]]) + Defined(entries[1..])
  }

  /** The filter keeps exactly the entries whose value is defined. */
  lemma {:induction false} DefinedMembers(entries: seq<(string, QueryValue)>)
    ensures forall e :: e in Defined(entries) <==> e in entries && !e.1.Undefined?
  {
    if |entries| > 0 {
      DefinedMembers(entries[1..]);
      assert entries == [entries[0]] + entries[1..];
    }
  }

  /** The filter keeps the order of the entries: it works piece by piece. */
  lemma {:induction false} DefinedAppend(a: seq<(string, QueryValue)>, b: seq<(string, QueryValue)>)
    ensures Defined(a + b) == Defined(a) + Defined(b)
  {
    if |a| > 0 {
      DefinedAppend(a[1..], b);
      assert (a + b)[0] == a[0] && (a + b)[1..] == a[1..] + b;
      var h := if a[0].1.Undefined? then [] else [a[0]];
      assert h + (Defined(a[1..]) + Defined(b)) == h + Defined(a[1..]) + Defined(b);
    } else {
      assert a + b == b;
    }
  }

  /** `encodeURIComponent(k) + '=' + encodeURIComponent(String(v))`. */
  function Pair(k: string, v: QueryValue): string
    requires !v.Undefined?
  {
    Encode(k) + "=" + Encode(ValueText(v))
  }

  function Pairs(entries: seq<(string, QueryValue)>): (r: seq<string>)
    requires forall i :: 0 <= i < |entries| ==> !entries[i].1.Undefined?
    ensures |r| == |entries|
    ensures forall i :: 0 <= i < |entries| ==> r[i] == Pair(entries[i].0, entries[i].1)
  {
    seq(|entries|, i requires 0 <= i < |entries| => Pair(entries[i].0, entries[i].1))
  }

  /** The defined entries as `k=v` pairs joined with `&`. */
  function QueryString(entries: seq<(string, QueryValue)>): string {
    Join(Pairs(Defined(entries)), "&")
  }

  /** The query part of `request`: nothing without a query object, else `?` and the query
      string. */
  function QueryPart(query: Option<seq<(string, QueryValue)>>): (r: string)
    ensures r == "" <==> query.None?
    ensures query.Some? ==> r[0] == '?' && r[1..] == QueryString(query.value)
  {
    match query
    case None => ""
    case Some(q) => "?" + QueryString(q)
  }

  /** Reads a query string back into its decoded keys and values (the inverse of
      `QueryString`, used to state what it writes). */
  function ParseQuery(qs: string): Option<seq<(string, string)>> {
    ParsePairs(Split(qs, '&'))
  }

  function ParsePairs(pieces: seq<string>): Option<seq<(string, string)>> {
    if |pieces| == 0 then Some([])
    else
      var kv := Split(pieces[0], '=');
      if |kv| != 2 then None
      else match (Decode(kv[0]), Decode(kv[1]), ParsePairs(pieces[1..]))
        case (Some(k), Some(v), Some(rest)) => Some([(k, v)] + rest)
        case _ => None
  }

  /** The keys and the text of the values of the defined entries. */
  function Texts(entries: seq<(string, QueryValue)>): (r: seq<(string, string)>)
    requires forall i :: 0 <= i < |entries| ==> !entries[i].1.Undefined?
    ensures |r| == |entries|
  {
    seq(|entries|, i requires 0 <= i < |entries| => (entries[i].0, ValueText(entries[i].1)))
  }

  lemma PairSplits(k: string, v: QueryValue)
    requires !v.Undefined?
    ensures '&' !in Pair(k, v)
    ensures Split(Pair(k, v), '=') == [Encode(k), Encode(ValueText(v))]
  {
    var a := Encode(k);
    var b := Encode(ValueText(v));
    EncodeSafe(k);
    EncodeSafe(ValueText(v));
    assert Pair(k, v) == a + "=" + b;
    forall p, i | p in [a, b] && 0 <= i < |p|
      ensures p[i] != '='
    {
      assert p[i] in p;
    }
    SplitJoin([a, b], '=');
    assert Join([a, b], "=") == a + "=" + b;
  }

  lemma {:induction false} ParsePairsBack(entries: seq<(string, QueryValue)>)
    requires forall i :: 0 <= i < |entries| ==> !entries[i].1.Undefined?
    ensures ParsePairs(Pairs(entries)) == Some(Texts(entries))
  {
    if |entries| > 0 {
      var ps := Pairs(entries);
      var e := entries[0];
      PairSplits(e.0, e.1);
      PairsTail(entries);
      ParsePairsBack(entries[1..]);
      ParsePairsCons(ps, e.0, ValueText(e.1), Texts(entries[1..]));
      TextsCons(entries);
    }
  }

  lemma PairsTail(entries: seq<(string, QueryValue)>)
    requires |entries| > 0 && forall i :: 0 <= i < |entries| ==> !entries[i].1.Undefined?
    ensures Pairs(entries)[0] == Pair(entries[0].0, entries[0].1)
    ensures Pairs(entries)[1..] == Pairs(entries[1..])
  {
  }

  lemma TextsCons(entries: seq<(string, QueryValue)>)
    requires |entries| > 0 && forall i :: 0 <= i < |entries| ==> !entries[i].1.Undefined?
    ensures Texts(entries) == [(entries[0].0, ValueText(entries[0].1))] + Texts(entries[1..])
  {
  }

  /** A first piece that splits into two encoded halves reads back as its key and value. */
  lemma ParsePairsCons(pieces: seq<string>, k: string, v: string, rest: seq<(string, string)>)
    requires |pieces| > 0 && Split(pieces[0], '=') == [Encode(k), Encode(v)]
    requires ParsePairs(pieces[1..]) == Some(rest)
    ensures ParsePairs(pieces) == Some([(k, v)] + rest)
  {
    DecodeEncode(k);
    DecodeEncode(v);
  }

  /** The query string is read back into exactly the defined entries, in order, with their
      values as `String` writes them: `undefined` entries are dropped and the encoding loses
      nothing. */
  lemma QueryStringRoundTrip(entries: seq<(string, QueryValue)>)
    requires |Defined(entries)| > 0
    ensures ParseQuery(QueryString(entries)) == Some(Texts(Defined(entries)))
  {
    var d := Defined(entries);
    var ps := Pairs(d);
    forall p, i | p in ps && 0 <= i < |p|
      ensures p[i] != '&'
    {
      var k :| 0 <= k < |ps| && ps[k] == p;
      PairSplits(d[k].0, d[k].1);
      assert p[i] in p;
    }
    SplitJoin(ps, '&');
    ParsePairsBack(d);
  }

  /** A query object whose values are all `undefined` gives the empty query string. */
  lemma {:induction false} AllUndefined(entries: seq<(string, QueryValue)>)
    requires forall i :: 0 <= i < |entries| ==> entries[i].1.Undefined?
    ensures QueryString(entries) == "" && QueryPart(Some(entries)) == "?"
  {
    if |entries| > 0 {
      AllUndefined(entries[1..]);
    }
  }

  // ---------------------------------------------------------------------------------
  // One attempt

  /** One candidate request, with the texts its failures are reported under. */
  datatype Attempt = Attempt(url: string, headers: Headers, statusLabel: string, errorLabel: string)

  /** What `fetch` does: answer with a status and the body text (a body that cannot be
      read is `''`), or throw. */
  datatype Reply = Responded(status: int, body: string) | Threw(message: string)

  /** The oracles: the reply to the `k`-th attempt of a call, and `JSON.parse`. */
  datatype Net<J> = Net(fetch: (nat, string, Headers) -> Reply, parse: string -> Result<J, string>)

  /** What a call does with an exception inside an attempt: record it and go on (`request`),
      go on (`getUserProfile`, `getUserTweets`), or let it escape (`getTweetReplies`). */
  datatype OnThrow = RecordAndSkip | Skip | Propagate

  datatype Verdict<J> = Returned(value: J) | Failed(error: string) | Raised(message: string)

  /** The log entries one attempt appends and what it decides. */
  datatype Step<J> = Step(entries: seq<LogEntry>, verdict: Verdict<J>)

  /** `res.ok`. */
  predicate IsOk(status: int) { 200 <= status <= 299 }

  function Caught<J>(a: Attempt, recorded: seq<LogEntry>, message: string, onThrow: OnThrow,
                     bodyLen: Option<string>): Step<J>
  {
    match onThrow
    case RecordAndSkip =>
      Step(recorded + [Entry(a.url, a.headers, 0, None, Some(message), bodyLen)],
           Failed("err " + a.errorLabel + ": " + message))
    case Skip => Step(recorded, Failed("err " + a.errorLabel + ": " + message))
    case Propagate => Step(recorded, Raised(message))
  }

  /** The `k`-th attempt of a call. */
  function TryAttempt<J>(k: nat, a: Attempt, onThrow: OnThrow, net: Net<J>,
                         bodyLen: Option<string>): Step<J>
  {
    match net.fetch(k, a.url, a.headers)
    case Threw(m) => Caught(a, [], m, onThrow, bodyLen)
    case Responded(status, body) =>
      var e := Entry(a.url, a.headers, status, Some(body), None, bodyLen);
      if !IsOk(status) then Step([e], Failed(IntToString(status) + " " + a.statusLabel))
      else match net.parse(OrElse(Some(body), "{}"))
        case Success(j) => Step([e], Returned(j))
        case Failure(m) => Caught(a, [e], m, onThrow, bodyLen)
  }

  /** A response is logged with its status and body sample; a failure is listed under its
      status, and an exception is recorded (with status 0) only by `request`. */
  lemma AttemptLog<J>(k: nat, a: Attempt, onThrow: OnThrow, net: Net<J>, bodyLen: Option<string>)
    ensures var s := TryAttempt(k, a, onThrow, net, bodyLen);
            match net.fetch(k, a.url, a.headers)
            case Responded(status, body) =>
              1 <= |s.entries| <= 2
              && s.entries[0] == LogEntry(a.url, HeaderStyle(a.headers), status, BodySample(Some(body), bodyLen), None)
              && (!IsOk(status) ==> s.verdict == Failed(IntToString(status) + " " + a.statusLabel))
            case Threw(m) =>
              s.entries == (if onThrow == RecordAndSkip
                            then [LogEntry(a.url, HeaderStyle(a.headers), 0, None, Some(m))] else [])
              && (onThrow == Propagate <==> s.verdict == Raised(m))
  {
  }

  // ---------------------------------------------------------------------------------
  // The search

  datatype SearchEnd<J> = Found(value: J) | Exhausted(errors: seq<string>) | Propagated(message: string)

  /** The step each attempt of a call would take, in order. */
  function Steps<J>(attempts: seq<Attempt>, onThrow: OnThrow, net: Net<J>,
                    bodyLen: Option<string>): (ss: seq<Step<J>>)
    ensures |ss| == |attempts|
    ensures forall i :: 0 <= i < |attempts| ==> ss[i] == TryAttempt(i, attempts[i], onThrow, net, bodyLen)
  {
    seq(|attempts|, i requires 0 <= i < |attempts| => TryAttempt(i, attempts[i], onThrow, net, bodyLen))
  }

  /** The search from the `k`-th step on, with the errors `errs` listed so far. */
  function SearchFrom<J>(ss: seq<Step<J>>, k: nat, errs: seq<string>): SearchEnd<J>
    requires k <= |ss|
    decreases |ss| - k
  {
    if k == |ss| then Exhausted(errs)
    else match ss[k].verdict
      case Returned(j) => Found(j)
      case Raised(m) => Propagated(m)
      case Failed(e) => SearchFrom(ss, k + 1, errs + [e])
  }

  /** The log entries the search appends from the `k`-th step on. */
  function LogsFrom<J>(ss: seq<Step<J>>, k: nat): seq<LogEntry>
    requires k <= |ss|
    decreases |ss| - k
  {
    if k == |ss| then []
    else ss[k].entries + (if ss[k].verdict.Failed? then LogsFrom(ss, k + 1) else [])
  }

  /** Steps `from` to `k - 1` all failed. */
  predicate AllFailed<J>(ss: seq<Step<J>>, from: nat, k: nat)
    requires from <= k <= |ss|
  {
    forall i :: from <= i < k ==> ss[i].verdict.Failed?
  }

  /** The errors of steps `from` to `k - 1`, in order. */
  function ErrorsBetween<J>(ss: seq<Step<J>>, from: nat, k: nat): (errs: seq<string>)
    requires from <= k <= |ss| && AllFailed(ss, from, k)
    ensures |errs| == k - from
    ensures forall i :: from <= i < k ==> errs[i - from] == ss[i].verdict.error
    decreases k - from
  {
    if from == k then [] else [ss[from].verdict.error] + ErrorsBetween(ss, from + 1, k)
  }

  /** What one step does to the search and to the log. */
  lemma SearchStep<J>(ss: seq<Step<J>>, k: nat, errs: seq<string>)
    requires k < |ss|
    ensures ss[k].verdict.Returned? ==>
              SearchFrom(ss, k, errs) == Found(ss[k].verdict.value) && LogsFrom(ss, k) == ss[k].entries
    ensures ss[k].verdict.Raised? ==>
              SearchFrom(ss, k, errs) == Propagated(ss[k].verdict.message) && LogsFrom(ss, k) == ss[k].entries
    ensures ss[k].verdict.Failed? ==>
              SearchFrom(ss, k, errs) == SearchFrom(ss, k + 1, errs + [ss[k].verdict.error])
              && LogsFrom(ss, k) == ss[k].entries + LogsFrom(ss, k + 1)
  {
    assert ss[k].entries + [] == ss[k].entries;
  }

  /** The log after one more step, in terms of the log before the search. */
  lemma LogStep<J>(ss: seq<Step<J>>, k: nat, start: seq<LogEntry>, before: seq<LogEntry>, after: seq<LogEntry>)
    requires k < |ss|
    requires start + LogsFrom(ss, 0) == before + LogsFrom(ss, k)
    requires after == before + ss[k].entries
    ensures ss[k].verdict.Failed? ==> start + LogsFrom(ss, 0) == after + LogsFrom(ss, k + 1)
    ensures !ss[k].verdict.Failed? ==> after == start + LogsFrom(ss, 0)
  {
    var e := ss[k].entries;
    var rest := if ss[k].verdict.Failed? then LogsFrom(ss, k + 1) else [];
    assert LogsFrom(ss, k) == e + rest;
    Associative(before, e, rest);
  }

  /** Failed steps only add their errors to the list. */
  lemma {:induction false} SkipFailed<J>(ss: seq<Step<J>>, from: nat, k: nat, errs: seq<string>)
    requires from <= k <= |ss| && AllFailed(ss, from, k)
    ensures SearchFrom(ss, from, errs) == SearchFrom(ss, k, errs + ErrorsBetween(ss, from, k))
    decreases k - from
  {
    if from < k {
      var e := ss[from].verdict.error;
      SkipFailed(ss, from + 1, k, errs + [e]);
      var rest := ErrorsBetween(ss, from + 1, k);
      assert errs + [e] + rest == errs + ([e] + rest);
    } else {
      assert errs + [] == errs;
    }
  }

  /** The first step that does not fail decides the call: its body is returned, or its
      exception escapes. */
  lemma FirstDecides<J>(ss: seq<Step<J>>, k: nat)
    requires k < |ss| && AllFailed(ss, 0, k)
    ensures ss[k].verdict.Returned? ==> SearchFrom(ss, 0, []) == Found(ss[k].verdict.value)
    ensures ss[k].verdict.Raised? ==> SearchFrom(ss, 0, []) == Propagated(ss[k].verdict.message)
  {
    SkipFailed(ss, 0, k, []);
  }

  /** When every step fails, the call lists one error per attempt, in order. */
  lemma AllAttemptsFail<J>(ss: seq<Step<J>>)
    requires AllFailed(ss, 0, |ss|)
    ensures SearchFrom(ss, 0, []) == Exhausted(ErrorsBetween(ss, 0, |ss|))
  {
    SkipFailed(ss, 0, |ss|, []);
    assert [] + ErrorsBetween(ss, 0, |ss|) == ErrorsBetween(ss, 0, |ss|);
  }

  /** A body is returned only as the body of the first step that does not fail. */
  lemma {:induction false} FoundIsFirst<J>(ss: seq<Step<J>>, from: nat, errs: seq<string>, j: J)
    requires from <= |ss| && SearchFrom(ss, from, errs) == Found(j)
    ensures exists k :: from <= k < |ss| && AllFailed(ss, from, k) && ss[k].verdict == Returned(j)
    decreases |ss| - from
  {
    var v := ss[from].verdict;
    if v.Failed? {
      FoundIsFirst(ss, from + 1, errs + [v.error], j);
      var k :| from + 1 <= k < |ss| && AllFailed(ss, from + 1, k) && ss[k].verdict == Returned(j);
      assert AllFailed(ss, from, k);
    } else {
      assert AllFailed(ss, from, from);
    }
  }

  /** Only a call that lets exceptions escape can end with one. */
  lemma {:induction false} CaughtNeverEscapes<J>(attempts: seq<Attempt>, onThrow: OnThrow, net: Net<J>,
                                                 bodyLen: Option<string>, from: nat, errs: seq<string>)
    requires from <= |attempts| && onThrow != Propagate
    ensures !SearchFrom(Steps(attempts, onThrow, net, bodyLen), from, errs).Propagated?
    decreases |attempts| - from
  {
    var ss := Steps(attempts, onThrow, net, bodyLen);
    forall i | from <= i < |ss|
      ensures !ss[i].verdict.Raised?
    {
      CaughtIsFailure(i, attempts[i], onThrow, net, bodyLen);
    }
    NoRaiseNoPropagation(ss, from, errs);
  }

  /** Unless exceptions propagate, an attempt never raises. */
  lemma CaughtIsFailure<J>(k: nat, a: Attempt, onThrow: OnThrow, net: Net<J>, bodyLen: Option<string>)
    requires onThrow != Propagate
    ensures !TryAttempt(k, a, onThrow, net, bodyLen).verdict.Raised?
  {
  }

  lemma {:induction false} NoRaiseNoPropagation<J>(ss: seq<Step<J>>, from: nat, errs: seq<string>)
    requires from <= |ss| && forall i :: from <= i < |ss| ==> !ss[i].verdict.Raised?
    ensures !SearchFrom(ss, from, errs).Propagated?
    decreases |ss| - from
  {
    if from < |ss| && ss[from].verdict.Failed? {
      NoRaiseNoPropagation(ss, from + 1, errs + [ss[from].verdict.error]);
    }
  }

  /** The message a call fails with. */
  function Outcome<J>(prefix: string, r: SearchEnd<J>): (o: Result<J, string>)
    ensures o.Success? <==> r.Found?
    ensures r.Found? ==> o.value == r.value
    ensures r.Exhausted? ==> prefix <= o.error
    ensures r.Propagated? ==> o.error == r.message
  {
    match r
    case Found(j) => Success(j)
    case Exhausted(errs) => Failure(prefix + Join(errs, " | "))
    case Propagated(m) => Failure(m)
  }

  // ---------------------------------------------------------------------------------
  // The candidate lists of the four calls

  /** `request`: every base, then every header record; the url carries the query part. */
  function RequestAttempts(bases: seq<string>, hs: seq<Headers>, path: string, qs: string): seq<Attempt> {
    Flatten(seq(|bases|, i requires 0 <= i < |bases| =>
      seq(|hs|, j requires 0 <= j < |hs| =>
        var url := bases[i] + path + qs;
        Attempt(url, hs[j], url, url))))
  }

  lemma RequestOrder(bases: seq<string>, hs: seq<Headers>, path: string, qs: string, i: nat, j: nat)
    requires i < |bases| && j < |hs|
    ensures var a := RequestAttempts(bases, hs, path, qs);
            |a| == |bases| * |hs| && i * |hs| + j < |a|
            && a[i * |hs| + j] == Attempt(bases[i] + path + qs, hs[j], bases[i] + path + qs, bases[i] + path + qs)
  {
    var rows := seq(|bases|, i requires 0 <= i < |bases| =>
      seq(|hs|, j requires 0 <= j < |hs| =>
        var url := bases[i] + path + qs;
        Attempt(url, hs[j], url, url)));
    FlattenIndex(rows, |hs|, i, j);
  }

  /** The parameter names `getUserProfile` tries, in order. */
  const ProfileKeys: seq<string> := ["userName", "username", "screen_name", "handle"]

  function ProfileAttempt(base: string, h: Headers, path: string, key: string, username: string): Attempt {
    Attempt(base + path + "?" + QueryString([(key, Str(username))]), h,
            base + path + "?" + key, base + path)
  }

  function ProfileRow(base: string, hs: seq<Headers>, path: string, username: string): (r: seq<Attempt>)
    ensures |r| == |hs| * 4
  {
    var rows := seq(|hs|, j requires 0 <= j < |hs| =>
      seq(4, v requires 0 <= v < 4 => ProfileAttempt(base, hs[j], path, ProfileKeys[v], username)));
    FlattenLength(rows, 4);
    Flatten(rows)
  }

  /** `getUserProfile`: every base, then every header record, then every parameter name. */
  function ProfileAttempts(bases: seq<string>, hs: seq<Headers>, path: string, username: string): seq<Attempt> {
    Flatten(seq(|bases|, i requires 0 <= i < |bases| => ProfileRow(bases[i], hs, path, username)))
  }

  lemma ProfileOrder(bases: seq<string>, hs: seq<Headers>, path: string, username: string,
                     i: nat, j: nat, v: nat)
    requires i < |bases| && j < |hs| && v < 4
    ensures var a := ProfileAttempts(bases, hs, path, username);
            |a| == |bases| * (|hs| * 4) && i * (|hs| * 4) + (j * 4 + v) < |a|
            && a[i * (|hs| * 4) + (j * 4 + v)] == ProfileAttempt(bases[i], hs[j], path, ProfileKeys[v], username)
  {
    ProfileRowIndex(bases[i], hs, path, username, j, v);
    var rows := seq(|bases|, i requires 0 <= i < |bases| => ProfileRow(bases[i], hs, path, username));
    FlattenIndex(rows, |hs| * 4, i, j * 4 + v);
  }

  /** Within the row of one base: header record `j`, then parameter name `v`. */
  lemma ProfileRowIndex(base: string, hs: seq<Headers>, path: string, username: string, j: nat, v: nat)
    requires j < |hs| && v < 4
    ensures j * 4 + v < |hs| * 4
    ensures ProfileRow(base, hs, path, username)[j * 4 + v] == ProfileAttempt(base, hs[j], path, ProfileKeys[v], username)
  {
    var inner := seq(|hs|, j requires 0 <= j < |hs| =>
      seq(4, v requires 0 <= v < 4 => ProfileAttempt(base, hs[j], path, ProfileKeys[v], username)));
    FlattenIndex(inner, 4, j, v);
  }

  /** The two parameter sets of `getUserTweets`: by id, then by name. */
  function TweetsParams(userId: Option<string>, userName: Option<string>, cursor: Option<string>,
                        includeReplies: bool): (ps: seq<seq<(string, QueryValue)>>)
    ensures |ps| == 2 && |ps[0]| == 4 && |ps[1]| == 4
    ensures forall q :: 0 <= q < 2 ==>
              Keys(ps[q]) == ["userId", "userName", "cursor", "includeReplies"]
              && ps[q][3].1 == Flag(includeReplies)
              && (ps[q][2].1.Undefined? <==> cursor.None?)
    ensures ps[0][1].1.Undefined? && ps[1][0].1.Undefined?
    ensures ps[0][0].1.Undefined? <==> userId.None? || userId.value == ""
    ensures ps[1][1].1.Undefined? <==> userName.None?
  {
    var c := if cursor.Some? then Str(cursor.value) else Undefined;
    [[("userId", if userId.Some? && userId.value != "" then Str(userId.value) else Undefined),
      ("userName", Undefined), ("cursor", c), ("includeReplies", Flag(includeReplies))],
     [("userId", Undefined), ("userName", if userName.Some? then Str(userName.value) else Undefined),
      ("cursor", c), ("includeReplies", Flag(includeReplies))]]
  }

  /** The paths of `getUserTweets`: the configured one when it is not empty, then the
      standard one. */
  function TweetsPaths(override: Option<string>): seq<string> {
    (if override.Some? && override.value != "" then [override.value] else [])
    + ["/twitter/user/last_tweets"]
  }

  function TweetsAttempt(base: string, h: Headers, path: string, params: seq<(string, QueryValue)>): Attempt {
    var url := base + path + "?" + QueryString(params);
    Attempt(url, h, url, base + path)
  }

  function TweetsPathRow(base: string, h: Headers, paths: seq<string>, ps: seq<seq<(string, QueryValue)>>): (r: seq<Attempt>)
    ensures |r| == |paths| * |ps|
  {
    var rows := seq(|paths|, p requires 0 <= p < |paths| =>
      seq(|ps|, q requires 0 <= q < |ps| => TweetsAttempt(base, h, paths[p], ps[q])));
    FlattenLength(rows, |ps|);
    Flatten(rows)
  }

  function TweetsHeaderRow(base: string, hs: seq<Headers>, paths: seq<string>, ps: seq<seq<(string, QueryValue)>>): (r: seq<Attempt>)
    ensures |r| == |hs| * (|paths| * |ps|)
  {
    var rows := seq(|hs|, j requires 0 <= j < |hs| => TweetsPathRow(base, hs[j], paths, ps));
    FlattenLength(rows, |paths| * |ps|);
    Flatten(rows)
  }

  /** The attempts of `getUserTweets`, one row per base. */
  function TweetsRows(bases: seq<string>, hs: seq<Headers>, paths: seq<string>,
                      ps: seq<seq<(string, QueryValue)>>): (rows: seq<seq<Attempt>>)
    ensures |rows| == |bases|
    ensures forall k :: 0 <= k < |bases| ==> rows[k] == TweetsHeaderRow(bases[k], hs, paths, ps)
    ensures forall k :: 0 <= k < |bases| ==> |rows[k]| == |hs| * (|paths| * |ps|)
  {
    seq(|bases|, i requires 0 <= i < |bases| => TweetsHeaderRow(bases[i], hs, paths, ps))
  }

  /** `getUserTweets`: every base, then every header record, then every path, then every
      parameter set. */
  function TweetsAttempts(bases: seq<string>, hs: seq<Headers>, paths: seq<string>,
                          ps: seq<seq<(string, QueryValue)>>): seq<Attempt>
  {
    Flatten(TweetsRows(bases, hs, paths, ps))
  }

  lemma TweetsPathRowIndex(base: string, h: Headers, paths: seq<string>, ps: seq<seq<(string, QueryValue)>>,
                           p: nat, q: nat, r: nat)
    requires p < |paths| && q < |ps| && r == p * |ps| + q
    ensures r < |paths| * |ps|
    ensures TweetsPathRow(base, h, paths, ps)[r] == TweetsAttempt(base, h, paths[p], ps[q])
  {
    FlattenIndex(seq(|paths|, p requires 0 <= p < |paths| =>
      seq(|ps|, q requires 0 <= q < |ps| => TweetsAttempt(base, h, paths[p], ps[q]))), |ps|, p, q);
  }

  lemma TweetsHeaderRowIndex(base: string, hs: seq<Headers>, paths: seq<string>,
                             ps: seq<seq<(string, QueryValue)>>, j: nat, r: nat, x: nat)
    requires j < |hs| && r < |paths| * |ps| && x == j * (|paths| * |ps|) + r
    ensures x < |hs| * (|paths| * |ps|)
    ensures TweetsHeaderRow(base, hs, paths, ps)[x] == TweetsPathRow(base, hs[j], paths, ps)[r]
  {
    FlattenIndex(seq(|hs|, j requires 0 <= j < |hs| => TweetsPathRow(base, hs[j], paths, ps)),
                 |paths| * |ps|, j, r);
  }

  lemma TweetsBaseRowIndex(bases: seq<string>, hs: seq<Headers>, paths: seq<string>,
                           ps: seq<seq<(string, QueryValue)>>, i: nat, x: nat, pos: nat)
    requires i < |bases| && x < |hs| * (|paths| * |ps|) && pos == i * (|hs| * (|paths| * |ps|)) + x
    ensures pos < |TweetsAttempts(bases, hs, paths, ps)|
    ensures TweetsAttempts(bases, hs, paths, ps)[pos] == TweetsHeaderRow(bases[i], hs, paths, ps)[x]
  {
    var rows := TweetsRows(bases, hs, paths, ps);
    assert TweetsAttempts(bases, hs, paths, ps) == Flatten(rows);
    FlattenIndex(rows, |hs| * (|paths| * |ps|), i, x);
    assert rows[i] == TweetsHeaderRow(bases[i], hs, paths, ps);
  }

  /** Attempt `(i, j, p, q)` of `getUserTweets` (base `i`, header record `j`, path `p`,
      parameter set `q`) sits at position `pos`: bases vary slowest and parameter sets
      fastest. */
  lemma TweetsOrder(bases: seq<string>, hs: seq<Headers>, paths: seq<string>,
                    ps: seq<seq<(string, QueryValue)>>, i: nat, j: nat, p: nat, q: nat, pos: nat)
    requires i < |bases| && j < |hs| && p < |paths| && q < |ps|
    requires pos == i * (|hs| * (|paths| * |ps|)) + (j * (|paths| * |ps|) + (p * |ps| + q))
    ensures pos < |TweetsAttempts(bases, hs, paths, ps)|
    ensures TweetsAttempts(bases, hs, paths, ps)[pos] == TweetsAttempt(bases[i], hs[j], paths[p], ps[q])
  {
    var x := j * (|paths| * |ps|) + (p * |ps| + q);
    TweetsInnerIndex(bases[i], hs, paths, ps, j, p, q, x);
    TweetsBaseRowIndex(bases, hs, paths, ps, i, x, pos);
  }

  /** Within the row of one base: header record `j`, path `p`, parameter set `q`. */
  lemma TweetsInnerIndex(base: string, hs: seq<Headers>, paths: seq<string>,
                         ps: seq<seq<(string, QueryValue)>>, j: nat, p: nat, q: nat, x: nat)
    requires j < |hs| && p < |paths| && q < |ps|
    requires x == j * (|paths| * |ps|) + (p * |ps| + q)
    ensures x < |hs| * (|paths| * |ps|)
    ensures TweetsHeaderRow(base, hs, paths, ps)[x] == TweetsAttempt(base, hs[j], paths[p], ps[q])
  {
    var r := p * |ps| + q;
    TweetsPathRowIndex(base, hs[j], paths, ps, p, q, r);
    TweetsHeaderRowIndex(base, hs, paths, ps, j, r, x);
  }

  /** The parameters of `getTweetReplies`: the post id, the cursor when it is not empty,
      the count when one is given. */
  function RepliesParams(tweetId: string, cursor: Option<string>, count: Option<int>)
    : (ps: seq<(string, QueryValue)>)
    ensures |ps| == 1 + (if cursor.Some? && cursor.value != "" then 1 else 0) + (if count.Some? then 1 else 0)
    ensures ps[0] == ("tweet_id", Str(tweetId))
    ensures forall i :: 0 <= i < |ps| ==> !ps[i].1.Undefined?
    ensures cursor.Some? && cursor.value != "" ==> ps[1] == ("cursor", Str(cursor.value))
    ensures count.Some? ==> ps[|ps| - 1] == ("count", Num(count.value))
  {
    [("tweet_id", Str(tweetId))]
    + (if cursor.Some? && cursor.value != "" then [("cursor", Str(cursor.value))] else [])
    + (if count.Some? then [("count", Num(count.value))] else [])
  }

  function Keys(entries: seq<(string, QueryValue)>): (r: seq<string>)
    ensures |r| == |entries| && forall i :: 0 <= i < |entries| ==> r[i] == entries[i].0
  {
    seq(|entries|, i requires 0 <= i < |entries| => entries[i].0)
  }

  /** `getTweetReplies`: every base, then every header record. */
  function RepliesAttempts(bases: seq<string>, hs: seq<Headers>, path: string,
                           params: seq<(string, QueryValue)>): seq<Attempt>
  {
    Flatten(seq(|bases|, i requires 0 <= i < |bases| =>
      seq(|hs|, j requires 0 <= j < |hs| =>
        Attempt(bases[i] + path + "?" + QueryString(params), hs[j],
                bases[i] + path + "?" + Join(Keys(params), ","), bases[i] + path))))
  }

  lemma RepliesOrder(bases: seq<string>, hs: seq<Headers>, path: string,
                     params: seq<(string, QueryValue)>, i: nat, j: nat)
    requires i < |bases| && j < |hs|
    ensures var a := RepliesAttempts(bases, hs, path, params);
            |a| == |bases| * |hs| && i * |hs| + j < |a|
            && a[i * |hs| + j] == Attempt(bases[i] + path + "?" + QueryString(params), hs[j],
                                          bases[i] + path + "?" + Join(Keys(params), ","), bases[i] + path)
  {
    FlattenIndex(seq(|bases|, i requires 0 <= i < |bases| =>
      seq(|hs|, j requires 0 <= j < |hs| =>
        Attempt(bases[i] + path + "?" + QueryString(params), hs[j],
                bases[i] + path + "?" + Join(Keys(params), ","), bases[i] + path))), |hs|, i, j);
  }

  /** In `getTweetReplies`, a `fetch` that throws after failed attempts ends the call with
      that exception; the remaining candidates are not tried. */
  lemma ThrowEscapes<J>(attempts: seq<Attempt>, net: Net<J>, bodyLen: Option<string>, k: nat, m: string)
    requires k < |attempts|
    requires AllFailed(Steps(attempts, Propagate, net, bodyLen), 0, k)
    requires net.fetch(k, attempts[k].url, attempts[k].headers) == Threw(m)
    ensures SearchFrom(Steps(attempts, Propagate, net, bodyLen), 0, []) == Propagated(m)
    ensures LogsFrom(Steps(attempts, Propagate, net, bodyLen), k) == []
  {
    var ss := Steps(attempts, Propagate, net, bodyLen);
    assert ss[k].verdict == Raised(m) && ss[k].entries == [];
    FirstDecides(ss, k);
  }

  /** In the other calls, a `fetch` that throws only adds `err <label>: <message>` to the
      list, and the search goes on. */
  lemma ThrowIsListed<J>(attempts: seq<Attempt>, onThrow: OnThrow, net: Net<J>, bodyLen: Option<string>,
                         k: nat, m: string, errs: seq<string>)
    requires k < |attempts| && onThrow != Propagate
    requires net.fetch(k, attempts[k].url, attempts[k].headers) == Threw(m)
    ensures SearchFrom(Steps(attempts, onThrow, net, bodyLen), k, errs)
            == SearchFrom(Steps(attempts, onThrow, net, bodyLen), k + 1,
                          errs + ["err " + attempts[k].errorLabel + ": " + m])
  {
    var ss := Steps(attempts, onThrow, net, bodyLen);
    assert ss[k].verdict == Failed("err " + attempts[k].errorLabel + ": " + m);
  }

  // ---------------------------------------------------------------------------------
  // The client

  class Client {
    const apiKey: Option<string>
    const baseUrl: string
    const authStyle: string
    const profilePathOverride: Option<string>
    const tweetsPathOverride: Option<string>
    const repliesPathOverride: Option<string>
    const bodyLen: Option<string>
    var logs: seq<LogEntry>

    constructor(env: Env)
      ensures apiKey == env.apiKey && bodyLen == env.bodyLen
      ensures baseUrl == OrElse(env.baseUrl, DefaultBase)
      ensures authStyle == ToLower(OrElse(env.authStyle, "x-api-key"))
      ensures profilePathOverride == env.profilePath && tweetsPathOverride == env.tweetsPath
      ensures repliesPathOverride == env.repliesPath
      ensures logs == []
    {
      apiKey := env.apiKey;
      baseUrl := OrElse(env.baseUrl, DefaultBase);
      authStyle := ToLower(OrElse(env.authStyle, "x-api-key"));
      profilePathOverride := env.profilePath;
      tweetsPathOverride := env.tweetsPath;
      repliesPathOverride := env.repliesPath;
      bodyLen := env.bodyLen;
      logs := [];
    }

    /** Appends one entry to the log buffer. */
    method Record(url: string, headers: Headers, status: int, body: Option<string>, error: Option<string>)
      modifies this
      ensures logs == old(logs) + [Entry(url, headers, status, body, error, bodyLen)]
    {
      var sampleLen := SampleLen(bodyLen);
      var headerStyle := HeaderStyle(headers);
      var sample := if body.Some? && body.value != "" then Some(SlicePrefix(body.value, sampleLen)) else None;
      logs := logs + [LogEntry(url, headerStyle, status, sample, error)];
    }

    /** Hands over the entries recorded so far and empties the buffer. */
    method ConsumeLogs() returns (out: seq<LogEntry>)
      modifies this
      ensures out == old(logs) && logs == []
    {
      out := logs;
      logs := [];
    }

    /** One attempt: fetches, logs the response, and returns the parsed body, the error to
        list, or the exception that escapes. */
    method TryOne<J>(k: nat, a: Attempt, onThrow: OnThrow, net: Net<J>) returns (v: Verdict<J>)
      modifies this
      ensures v == TryAttempt(k, a, onThrow, net, bodyLen).verdict
      ensures logs == old(logs) + TryAttempt(k, a, onThrow, net, bodyLen).entries
    {
      var thrown: Option<string> := None;
      var reply := net.fetch(k, a.url, a.headers);
      match reply {
        case Threw(m) =>
          thrown := Some(m);
        case Responded(status, body) =>
          Record(a.url, a.headers, status, Some(body), None);
          if !IsOk(status) {
            return Failed(IntToString(status) + " " + a.statusLabel);
          }
          match net.parse(OrElse(Some(body), "{}")) {
            case Success(j) =>
              return Returned(j);
            case Failure(m) =>
              thrown := Some(m);
          }
      }
      var m := thrown.value;
      match onThrow {
        case RecordAndSkip =>
          Record(a.url, a.headers, 0, None, Some(m));
          v := Failed("err " + a.errorLabel + ": " + m);
        case Skip =>
          v := Failed("err " + a.errorLabel + ": " + m);
        case Propagate =>
          v := Raised(m);
      }
    }

    /** Tries the attempts in order until one returns or lets an exception escape, and
        lists the errors of the failed ones. */
    method Search<J>(attempts: seq<Attempt>, onThrow: OnThrow, net: Net<J>) returns (r: SearchEnd<J>)
      modifies this
      ensures r == SearchFrom(Steps(attempts, onThrow, net, bodyLen), 0, [])
      ensures logs == old(logs) + LogsFrom(Steps(attempts, onThrow, net, bodyLen), 0)
    {
      ghost var ss := Steps(attempts, onThrow, net, bodyLen);
      ghost var start := logs;
      var errs: seq<string> := [];
      var k := 0;
      while k < |attempts|
        invariant 0 <= k <= |attempts|
        invariant SearchFrom(ss, 0, []) == SearchFrom(ss, k, errs)
        invariant start + LogsFrom(ss, 0) == logs + LogsFrom(ss, k)
      {
        ghost var before := logs;
        var v := TryOne(k, attempts[k], onThrow, net);
        SearchStep(ss, k, errs);
        LogStep(ss, k, start, before, logs);
        match v {
          case Returned(j) =>
            return Found(j);
          case Raised(m) =>
            return Propagated(m);
          case Failed(e) =>
            errs := errs + [e];
        }
        k := k + 1;
      }
      assert logs + LogsFrom(ss, k) == logs;
      r := Exhausted(errs);
    }

    /** `request(path, query)`: fails before any attempt without an API key. */
    method Request<J>(path: string, query: Option<seq<(string, QueryValue)>>, net: Net<J>)
      returns (r: Result<J, string>)
      modifies this
      ensures (apiKey.None? || apiKey.value == "") ==>
                r == Failure("Falta TWITTER_API_KEY") && logs == old(logs)
      ensures apiKey.Some? && apiKey.value != "" ==>
                var attempts := RequestAttempts(BaseCandidates(baseUrl), HeaderAttempts(apiKey, authStyle),
                                                path, QueryPart(query));
                r == Outcome("Twitter API request failed: ",
                             SearchFrom(Steps(attempts, RecordAndSkip, net, bodyLen), 0, []))
                && logs == old(logs) + LogsFrom(Steps(attempts, RecordAndSkip, net, bodyLen), 0)
    {
      if apiKey.None? || apiKey.value == "" {
        return Failure("Falta TWITTER_API_KEY");
      }
      var qs := QueryPart(query);
      var attempts := RequestAttempts(BaseCandidates(baseUrl), HeaderAttempts(apiKey, authStyle), path, qs);
      var end := Search(attempts, RecordAndSkip, net);
      r := Outcome("Twitter API request failed: ", end);
    }

    /** `getUserProfile(username)`. */
    method GetUserProfile<J>(username: string, net: Net<J>) returns (r: Result<J, string>)
      modifies this
      ensures var attempts := ProfileAttempts(BaseCandidates(baseUrl), HeaderAttempts(apiKey, authStyle),
                                              OrElse(profilePathOverride, "/twitter/user/info"), username);
              r == Outcome("Twitter profile error: tried ", SearchFrom(Steps(attempts, Skip, net, bodyLen), 0, []))
              && logs == old(logs) + LogsFrom(Steps(attempts, Skip, net, bodyLen), 0)
    {
      var path := OrElse(profilePathOverride, "/twitter/user/info");
      var attempts := ProfileAttempts(BaseCandidates(baseUrl), HeaderAttempts(apiKey, authStyle), path, username);
      var end := Search(attempts, Skip, net);
      r := Outcome("Twitter profile error: tried ", end);
    }

    /** `getUserTweets(userId, userName, cursor, includeReplies)`. */
    method GetUserTweets<J>(userId: Option<string>, userName: Option<string>, cursor: Option<string>,
                            includeReplies: bool, net: Net<J>) returns (r: Result<J, string>)
      modifies this
      ensures var attempts := TweetsAttempts(BaseCandidates(baseUrl), HeaderAttempts(apiKey, authStyle),
                                             TweetsPaths(tweetsPathOverride),
                                             TweetsParams(userId, userName, cursor, includeReplies));
              r == Outcome("Twitter tweets error: tried ", SearchFrom(Steps(attempts, Skip, net, bodyLen), 0, []))
              && logs == old(logs) + LogsFrom(Steps(attempts, Skip, net, bodyLen), 0)
    {
      var attempts := TweetsAttempts(BaseCandidates(baseUrl), HeaderAttempts(apiKey, authStyle),
                                     TweetsPaths(tweetsPathOverride),
                                     TweetsParams(userId, userName, cursor, includeReplies));
      var end := Search(attempts, Skip, net);
      r := Outcome("Twitter tweets error: tried ", end);
    }

    /** `getTweetReplies(tweetId, cursor, count)`: an exception aborts the search. */
    method GetTweetReplies<J>(tweetId: string, cursor: Option<string>, count: Option<int>, net: Net<J>)
      returns (r: Result<J, string>)
      modifies this
      ensures var attempts := RepliesAttempts(BaseCandidates(baseUrl), HeaderAttempts(apiKey, authStyle),
                                              OrElse(repliesPathOverride, "/twitter/tweet/replies"),
                                              RepliesParams(tweetId, cursor, count));
              r == Outcome("Twitter replies error: tried ", SearchFrom(Steps(attempts, Propagate, net, bodyLen), 0, []))
              && logs == old(logs) + LogsFrom(Steps(attempts, Propagate, net, bodyLen), 0)
    {
      var attempts := RepliesAttempts(BaseCandidates(baseUrl), HeaderAttempts(apiKey, authStyle),
                                      OrElse(repliesPathOverride, "/twitter/tweet/replies"),
                                      RepliesParams(tweetId, cursor, count));
      var end := Search(attempts, Propagate, net);
      r := Outcome("Twitter replies error: tried ", end);
    }
  }
}

=== FILE: uri_encoding.dfy ===
/** `encodeURIComponent`, which the API client applies to every query key and value, and a
    decoder that reads its output back. */
module UriEncoding {
  import opened Wrappers

  /** The characters `encodeURIComponent` leaves as they are. */
  predicate IsUnreserved(c: char) {
    ('A' <= c <= 'Z') || ('a' <= c <= 'z') || ('0' <= c <= '9')
    || c == '-' || c == '_' || c == '.' || c == '!' || c == '~' || c == '*' || c == '\''
    || c == '(' || c == ')'
  }

  predicate IsUpperHex(c: char) { ('0' <= c <= '9') || ('A' <= c <= 'F') }

  /** What can appear in encoded text. */
  predicate IsEncodedChar(c: char) { IsUnreserved(c) || c == '%' || IsUpperHex(c) }

  function HexDigit(d: nat): (c: char)
    requires d < 16
    ensures IsUpperHex(c)
  {
    if d < 10 then ('0' as int + d) as char else ('A' as int + d - 10) as char
  }

  /** The value of a hexadecimal digit of either case. */
  function HexValue(c: char): (r: Option<nat>)
    ensures r.Some? ==> r.value < 16
  {
    if '0' <= c <= '9' then Some(c as int - '0' as int)
    else if 'A' <= c <= 'F' then Some(c as int - 'A' as int + 10)
    else if 'a' <= c <= 'f' then Some(c as int - 'a' as int + 10)
    else None
  }

  lemma HexRoundTrip(d: nat)
    requires d < 16
    ensures HexValue(HexDigit(d)) == Some(d)
  {
  }

  /** One byte written as `%` and two upper-case hexadecimal digits. */
  function PercentByte(b: nat): (r: string)
    requires b < 256
    ensures |r| == 3 && r[0] == '%'
    ensures forall i :: 0 <= i < 3 ==> IsEncodedChar(r[i])
  {
    ['%', HexDigit(b / 16), HexDigit(b % 16)]
  }

  /** The UTF-8 bytes of a Unicode scalar value. */
  function Utf8(c: char): (bytes: seq<nat>)
    ensures 1 <= |bytes| <= 4
    ensures forall i :: 0 <= i < |bytes| ==> bytes[i] < 256
  {
    var n := c as int;
    var q1 := n / 64;
    var q2 := q1 / 64;
    var q3 := q2 / 64;
    if n < 0x80 then [n]
    else if n < 0x800 then [0xC0 + q1, 0x80 + n % 64]
    else if n < 0x1_0000 then [0xE0 + q2, 0x80 + q1 % 64, 0x80 + n % 64]
    else [0xF0 + q3, 0x80 + q2 % 64, 0x80 + q1 % 64, 0x80 + n % 64]
  }

  function PercentBytes(bytes: seq<nat>): (r: string)
    requires forall i :: 0 <= i < |bytes| ==> bytes[i] < 256
    ensures |r| == 3 * |bytes|
  {
    if |bytes| == 0 then [] else PercentByte(bytes[0]) + PercentBytes(bytes[1..])
  }

  /** `encodeURIComponent` on one character. */
  function EncodeChar(c: char): (r: string)
    ensures |r| > 0
  {
    if IsUnreserved(c) then [c] else PercentBytes(Utf8(c))
  }

  /** `encodeURIComponent(s)`. Dafny characters are scalar values, so the lone-surrogate
      error of the JavaScript function cannot arise. */
  function Encode(s: string): (r: string)
    ensures |r| >= |s|
  {
    if |s| == 0 then [] else EncodeChar(s[0]) + Encode(s[1..])
  }

  /** Text made of unreserved characters, `%` and upper-case hexadecimal digits. */
  predicate Safe(t: string) {
    forall i :: 0 <= i < |t| ==> IsEncodedChar(t[i])
  }

  lemma SafeAppend(a: string, b: string)
    requires Safe(a) && Safe(b)
    ensures Safe(a + b)
  {
    forall i | 0 <= i < |a + b|
      ensures IsEncodedChar((a + b)[i])
    {
      if i >= |a| {
        assert (a + b)[i] == b[i - |a|];
      }
    }
  }

  lemma {:induction false} PercentBytesSafe(bytes: seq<nat>)
    requires forall i :: 0 <= i < |bytes| ==> bytes[i] < 256
    ensures Safe(PercentBytes(bytes))
  {
    if |bytes| > 0 {
      PercentBytesSafe(bytes[1..]);
      SafeAppend(PercentByte(bytes[0]), PercentBytes(bytes[1..]));
    }
  }

  lemma EncodeCharSafe(c: char)
    ensures Safe(EncodeChar(c))
  {
    if !IsUnreserved(c) {
      PercentBytesSafe(Utf8(c));
    }
  }

  /** Encoded text is made of unreserved characters, `%` and hexadecimal digits only; in
      particular it never contains the `&` and `=` that delimit a query string. */
  lemma {:induction false} EncodeSafe(s: string)
    ensures Safe(Encode(s))
    ensures '&' !in Encode(s) && '=' !in Encode(s)
  {
    if |s| > 0 {
      EncodeSafe(s[1..]);
      EncodeCharSafe(s[0]);
      SafeAppend(EncodeChar(s[0]), Encode(s[1..]));
    }
    SafeHasNoDelimiter(Encode(s));
  }

  lemma SafeHasNoDelimiter(t: string)
    requires Safe(t)
    ensures '&' !in t && '=' !in t
  {
    forall i | 0 <= i < |t|
      ensures t[i] != '&' && t[i] != '='
    {
      assert IsEncodedChar(t[i]);
    }
  }

  /** Reads one `%HH` byte at the start of `t`. */
  function ReadByte(t: string): (r: Option<nat>)
    ensures r.Some? ==> |t| >= 3 && r.value < 256
  {
    if |t| >= 3 && t[0] == '%' then
      match (HexValue(t[1]), HexValue(t[2]))
      case (Some(h), Some(l)) => Some(16 * h + l)
      case _ => None
    else None
  }

  /** Reads `k` UTF-8 continuation bytes, each `%HH` with a value in 0x80..0xBF, and
      appends their six payload bits each to `acc`. */
  function ReadContinuation(t: string, k: nat, acc: nat): Option<nat>
    decreases k
  {
    if k == 0 then Some(acc)
    else
      match ReadByte(t)
      case Some(b) =>
        if 0x80 <= b < 0xC0 then ReadContinuation(t[3..], k - 1, acc * 64 + (b - 0x80)) else None
      case None => None
  }

  predicate IsScalarValue(n: int) { (0 <= n < 0xD800) || (0xE000 <= n <= 0x10_FFFF) }

  /** Decodes the first character of `t`; the number is how many characters of `t` it took. */
  function DecodeOne(t: string): (r: Option<(char, nat)>)
    ensures r.Some? ==> 1 <= r.value.1 <= |t|
  {
    if |t| == 0 then None
    else if t[0] != '%' then Some((t[0], 1))
    else
      match ReadByte(t)
      case None => None
      case Some(b0) =>
        var (cp, len) :=
          if b0 < 0x80 then (Some(b0), 3)
          else if 0xC0 <= b0 < 0xE0 then (ReadContinuation(t[3..], 1, b0 - 0xC0), 6)
          else if 0xE0 <= b0 < 0xF0 then (ReadContinuation(t[3..], 2, b0 - 0xE0), 9)
          else if 0xF0 <= b0 < 0xF8 then (ReadContinuation(t[3..], 3, b0 - 0xF0), 12)
          else (None, 3);
        if cp.Some? && IsScalarValue(cp.value) && len <= |t| then Some((cp.value as char, len))
        else None
  }

  /** A `decodeURIComponent` for the output of `Encode`. */
  function Decode(t: string): Option<string>
    decreases |t|
  {
    if |t| == 0 then Some([])
    else
      match DecodeOne(t)
      case None => None
      case Some((c, k)) =>
        match Decode(t[k..])
        case None => None
        case Some(rest) => Some([c] + rest)
  }

  lemma ReadPercentByte(b: nat, rest: string)
    requires b < 256
    ensures ReadByte(PercentByte(b) + rest) == Some(b)
    ensures (PercentByte(b) + rest)[3..] == rest
  {
    HexRoundTrip(b / 16);
    HexRoundTrip(b % 16);
  }

  lemma ReadContinuationStep(b: nat, rest: string, k: nat, acc: nat)
    requires 0x80 <= b < 0xC0
    ensures ReadContinuation(PercentByte(b) + rest, k + 1, acc)
            == ReadContinuation(rest, k, acc * 64 + (b - 0x80))
  {
    ReadPercentByte(b, rest);
  }

  lemma DecodeTwoPercent(b0: nat, b1: nat, rest: string)
    requires 0xC0 <= b0 < 0xE0 && 0x80 <= b1 < 0xC0
    requires IsScalarValue((b0 - 0xC0) * 64 + (b1 - 0x80))
    ensures var cp := (b0 - 0xC0) * 64 + (b1 - 0x80);
            DecodeOne(PercentByte(b0) + (PercentByte(b1) + rest)) == Some((cp as char, 6))
  {
    var t1 := PercentByte(b1) + rest;
    ReadPercentByte(b0, t1);
    ReadContinuationStep(b1, rest, 0, b0 - 0xC0);
  }

  lemma DecodeThreePercent(b0: nat, b1: nat, b2: nat, rest: string)
    requires 0xE0 <= b0 < 0xF0 && 0x80 <= b1 < 0xC0 && 0x80 <= b2 < 0xC0
    requires IsScalarValue(((b0 - 0xE0) * 64 + (b1 - 0x80)) * 64 + (b2 - 0x80))
    ensures var cp := ((b0 - 0xE0) * 64 + (b1 - 0x80)) * 64 + (b2 - 0x80);
            DecodeOne(PercentByte(b0) + (PercentByte(b1) + (PercentByte(b2) + rest)))
            == Some((cp as char, 9))
  {
    var t2 := PercentByte(b2) + rest;
    var t1 := PercentByte(b1) + t2;
    ReadPercentByte(b0, t1);
    ReadContinuationStep(b1, t2, 1, b0 - 0xE0);
    ReadContinuationStep(b2, rest, 0, (b0 - 0xE0) * 64 + (b1 - 0x80));
  }

  lemma DecodeFourPercent(b0: nat, b1: nat, b2: nat, b3: nat, rest: string)
    requires 0xF0 <= b0 < 0xF8 && 0x80 <= b1 < 0xC0 && 0x80 <= b2 < 0xC0 && 0x80 <= b3 < 0xC0
    requires IsScalarValue(((((b0 - 0xF0) * 64 + (b1 - 0x80)) * 64 + (b2 - 0x80)) * 64 + (b3 - 0x80)))
    ensures var cp := (((b0 - 0xF0) * 64 + (b1 - 0x80)) * 64 + (b2 - 0x80)) * 64 + (b3 - 0x80);
            DecodeOne(PercentByte(b0) + (PercentByte(b1) + (PercentByte(b2) + (PercentByte(b3) + rest))))
            == Some((cp as char, 12))
  {
    var t3 := PercentByte(b3) + rest;
    var t2 := PercentByte(b2) + t3;
    var t1 := PercentByte(b1) + t2;
    var t := PercentByte(b0) + t1;
    var a1 := (b0 - 0xF0) * 64 + (b1 - 0x80);
    var a2 := a1 * 64 + (b2 - 0x80);
    var cp := a2 * 64 + (b3 - 0x80);
    ReadPercentByte(b0, t1);
    ReadContinuationStep(b1, t2, 2, b0 - 0xF0);
    ReadContinuationStep(b2, t3, 1, a1);
    ReadContinuationStep(b3, rest, 0, a2);
    DecodeOneFour(t, b0, cp);
  }

  /** `DecodeOne` on a four-byte lead whose continuation bytes give `cp`. */
  lemma DecodeOneFour(t: string, b0: nat, cp: nat)
    requires ReadByte(t) == Some(b0) && 0xF0 <= b0 < 0xF8
    requires ReadContinuation(t[3..], 3, b0 - 0xF0) == Some(cp)
    requires IsScalarValue(cp) && 12 <= |t|
    ensures DecodeOne(t) == Some((cp as char, 12))
  {
  }

  lemma TwoPercentBytes(bytes: seq<nat>)
    requires |bytes| == 2 && bytes[0] < 256 && bytes[1] < 256
    ensures PercentBytes(bytes) == PercentByte(bytes[0]) + PercentByte(bytes[1])
  {
    assert bytes[1..][1..] == [];
    assert PercentBytes(bytes[1..]) == PercentByte(bytes[1]) + PercentBytes([]);
  }

  lemma ThreePercentBytes(bytes: seq<nat>)
    requires |bytes| == 3 && bytes[0] < 256 && bytes[1] < 256 && bytes[2] < 256
    ensures PercentBytes(bytes) == PercentByte(bytes[0]) + (PercentByte(bytes[1]) + PercentByte(bytes[2]))
  {
    assert bytes[1..][1..][1..] == [];
    assert PercentBytes(bytes[1..][1..]) == PercentByte(bytes[2]) + PercentBytes([]);
    assert PercentBytes(bytes[1..]) == PercentByte(bytes[1]) + PercentByte(bytes[2]);
  }

  lemma FourPercentBytes(bytes: seq<nat>)
    requires |bytes| == 4 && forall i :: 0 <= i < 4 ==> bytes[i] < 256
    ensures PercentBytes(bytes)
            == PercentByte(bytes[0]) + (PercentByte(bytes[1]) + (PercentByte(bytes[2]) + PercentByte(bytes[3])))
  {
    assert bytes[1..][1..][1..][1..] == [];
    assert PercentBytes(bytes[1..][1..][1..]) == PercentByte(bytes[3]) + PercentBytes([]);
    assert PercentBytes(bytes[1..][1..]) == PercentByte(bytes[2]) + PercentByte(bytes[3]);
  }

  /** The two UTF-8 bytes of a code point in 0x80..0x7FF carry its bits. */
  lemma Utf8Two(c: char)
    requires 0x80 <= c as int < 0x800
    ensures var b := Utf8(c);
            |b| == 2 && 0xC0 <= b[0] < 0xE0 && 0x80 <= b[1] < 0xC0
            && (b[0] - 0xC0) * 64 + (b[1] - 0x80) == c as int
  {
    var n := c as int;
    assert (n / 64) * 64 + n % 64 == n;
  }

  lemma Utf8Three(c: char)
    requires 0x800 <= c as int < 0x1_0000
    ensures var b := Utf8(c);
            |b| == 3 && 0xE0 <= b[0] < 0xF0 && 0x80 <= b[1] < 0xC0 && 0x80 <= b[2] < 0xC0
            && ((b[0] - 0xE0) * 64 + (b[1] - 0x80)) * 64 + (b[2] - 0x80) == c as int
  {
    var n := c as int;
    var q1 := n / 64;
    var q2 := q1 / 64;
    assert q2 * 64 + q1 % 64 == q1;
    assert q1 * 64 + n % 64 == n;
  }

  lemma Utf8Four(c: char)
    requires 0x1_0000 <= c as int
    ensures var b := Utf8(c);
            |b| == 4 && 0xF0 <= b[0] < 0xF8 && 0x80 <= b[1] < 0xC0 && 0x80 <= b[2] < 0xC0
            && 0x80 <= b[3] < 0xC0
            && (((b[0] - 0xF0) * 64 + (b[1] - 0x80)) * 64 + (b[2] - 0x80)) * 64 + (b[3] - 0x80)
               == c as int
  {
    var n := c as int;
    var q1 := n / 64;
    var q2 := q1 / 64;
    var q3 := q2 / 64;
    assert q3 * 64 + q2 % 64 == q2;
    assert q2 * 64 + q1 % 64 == q1;
    assert q1 * 64 + n % 64 == n;
  }

  lemma DecodeTwoBytes(c: char, rest: string)
    requires !IsUnreserved(c) && 0x80 <= c as int < 0x800
    ensures DecodeOne(EncodeChar(c) + rest) == Some((c, 6))
  {
    var b := Utf8(c);
    Utf8Two(c);
    TwoPercentBytes(b);
    assert EncodeChar(c) + rest == PercentByte(b[0]) + (PercentByte(b[1]) + rest);
    DecodeTwoPercent(b[0], b[1], rest);
  }

  lemma DecodeThreeBytes(c: char, rest: string)
    requires !IsUnreserved(c) && 0x800 <= c as int < 0x1_0000
    ensures DecodeOne(EncodeChar(c) + rest) == Some((c, 9))
  {
    var b := Utf8(c);
    Utf8Three(c);
    ThreePercentBytes(b);
    assert EncodeChar(c) + rest == PercentByte(b[0]) + (PercentByte(b[1]) + (PercentByte(b[2]) + rest));
    DecodeThreePercent(b[0], b[1], b[2], rest);
  }

  lemma DecodeFourBytes(c: char, rest: string)
    requires !IsUnreserved(c) && 0x1_0000 <= c as int
    ensures DecodeOne(EncodeChar(c) + rest) == Some((c, 12))
  {
    var b := Utf8(c);
    Utf8Four(c);
    FourPercentBytes(b);
    assert EncodeChar(c) + rest
        == PercentByte(b[0]) + (PercentByte(b[1]) + (PercentByte(b[2]) + (PercentByte(b[3]) + rest)));
    DecodeFourPercent(b[0], b[1], b[2], b[3], rest);
  }

  /** The first character of `EncodeChar(c) + rest` decodes to `c`. */
  lemma DecodeOneEncodeChar(c: char, rest: string)
    ensures DecodeOne(EncodeChar(c) + rest) == Some((c, |EncodeChar(c)|))
  {
    var n := c as int;
    if IsUnreserved(c) {
    } else if n < 0x80 {
      assert EncodeChar(c) == PercentByte(n);
      ReadPercentByte(n, rest);
    } else if n < 0x800 {
      DecodeTwoBytes(c, rest);
    } else if n < 0x1_0000 {
      DecodeThreeBytes(c, rest);
    } else {
      DecodeFourBytes(c, rest);
    }
  }

  /** Decoding undoes `encodeURIComponent`; in particular, two different strings never
      encode to the same text. */
  lemma {:induction false} DecodeEncode(s: string)
    ensures Decode(Encode(s)) == Some(s)
  {
    if |s| > 0 {
      var e := EncodeChar(s[0]);
      var rest := Encode(s[1..]);
      DecodeOneEncodeChar(s[0], rest);
      assert (e + rest)[|e|..] == rest;
      DecodeEncode(s[1..]);
      assert s == [s[0]] + s[1..];
    }
  }
}

=== FILE: wrappers.dfy ===
/** Option and Result: the undefined/null values and the thrown errors of the system. */
module Wrappers {

  /** `None` stands for a JavaScript `undefined` or `null`. */
  datatype Option<+T> = None | Some(value: T) {
    function GetOr(default: T): T {
      match this
      case Some(v) => v
      case None => default
    }
  }

  /** `Failure` stands for an exception or a returned error object; `error` is its message. */
  datatype Result<+T, +E> = Success(value: T) | Failure(error: E)
}
